=== FILE: README.md ===
# TextToSQL core in Dafny

A model of the two deterministic cores of the TextToSQL project, with proofs.

The first core is the **structural comparison of SQL statements**. It
comes from `snowflake_nl2sql_evaluation.py`:
- A statement is cleaned (whitespace collapsed, upper-cased).
- It is cut into clauses (SELECT, FROM, WHERE, GROUP BY, HAVING, ORDER BY,
  LIMIT, JOIN, and a WITH prefix) by the clause patterns.
- Each clause becomes a set of items: aliases, one `table.` qualifier and
  one `f(...)` wrapper are removed.
- Each clause is scored by precision, recall and F1.
- Statements are compared by the average of those scores, plus the
  Jaccard similarity of the table names they mention.

The second core is the **schema side of query planning**. It comes from
`schema_processor.py`:
- A textual schema description is parsed into tables and columns.
- The relationship graph is built from declared foreign keys and the
  `<table>_id` naming convention.
- A join path between two tables is found by breadth-first search and
  rendered as `INNER JOIN` lines.
- A natural-language question is classified as simple, medium or complex
  by indicator phrases.

Every regular expression of the source is written out as a small scanner
that follows Python's backtracking order for that one shape. Most of them
are in module `Scan`:
- the clause patterns, with backtracking of `\s+`, lazy `.+?` groups that
  may not cross a newline, and lookahead alternatives;
- the three `re.sub` patterns (aliases, calls, join clauses);
- `re.search`, `re.sub`, `re.split` and `re.finditer` as loops over
  positions.

Four simpler patterns sit with their only user:
- `^\w+\.` is `Items.StripQualifier`;
- `JOIN\s+(\w+)` is `TableNames.JoinNameAt`;
- the schema patterns `Table:\s+(\w+)` and
  `(\w+)\s+(\w+(?:\(\d+(?:,\d+)?\))?)` are `Schema.TableHeader`,
  `Schema.ColumnDef` and `Schema.TypeEnd`.

Python dictionaries keyed by name are modelled in one of two ways:
- as sequences with distinct names, which keep insertion order;
- as `map`s, where order does not matter.

Scores are exact `real`s.

The modules, in dependency order:
- `Text`: character classes, case mapping, strip and split.
- `Scan`: the clause patterns and the `re` loops.
- `Statement`: the statement clean-up.
- `Clauses`: clause extraction.
- `Items`: component normalisation.
- `Metrics`: precision, recall and F1.
- `TableNames`: table-name extraction.
- `Similarity`: the comparison and the overall score.
- `Schema`: schema parsing and column lookup.
- `Relationships`: the relationship graph.
- `JoinPaths`: the search and the join rendering.
- `Complexity`: question analysis.
- `ScanFacts`, `ClauseExample` and `TableExample`: facts about the scanners
  on concrete text, and two worked examples, one for clause extraction and
  one for table names.

### Behaviour of the code that the model keeps

Each case below is what the code does. A lemma states each one:
- **Blank items are kept.** `normalize_sql_component` tests an item for
  emptiness before its final strip (snowflake_nl2sql_evaluation.py:100-101).
  So a call on a blank argument, `F( )`, contributes the empty item `""`
  (`Items.BlankArgumentKept`).
- **Items are split at every comma.** `re.split(r',\s*')` (line 90) also
  splits at a comma inside a call. `F(A, B)` gives the two items `F(A` and
  `B)` (`Items.CommaInsideCallSplits`).
- **An inferred edge can point back to its own table.** The naming
  convention only asks that `<table>` be a key of the schema
  (schema_processor.py:232-233), and that includes the table holding the
  column (`Relationships.SelfReferenceInferred`).
- **A declared key on a mixed-case column is inferred again.** The condition
  that skips columns with a declared key compares the lower-cased column
  name with the name as declared (schema_processor.py:229-231). A key on
  `Customer_ID` therefore also yields an inferred edge
  (`Relationships.MixedCaseKeyInferredAgain`).
- **A FROM list that runs on past a line break is lost.** Table names are
  extracted from the raw statement (snowflake_nl2sql_evaluation.py:179-180),
  and the FROM group's `.` does not match a newline. So the group never
  holds a line break (`TableNames.FromGroupOneLine`). The group does not
  end at the line break either: a FROM whose list goes on to the next line,
  with no stop keyword or end of text before the line break, gives no match
  at all (`TableNames.ContinuedFromFails`). `SELECT *\nFROM a,\nb` names no
  table (`TableExample.BrokenFromLost`).

## Model

| member | source | states |
|---|---|---|
| Text.StripSlice | snowflake_nl2sql_evaluation.py:58 | `str.strip()` returns a slice of the input with only whitespace before and after it |
| Text.StripIdempotent | snowflake_nl2sql_evaluation.py:58 | stripping stripped text changes nothing |
| Text.StripTrimmed | snowflake_nl2sql_evaluation.py:58 | text that neither starts nor ends with whitespace is returned unchanged |
| Text.Strip | snowflake_nl2sql_evaluation.py:58 | `str.strip()` is never longer than its input and leaves no whitespace at either end (`Text.StripSlice` says it is the middle slice) |
| Text.SplitOnJoinOn | schema_processor.py:159 | joining the pieces of `split(sep)` with the separator gives the text back: no character is lost |
| Text.SplitOn | schema_processor.py:159 | `split(sep)` gives at least one piece and no piece holds the separator |
| Text.UpperIsUpper | snowflake_nl2sql_evaluation.py:51 | upper-cased text has no lower-case letter, and upper-casing such text changes nothing |
| Text.MatchesAtUpper | snowflake_nl2sql_evaluation.py:55 | on upper-cased text, matching an upper-case keyword while ignoring case is an exact match |
| Text.ContainsAt | schema_processor.py:418 | `needle in hay` holds wherever the needle occurs at some position |
| Scan.LazyEnd | snowflake_nl2sql_evaluation.py:27-34 | a lazy group ends at the first position where the lookahead holds; nothing before it satisfies the lookahead, and a failure means no reachable position does |
| Scan.HeadedAt | snowflake_nl2sql_evaluation.py:28-32 | `KW\s+(.+?)(?=…)` matches only where the keyword is; the group ends at the first place after its start where the lookahead holds; no start the `\s+` backtracking tries before it works; no match after the keyword means no start and end work at all |
| Scan.HeadedNowhere | snowflake_nl2sql_evaluation.py:28-32 | a keyword pattern matches nowhere in a text without the keyword |
| Scan.SelectTry | snowflake_nl2sql_evaluation.py:27 | at one run length, `(DISTINCT\s+)?` is tried first: a group found after `DISTINCT` is that of the `DISTINCT` branch; otherwise the group starts right there and `.` covers it; no group exactly when neither branch leaves one; the group ends at the first place the lookahead holds |
| Scan.SelectAfterRun | snowflake_nl2sql_evaluation.py:27 | the SELECT group starts after the keyword's run and ends at the first place after its start where the lookahead holds |
| Scan.SelectLongestRun | snowflake_nl2sql_evaluation.py:27 | the SELECT match is the one of the longest `\s+` run that leaves a match, and no longer run leaves one; without a match, no run length leaves one |
| Scan.CountAt | snowflake_nl2sql_evaluation.py:33 | the LIMIT group is a digit run after the keyword |
| Scan.JoinedAt | snowflake_nl2sql_evaluation.py:34 | the JOIN pattern's group ends at the first place where its lookahead holds; the first prefix alternative that matches is taken, and no match means no alternative matches |
| Scan.JoinedNowhere | snowflake_nl2sql_evaluation.py:34 | the JOIN pattern matches nowhere in a text without `JOIN` |
| Scan.MatchAt | snowflake_nl2sql_evaluation.py:26-34 | a match of any clause pattern has its group strictly after `i` and inside the text (bounds only; `Scan.MatchAtShape` says how each shape matches) |
| Scan.MatchAtShape | snowflake_nl2sql_evaluation.py:26-34 | a match starts with the pattern's keyword; a lazy group ends at the first place its lookahead holds, and `.` covers it; the JOIN match is that of the first prefix that works; the LIMIT group is digits |
| Scan.Search | snowflake_nl2sql_evaluation.py:55 | `re.search` returns the leftmost matching position; no earlier position matches, and no match means no position matches |
| Scan.FindAll | snowflake_nl2sql_evaluation.py:196-197 | `re.finditer` returns matches in text order that do not overlap |
| Scan.FindAllFirst | snowflake_nl2sql_evaluation.py:196-197 | the first match found is the one at the first matching position, and the search resumes where it ends |
| Scan.FindAllEmpty | snowflake_nl2sql_evaluation.py:196-197 | no match is found exactly when no position matches |
| Scan.FindAllSource | snowflake_nl2sql_evaluation.py:196-197 | every match found is the match at some position of the text |
| Scan.SplitCommas | snowflake_nl2sql_evaluation.py:90 | `re.split(r',\s*')` gives the comma-separated segments of the text, one per segment; every segment after the first loses its leading whitespace; no piece holds a comma |
| Scan.SplitCommaList | snowflake_nl2sql_evaluation.py:188 | splitting `', '.join(names)` gives the names back |
| Scan.LastIndexOf | snowflake_nl2sql_evaluation.py:98 | the greedy `.*` backs off to the last `)` of the line: the index found is a `)` with none after it |
| Scan.SubFromNoMatch | snowflake_nl2sql_evaluation.py:83 | `re.sub` leaves text unchanged where the pattern matches nowhere |
| Scan.SubUnchanged | snowflake_nl2sql_evaluation.py:185-186 | a text without a match is returned as it is |
| Scan.AliasAt | snowflake_nl2sql_evaluation.py:83 | a match ends inside the text, after `i` (bounds only; `Scan.AliasAtSplit` and `Scan.AliasAtGreedy` say how it matches) |
| Scan.AliasAtSplit | snowflake_nl2sql_evaluation.py:83 | an alias match is whitespace, `AS` in any case, whitespace and a word, and the word is whole |
| Scan.AliasAtGreedy | snowflake_nl2sql_evaluation.py:83 | wherever `\s+AS\s+\w+` can be read at `i`, the pattern matches there and its word reaches at least as far |
| Scan.CallAt | snowflake_nl2sql_evaluation.py:98 | a call match ends inside the text and its argument is shorter than the match (bounds only; `Scan.CallAtSplit` and `Scan.CallAtGreedy` say how it matches) |
| Scan.CallAtSplit | snowflake_nl2sql_evaluation.py:98 | a call match is a word, `(`, the argument text and `)`, with no newline inside; the argument is the text between the brackets |
| Scan.CallAtGreedy | snowflake_nl2sql_evaluation.py:98 | wherever `\w+\((.*)\)` can be read at `i`, the pattern matches there and ends at that `)` or at a later one of the line |
| Scan.OnThenEnd | snowflake_nl2sql_evaluation.py:185 | the tail `.*?ON.*?(?=...)` ends inside the text, after an `ON` (bounds only; `Scan.OnThenEndFirst` says which `ON`) |
| Scan.OnThenEndFirst | snowflake_nl2sql_evaluation.py:185 | the tail uses the first `ON` on the line after which the lookahead can hold, and ends where it first holds after it; without a match, no reachable `ON` leaves one |
| Scan.JoinKindAt | snowflake_nl2sql_evaluation.py:185 | a join clause of one kind starts with that kind's keyword |
| Scan.JoinKindEnd | snowflake_nl2sql_evaluation.py:185 | a removed join clause ends where `,`, another join or the end of the text follows |
| Scan.JoinClauseAt | snowflake_nl2sql_evaluation.py:185-186 | a join clause ends inside the text, after `i` (bounds only; `Scan.JoinClauseFirst` says how it matches) |
| Scan.JoinClauseFirst | snowflake_nl2sql_evaluation.py:185-186 | the removed clause is that of the first join kind that leads to one, and it ends where the lookahead holds; without one, no kind leads to one |
| Scan.RewriteAt | snowflake_nl2sql_evaluation.py:83-98 | a rewrite replaces a non-empty stretch by text no longer than it; aliases and join clauses are replaced by nothing |
| Scan.RewriteAtShape | snowflake_nl2sql_evaluation.py:83-98 | a removed alias starts with whitespace; a removed join clause ends where its lookahead holds; a call is replaced by its argument text |
| Scan.SubFrom | snowflake_nl2sql_evaluation.py:83-98 | `re.sub` never makes the text longer (bounds only; `Scan.SubFromFirst` and `Scan.SubFromNoMatch` say what it does) |
| Scan.SubFromFirst | snowflake_nl2sql_evaluation.py:83-98 | `re.sub` copies the text before the first match, puts the replacement in place of that match, and goes on after it |
| Statement.ReplaceNewlines | snowflake_nl2sql_evaluation.py:51 | every newline becomes a space and nothing else changes |
| Statement.WordsKeepText | snowflake_nl2sql_evaluation.py:51 | `split()` loses only whitespace: the words put together are the non-space characters of the text, in order |
| Statement.WordsOfJoin | snowflake_nl2sql_evaluation.py:51 | splitting words joined by single spaces gives the words back |
| Statement.NormalizeStatementWords | snowflake_nl2sql_evaluation.py:51 | the words of the cleaned statement are the words of the input, each upper-cased |
| Statement.WordsOfCanonical | snowflake_nl2sql_evaluation.py:51 | splitting cleaned text into words and joining them back gives it back |
| Statement.NormalizeStatementIdempotent | snowflake_nl2sql_evaluation.py:51 | cleaning an already cleaned statement changes nothing |
| Statement.NormalizeStatementFixedPoints | snowflake_nl2sql_evaluation.py:51 | a text is left unchanged by the clean-up exactly when it is already canonical and upper-case |
| Statement.Words | snowflake_nl2sql_evaluation.py:51 | every word of `split()` is non-empty and holds no whitespace |
| Statement.NormalizeStatement | snowflake_nl2sql_evaluation.py:51 | the cleaned statement is canonical (single spaces between words, none at either end) and upper-case |
| Clauses.ScanClause | snowflake_nl2sql_evaluation.py:55-64 | a clause is found exactly when its pattern matches somewhere (WITH: only at the start of a statement that starts `WITH `); its text is the stripped group of the leftmost match |
| Clauses.ScanFound | snowflake_nl2sql_evaluation.py:55-58 | the leftmost match of a clause pattern gives the stripped text of its group |
| Clauses.ScanAbsent | snowflake_nl2sql_evaluation.py:55-56 | a pattern that matches nowhere gives no clause |
| Clauses.ExtractComponents | snowflake_nl2sql_evaluation.py:37-66 | empty input has no clauses; a WITH entry only for statements that start `WITH `; every value is stripped; a clause is present only if its keyword occurs in the cleaned statement |
| Clauses.ClauseFound | snowflake_nl2sql_evaluation.py:51-66 | a clause is extracted exactly when its pattern matches the cleaned statement (WITH: at position 0 of a statement starting `WITH `), and its value is the stripped group of the leftmost match |
| Clauses.KeywordPresent | snowflake_nl2sql_evaluation.py:27-34 | a clause is found only where its keyword occurs |
| Clauses.ExtractAfterNormalize | snowflake_nl2sql_evaluation.py:51 | extraction from an already cleaned statement gives the same clauses |
| Clauses.NoClauseInEmpty | snowflake_nl2sql_evaluation.py:27-34 | no pattern matches the empty statement |
| Clauses.PatternShape | snowflake_nl2sql_evaluation.py:26-35 | only SELECT has the DISTINCT shape, only LIMIT reads digits, only JOIN has prefix alternatives; every other pattern starts with its keyword; `.` crosses line breaks only for WITH; every pattern but WITH may also stop at the end of the text |
| ClauseExample.SampleComponents | snowflake_nl2sql_evaluation.py:37-66 | `select a from t where x = 1` gives SELECT `A`, FROM `T` and WHERE `X = 1`, and nothing else |
| Items.StripQualifier | snowflake_nl2sql_evaluation.py:96 | the qualifier is dropped exactly when the item starts with a word followed by `.`, and what remains is a suffix of the item |
| Items.CleanItem | snowflake_nl2sql_evaluation.py:94-98 | a cleaned piece is never longer than the stripped piece |
| Items.CleanPlain | snowflake_nl2sql_evaluation.py:94-98 | a piece with neither `.` nor `(` is only stripped |
| Items.ItemSet | snowflake_nl2sql_evaluation.py:92-101 | the items are exactly the stripped cleaned texts of the pieces whose cleaned text is non-empty; every item is stripped |
| Items.ItemSetIsLoop | snowflake_nl2sql_evaluation.py:93-101 | the item set equals the set the loop builds piece by piece |
| Items.NormalizeComponent | snowflake_nl2sql_evaluation.py:68-103 | empty text gives no items; text that is `*` once aliases are removed gives `{"*"}`; every item is stripped |
| Items.ComponentItems | snowflake_nl2sql_evaluation.py:83-101 | outside the empty and `*` cases, the items are exactly the cleaned, stripped texts of the comma pieces, after the aliases are removed, that are non-empty once cleaned |
| Items.WordList | snowflake_nl2sql_evaluation.py:83-103 | a comma-separated list of words gives exactly the set of its words |
| Items.ListOfTwo | snowflake_nl2sql_evaluation.py:83-103 | `A, B` gives `{"A", "B"}` |
| Items.ListOfOne | snowflake_nl2sql_evaluation.py:83-103 | `ID` gives `{"ID"}` |
| Items.QualifiedColumn | snowflake_nl2sql_evaluation.py:96 | `q.c` is compared as `c` |
| Items.AliasedColumn | snowflake_nl2sql_evaluation.py:83-98 | `q.c AS a` is compared as `c`, the same item as the bare column |
| Items.CallColumn | snowflake_nl2sql_evaluation.py:98 | `f(x)` is compared as `x` |
| Items.CountOfQualified | snowflake_nl2sql_evaluation.py:96-98 | `COUNT(O.X)` gives `{"O.X"}`: the qualifier pattern is anchored at the start, so it does not reach inside the call |
| Items.CommaInsideCallSplits | snowflake_nl2sql_evaluation.py:90-101 | `F(A, B)` gives `{"F(A", "B)"}`: the comma inside the call splits the items |
| Items.BlankArgumentKept | snowflake_nl2sql_evaluation.py:98-101 | `F( )` contributes the empty item, because the emptiness test comes before the strip |
| Metrics.ComponentMetrics | snowflake_nl2sql_evaluation.py:105-132 | two empty sets score 1 on all three scores; exactly one empty set scores 0; otherwise precision and recall are the overlap over each size; every score lies in [0, 1] |
| Metrics.F1IsDice | snowflake_nl2sql_evaluation.py:126-130 | F1 of two non-empty sets equals twice the overlap over the sum of the sizes |
| Metrics.F1ZeroIffDisjoint | snowflake_nl2sql_evaluation.py:126-130 | F1 of two non-empty sets is zero exactly when they share nothing |
| Metrics.SelfScoreIsPerfect | snowflake_nl2sql_evaluation.py:116-132 | a set scored against itself is perfect |
| Metrics.MetricsSwap | snowflake_nl2sql_evaluation.py:116-132 | exchanging the two sets exchanges precision and recall and keeps F1 |
| Metrics.F1InUnit | snowflake_nl2sql_evaluation.py:130 | F1 of two scores in [0, 1] is in [0, 1] |
| TableNames.TableOfPiece | snowflake_nl2sql_evaluation.py:191 | the name of a piece has no space, is stripped, and holds no comma if the piece holds none |
| TableNames.Names | snowflake_nl2sql_evaluation.py:189-193 | at most one name per piece, each non-empty, without a space or comma, and with no whitespace at either end (a tab inside a name stays) |
| TableNames.FromTables | snowflake_nl2sql_evaluation.py:183-193 | every FROM-list name is non-empty, without a space or comma, and with no whitespace at either end |
| TableNames.FromTablesOfPlainList | snowflake_nl2sql_evaluation.py:183-193 | a FROM list of plain names without joins or aliases gives exactly its names |
| TableNames.AliasIgnored | snowflake_nl2sql_evaluation.py:191 | a name followed by an alias gives the name alone |
| TableNames.NoRewriteWithoutJoinClause | snowflake_nl2sql_evaluation.py:185-186 | the join-clause removal changes nothing at a position where no join clause starts |
| TableNames.FromGroupOneLine | snowflake_nl2sql_evaluation.py:179-180 | the FROM text taken from the raw statement never holds a newline |
| TableNames.ContinuedFromFails | snowflake_nl2sql_evaluation.py:179-180 | at a `FROM a,` followed by a line break and more text, the FROM pattern gives no match |
| TableNames.JoinNameAt | snowflake_nl2sql_evaluation.py:196 | the group of `JOIN\s+(\w+)` lies after the keyword and inside the text (bounds only; `TableNames.JoinNameAtShape` gives the shape) |
| TableNames.JoinNames | snowflake_nl2sql_evaluation.py:196-198 | the words of the `JOIN\s+(\w+)` matches found by `re.finditer` (no contract of its own; `TableNames.JoinNamesFirst`, `JoinNamesEmpty`, `JoinNameSource` and `JoinNamesWords` state it) |
| TableNames.JoinNameAtShape | snowflake_nl2sql_evaluation.py:196 | a `JOIN\s+(\w+)` match is the keyword, a whitespace run, and a whole word that the next character does not extend |
| TableNames.JoinNameOf | snowflake_nl2sql_evaluation.py:196 | `JOIN name` is found with exactly the word after it |
| TableNames.JoinNamesWords | snowflake_nl2sql_evaluation.py:196-198 | every join name is a non-empty word |
| TableNames.JoinNamesFirst | snowflake_nl2sql_evaluation.py:196-198 | the join names start with the word of the first match, and go on after the end of that match: every non-overlapping match in order, duplicates kept |
| TableNames.JoinNamesEmpty | snowflake_nl2sql_evaluation.py:196-198 | there are no join names exactly when `JOIN\s+(\w+)` matches nowhere |
| TableNames.JoinNameSource | snowflake_nl2sql_evaluation.py:196-198 | every join name is the word of a match at some position |
| TableNames.NoJoinNames | snowflake_nl2sql_evaluation.py:196-198 | text without `JOIN` contributes no join names |
| TableNames.JoinNamesPlain | snowflake_nl2sql_evaluation.py:196-198 | every join name is non-empty and without whitespace or comma |
| TableNames.TableNamesOf | snowflake_nl2sql_evaluation.py:163-200 | empty input names no table; every name is non-empty, without a space or comma, and with no whitespace at either end |
| TableExample.TablesOfQuery | snowflake_nl2sql_evaluation.py:163-200 | `SELECT * FROM customers c LEFT JOIN orders o ON c.id = o.customer_id` names `customers` and then `orders` |
| TableExample.BrokenFromLost | snowflake_nl2sql_evaluation.py:176-200 | `SELECT *\nFROM a,\nb` names no table: its FROM list runs past a line break |
| Similarity.CompareOne | snowflake_nl2sql_evaluation.py:149-159 | one pass of the loop: each side's items are its normalised clause text, or no items when the side lacks the clause (`get(component, '')`); the scores are the component metrics of the two item sets |
| Similarity.CompareComponents | snowflake_nl2sql_evaluation.py:134-161 | one result for exactly the clause kinds present on either side, each the comparison of that kind (`CompareEntry` spells it out) |
| Similarity.CompareEntry | snowflake_nl2sql_evaluation.py:147-159 | the result of every clause kind present on either side holds both sides' item sets, an absent side giving none, and their component metrics |
| Similarity.Jaccard | snowflake_nl2sql_evaluation.py:225-227 | table similarity is in [0, 1], and 0 when neither side names a table |
| Similarity.CalculateSqlSimilarity | snowflake_nl2sql_evaluation.py:202-246 | the per-clause results are those of comparing the two statements' clauses; the table lists are those extracted; table similarity is the Jaccard overlap of the two table sets; each overall score is the average of that score over the clause results (`Mean`, stated by the lemmas below), and 0 when no clause was found; every overall score is in [0, 1] |
| Similarity.Compare | snowflake_nl2sql_evaluation.py:215-238 | on already extracted clauses and table lists: the clause results are those of comparing the two sides; each overall score is the average of that score over the results and 0 without results, and every one is in [0, 1]; table similarity is the Jaccard overlap of the two table sets |
| Similarity.OneSidedClauseScoresZero | snowflake_nl2sql_evaluation.py:119-123 | a clause present only on one side with items scores 0 |
| Similarity.CompareSwap | snowflake_nl2sql_evaluation.py:134-161 | exchanging the statements exchanges precision and recall of every clause |
| Similarity.SelfCompareIsPerfect | snowflake_nl2sql_evaluation.py:134-161 | a clause set compared with itself is perfect on every clause |
| Similarity.CountOverIsSize | snowflake_nl2sql_evaluation.py:230-237 | the number of averaged scores is the number of clause results |
| Similarity.SumOverBounds | snowflake_nl2sql_evaluation.py:230-237 | the sum of scores lies between 0 and their number |
| Similarity.MeanInUnit | snowflake_nl2sql_evaluation.py:235-237 | every average lies in [0, 1] |
| Similarity.MeanOfPerfect | snowflake_nl2sql_evaluation.py:235-237 | the average of perfect scores is 1 |
| Similarity.Mean | snowflake_nl2sql_evaluation.py:230-237 | `sum(scores) / len(scores) if scores else 0.0` over the clause results (no contract of its own; `MeanBetween`, `MeanWithinScores`, `MeanOfConstant` and `MeanInUnit` state it, and it is 0 without results by `CalculateSqlSimilarity`) |
| Similarity.MeanBetween | snowflake_nl2sql_evaluation.py:235-237 | an average lies within any bounds that every averaged score keeps |
| Similarity.MeanWithinScores | snowflake_nl2sql_evaluation.py:235-237 | an average lies between the smallest and the largest averaged score: some score is at or below it and some at or above it |
| Similarity.MeanOfConstant | snowflake_nl2sql_evaluation.py:235-237 | the average of scores that are all `v` is `v` |
| Similarity.SumOverBetween | snowflake_nl2sql_evaluation.py:235-237 | where every score lies in [lo, hi], the sum lies between `lo` and `hi` added up once per score |
| Similarity.TimesQuotient | snowflake_nl2sql_evaluation.py:235-237 | a sum divided by the count and added up once per score gives the sum back |
| Similarity.JaccardSymmetric | snowflake_nl2sql_evaluation.py:225-227 | table similarity does not depend on the order of the sides |
| Similarity.JaccardOneIffEqual | snowflake_nl2sql_evaluation.py:225-227 | table similarity is 1 exactly when both sides name the same non-empty set of tables |
| Similarity.SimilaritySwap | snowflake_nl2sql_evaluation.py:202-246 | exchanging the statements keeps F1 and table similarity and exchanges precision and recall |
| Similarity.SelfSimilarity | snowflake_nl2sql_evaluation.py:202-246 | a statement compared with itself scores 1 on every average when it has a clause (0 when it has none), and its table similarity is 1 exactly when it names a table |
| Schema.TableNames | schema_processor.py:413 | the table names in schema order, one per table |
| Schema.TableIndex | schema_processor.py:254 | the position of the first table with the name, or the number of tables when none has it |
| Schema.GetTableColumns | schema_processor.py:244-256 | an unknown table has no columns; a known table gives its own columns |
| Schema.TableHeader | schema_processor.py:165-167 | a header names a non-empty word |
| Schema.ColumnDef | schema_processor.py:178-180 | a column line starts with the column name, a non-empty word followed by whitespace; its type starts with a word character |
| Schema.TypeEnd | schema_processor.py:157 | an optional size suffix starts with `(` and ends with `)` |
| Schema.Classify | schema_processor.py:160-178 | a stripped line is a header exactly when the header pattern matches it; otherwise a column when the column pattern matches it |
| Schema.HeaderOfName | schema_processor.py:156 | `Table: name` names that table |
| Schema.HeaderIsCaseSensitive | schema_processor.py:156 | `table: users` is not a header |
| Schema.ColumnOfWords | schema_processor.py:157 | `name type` gives that name and type |
| Schema.ColumnOfSizedType | schema_processor.py:157 | `name type(size)` keeps the size in the type |
| Schema.Put | schema_processor.py:168-173 | storing a table under a name already present replaces that entry in place and leaves every other entry as it was; a new name is added last; afterwards the name's columns are the stored table's |
| Schema.AddColumn | schema_processor.py:181-184 | the named table's columns become its old columns followed by the new one; every other table, and every name and key, is unchanged; an unknown name changes nothing |
| Schema.Step | schema_processor.py:159-184 | one line of the parse loop (no contract of its own; `Schema.StepEffect` states it) |
| Schema.Parsed | schema_processor.py:153-184 | the parse state after the first `m` lines (no contract of its own; `Schema.ParsedCurrent` and `Schema.ParsedPlaces` state it) |
| Schema.StepEffect | schema_processor.py:159-184 | a header makes its table current and empty; a column line keeps the current table and the names, and appends the column to the current table; any other line changes nothing |
| Schema.ParsedCurrent | schema_processor.py:153-184 | there is a current table exactly when a header line has been read, and it is a table of the parse |
| Schema.ExtractSchemaFromDescription | schema_processor.py:138-187 | the parsed schema has distinct names and no declared keys |
| Schema.DescriptionTables | schema_processor.py:159-174 | the parsed tables are exactly the names of the header lines |
| Schema.DescriptionColumns | schema_processor.py:159-184 | each table holds exactly the column lines after its last header while it is the current table; column lines before any header are ignored |
| Relationships.ForeignKeyEdge | schema_processor.py:217-225 | a declared key gives an edge exactly when it names a non-empty referenced table |
| Relationships.ForeignKeyEdges | schema_processor.py:217-225 | at most one edge per declared key, each many-to-one |
| Relationships.InferredEdge | schema_processor.py:228-239 | an inferred edge always leads to a table of the schema |
| Relationships.InferredEdges | schema_processor.py:228-239 | at most one edge per column, each a potential foreign key to a table of the schema |
| Relationships.TableEdges | schema_processor.py:216-239 | a table has at most as many edges as keys and columns; the many-to-one edges are exactly the first ones, those of the declared keys; every inferred edge leads to a table of the schema |
| Relationships.InferRelationships | schema_processor.py:202-242 | the graph has an entry for exactly the table names, and a table has no more edges than it has keys and columns together |
| Relationships.EdgesOf | schema_processor.py:213-239 | the entry of a table is its declared edges followed by its inferred edges |
| Relationships.ForeignKeyEdgesMembers | schema_processor.py:217-225 | the declared edges are exactly the edges of the declared keys |
| Relationships.InferredEdgesMembers | schema_processor.py:228-239 | the inferred edges are exactly the edges of the columns |
| Relationships.KeyGivesEdge | schema_processor.py:217-225 | the i-th declared edge is the edge of the key at position `KeyOfEdge(i)` |
| Relationships.ColumnGivesEdge | schema_processor.py:228-239 | the i-th inferred edge is the edge of the column at position `ColumnOfEdge(i)` |
| Relationships.KeyOfEdgeIncreasing | schema_processor.py:217-225 | declared edges come in the order of their keys: a later edge comes from a later key |
| Relationships.ColumnOfEdgeIncreasing | schema_processor.py:228-239 | inferred edges come in the order of their columns: a later edge comes from a later column |
| Relationships.EdgesInSourceOrder | schema_processor.py:216-239 | in a table's edge list, two many-to-one edges keep the order of their keys and two potential-foreign-key edges keep the order of their columns |
| Relationships.ManyToOneEdges | schema_processor.py:217-225 | a table's many-to-one edges are exactly its keys that name a referenced table, with the columns as declared |
| Relationships.PotentialEdges | schema_processor.py:228-239 | a table's inferred edges are exactly its columns whose lower-cased name is `<table>_id` for a table of the schema and no declared key's column; they join that name to `id` |
| Relationships.InferredEdgeIs | schema_processor.py:228-239 | one column gives edge `e` exactly when its lower-cased name is `e`'s table followed by `_id`, that table is in the schema and no declared key names the column; the edge joins the column to `id` |
| Relationships.InferredTargetsAreTables | schema_processor.py:228-239 | every inferred edge leads to a table of the schema; every declared edge to a non-empty name |
| Relationships.DeclaredEdgesFirst | schema_processor.py:216-239 | in every edge list the declared edges come before the inferred ones |
| Relationships.MixedCaseKeyInferredAgain | schema_processor.py:229-231 | a declared key on `Customer_ID` also yields an inferred edge for the same column |
| Relationships.SelfReferenceInferred | schema_processor.py:232-233 | a column `employee_id` of table `employee` gives an edge from the table to itself |
| JoinPaths.SuggestJoinPaths | schema_processor.py:316-376 | at most one path; a path exactly when the target is reachable; its joins chain from source to target along graph edges as inner joins; no walk to the target is shorter; the source alone gives the empty path |
| JoinPaths.FirstHit | schema_processor.py:336-344 | every walk to a table has a prefix that reaches it without passing it earlier |
| JoinPaths.Complete | schema_processor.py:332-351 | once the queue is empty, a path was found exactly when the target is reachable, and it is a shortest walk to it |
| JoinPaths.AllVisited | schema_processor.py:332-351 | once the queue is empty, every table reachable without passing the target has been visited |
| JoinPaths.VisitShortest | schema_processor.py:333-339 | the table leaving the queue is recorded at its shortest distance |
| JoinPaths.VisitStep | schema_processor.py:333-351 | visiting the front table keeps every invariant of the search |
| JoinPaths.SkipClosed | schema_processor.py:336-337 | skipping a visited table keeps every table covered |
| JoinPaths.WalkJoins | schema_processor.py:355-372 | the joins of a walk chain from its start to its end along graph edges |
| JoinPaths.JoinsOf | schema_processor.py:355-367 | one join per edge of the walk |
| JoinPaths.JoinsOfChain | schema_processor.py:355-367 | the first join starts at the source, each next one where the previous one ended, and each is an inner join to its edge's table on its edge's columns |
| JoinPaths.FormatPaths | schema_processor.py:354-372 | one join path per path found |
| JoinPaths.FormatJoinPathForQuery | schema_processor.py:378-391 | the fragment is empty exactly when there are no joins |
| JoinPaths.Show | schema_processor.py:390 | a present column is printed as itself; the text `None` comes out exactly for a missing column or a column named `None` |
| JoinPaths.JoinLine | schema_processor.py:390 | the line of a join holds no newline exactly when none of its tables, columns and join type does |
| JoinPaths.TerminatedSplit | schema_processor.py:388-391 | splitting newline-terminated lines at newlines gives the lines back and a final empty piece |
| JoinPaths.FormatLines | schema_processor.py:388-391 | the fragment splits into one line per join, in order |
| Complexity.LikelyTablesMembers | schema_processor.py:413-419 | a table is suggested exactly when its lower-cased name occurs in the lower-cased question |
| Complexity.LikelyTablesInOrder | schema_processor.py:413-419 | the suggested tables keep schema order |
| Complexity.LikelyTables | schema_processor.py:413-419 | at most one suggestion per table (bounds only; `Complexity.LikelyTablesMembers` and `Complexity.LikelyTablesInOrder` state which and in what order) |
| Complexity.SuggestedTables | schema_processor.py:413-419 | the analysis suggests a table exactly when its lower-cased name occurs in the lower-cased question |
| Complexity.AnalyzeQueryComplexity | schema_processor.py:393-449 | complex exactly when a complex indicator occurs; simple exactly when no indicator of any kind occurs; the join and aggregation flags are set exactly when their indicators occur; the suggested tables are those whose name occurs in the question, in schema order; the approach is the simple one for a simple question, the complex one for a complex question, and for a medium one the aggregation approach if it aggregates, else the join one; no filters |
| Complexity.CaseBlind | schema_processor.py:418-435 | the analysis ignores the case of the question |
| Complexity.MoreTextNoSimpler | schema_processor.py:421-436 | adding text to a question never lowers its complexity |
| Complexity.BetweenIsComplex | schema_processor.py:421-436 | "between" is both a join and a complex indicator: such a question is complex and needs a join |
| Complexity.NoIndicatorIsSimple | schema_processor.py:438-440 | a question without any indicator is simple and gets the simple approach |

## Left out

- `sql_agent.py` and the LLM-driven agent: it calls a language model and a database. Neither is modelled.
- Schema extraction from a live connection (`extract_schema_from_connection`) and from JSON (`extract_schema_from_json`): one is database I/O, the other an identity assignment.
- `format_schema_for_prompt`: prompt text formatting, outside the two cores.
- The evaluation drivers (loading datasets, executing queries, reports, plots): I/O.
- `SchemaProcessor`'s fields `db_schema` and `relationships`: they become explicit parameters, not mutable state.
- Floating point: scores are exact reals. Rounding of `/` on floats is not modelled.
- Character classes: `\s` is the ASCII whitespace that `str.split()`, `str.strip()` and `re` treat as such, including the separators U+001C to U+001F. Non-ASCII whitespace (U+0085, U+00A0 and the like), `\w` on non-ASCII letters, `\d` on non-ASCII decimal digits (as in `LIMIT\s+(\d+)` and the column size `\(\d+(?:,\d+)?\)`), and `str.lower`/`str.upper` on non-ASCII letters are not modelled.
- General regular expressions: only the patterns the source uses are modelled, each as its own scanner.
- Complexity.AnalyzeQueryComplexity: the level is an enumeration. The source writes the strings "simple", "medium" and "complex".
- JoinPaths.SuggestJoinPaths: the final sort by path length is left out. The search records at most one path, so the sort cannot change the order.
- JoinPaths.SuggestJoinPaths: the result holds `Option` columns. The source copies a relationship's possibly-missing `join_column` and `referenced_column`; `Show` renders a missing one as `None`.
- Similarity.CalculateSqlSimilarity: the item lists `list(pred_set)` are kept as sets, because their order in Python is arbitrary.
- Items.NormalizeComponent: `re.IGNORECASE` on `AS` is modelled by case-insensitive matching.

=== FILE: clause_example.dfy ===
/** A worked extraction: the clauses of `select a from t where x = 1`. */
module ClauseExample {
  import opened Text
  import opened Scan
  import opened Statement
  import opened Clauses

  const Sample: string := "select a from t where x = 1"
  const Cleaned: string := "SELECT A FROM T WHERE X = 1"

  /** Positions of a 28-character text, one by one. */
  lemma Position(j: int)
    requires 0 <= j <= 27
    ensures j == 0 || j == 1 || j == 2 || j == 3 || j == 4 || j == 5 || j == 6 || j == 7 || j == 8
         || j == 9 || j == 10 || j == 11 || j == 12 || j == 13 || j == 14 || j == 15 || j == 16
         || j == 17 || j == 18 || j == 19 || j == 20 || j == 21 || j == 22 || j == 23 || j == 24
         || j == 25 || j == 26 || j == 27
  {
  }

  /** The clean-up upper-cases the sample and leaves its single spaces. */
  lemma SampleCleaned()
    ensures NormalizeStatement(Sample) == Cleaned
  {
    StripTrimmed(Sample);
    SampleOneLine();
    SampleCanonical();
    WordsOfCanonical(Sample);
    SampleUpper();
  }

  lemma SampleOneLine()
    ensures ReplaceNewlines(Sample) == Sample
  {
    forall j | 0 <= j < |Sample|
      ensures Sample[j] != '\n'
    {
      Position(j);
    }
  }

  lemma SampleCanonical()
    ensures Canonical(Sample)
  {
    forall j | 0 <= j < |Sample| && IsSpace(Sample[j])
      ensures Sample[j] == ' '
    {
      Position(j);
    }
    forall j | 0 <= j < |Sample| - 1 && Sample[j] == ' '
      ensures Sample[j + 1] != ' '
    {
      Position(j);
    }
  }

  lemma SampleUpper()
    ensures Upper(Sample) == Cleaned
  {
    SampleUpperFront();
    SampleUpperBack();
  }

  lemma SampleUpperFront()
    ensures forall j :: 0 <= j < 14 ==> UpperChar(Sample[j]) == Cleaned[j]
  {
    forall j | 0 <= j < 14
      ensures UpperChar(Sample[j]) == Cleaned[j]
    {
      Position(j);
    }
  }

  lemma SampleUpperBack()
    ensures forall j :: 14 <= j < 27 ==> UpperChar(Sample[j]) == Cleaned[j]
  {
    forall j | 14 <= j < 27
      ensures UpperChar(Sample[j]) == Cleaned[j]
    {
      Position(j);
    }
  }

  /** Which two-letter starts the cleaned sample holds, and where. */
  lemma CleanedPairs()
    ensures NoPairBefore(Cleaned, 'G', 'R', 28) && NoPairBefore(Cleaned, 'H', 'A', 28)
    ensures NoPairBefore(Cleaned, 'O', 'R', 28) && NoPairBefore(Cleaned, 'L', 'I', 28)
    ensures NoPairBefore(Cleaned, 'J', 'O', 28)
    ensures NoPairBefore(Cleaned, 'F', 'R', 9) && NoPairBefore(Cleaned, 'W', 'H', 16)
  {
    CleanedLetters();
    NoPairUpper(Cleaned, 'G', 'R', 28);
    NoPairUpper(Cleaned, 'H', 'A', 28);
    NoPairUpper(Cleaned, 'O', 'R', 28);
    NoPairUpper(Cleaned, 'L', 'I', 28);
    NoPairUpper(Cleaned, 'J', 'O', 28);
    NoPairUpper(Cleaned, 'F', 'R', 9);
    NoPairUpper(Cleaned, 'W', 'H', 16);
  }

  lemma CleanedLetters()
    ensures forall j :: 0 <= j < 27 ==> Cleaned[j] != 'G' && Cleaned[j] != 'J'
    ensures forall j :: 0 <= j < 26 && Cleaned[j] == 'H' ==> Cleaned[j + 1] != 'A'
    ensures forall j :: 0 <= j < 26 && Cleaned[j] == 'O' ==> Cleaned[j + 1] != 'R'
    ensures forall j :: 0 <= j < 26 && Cleaned[j] == 'L' ==> Cleaned[j + 1] != 'I'
    ensures forall j :: 0 <= j < 9 ==> Cleaned[j] != 'F'
    ensures forall j :: 0 <= j < 16 ==> Cleaned[j] != 'W'
    ensures IsUpper(Cleaned)
  {
    forall j | 0 <= j < 27
      ensures Cleaned[j] != 'G' && Cleaned[j] != 'J' && !('a' <= Cleaned[j] <= 'z')
      ensures j < 26 && Cleaned[j] == 'H' ==> Cleaned[j + 1] != 'A'
      ensures j < 26 && Cleaned[j] == 'O' ==> Cleaned[j + 1] != 'R'
      ensures j < 26 && Cleaned[j] == 'L' ==> Cleaned[j + 1] != 'I'
      ensures j < 9 ==> Cleaned[j] != 'F'
      ensures j < 16 ==> Cleaned[j] != 'W'
    {
      Position(j);
    }
  }

  /** The select list is `A`, found at the start. */
  lemma SelectOfSample()
    ensures MatchAt(Cleaned, 0, PatternOf(Select)) == Some(Span(7, 8))
  {
    var t, look := Cleaned, Stops(["FROM"]);
    assert t[0..6] == "SELECT";
    MatchesSlice(t, 0, "SELECT");
    RunOver(t, 6, 7, Space);
    MissAt(t, 7, "DISTINCT", 0);
    assert HeadedAt(t, 7, "DISTINCT", look, false).None?;
    FromAfter(t, 8);
    assert LookOneAt(t, 8, look[0]);
    assert LazyEnd(t, 7, 8, look, false) == Some(8);
  }

  /** `\s+FROM` at `e`, where one space precedes FROM. */
  lemma FromAfter(t: string, e: nat)
    requires e + 5 <= |t| && t[e] == ' ' && t[e + 1..e + 5] == "FROM"
    ensures SpacedAt(t, e, ["FROM"])
  {
    RunOver(t, e, e + 1, Space);
    MatchesSlice(t, e + 1, "FROM");
    assert ["FROM"][1..] == [];
  }

  /** The FROM list is `T`, found at position 9 and nowhere before. */
  lemma FromOfSample()
    ensures MatchAt(Cleaned, 9, PatternOf(From)) == Some(Span(14, 15))
    ensures forall j :: 0 <= j < 9 ==> MatchAt(Cleaned, j, PatternOf(From)).None?
  {
    var t := Cleaned;
    assert t[9..13] == "FROM";
    MatchesSlice(t, 9, "FROM");
    RunOver(t, 13, 14, Space);
    FromGroupEnd();
    CleanedPairs();
    NoMatchBefore(t, "FROM", 9);
  }

  lemma FromGroupEnd()
    ensures LazyEnd(Cleaned, 14, 15, Stops(["WHERE", "GROUP BY", "ORDER BY", "LIMIT", "HAVING"]), false) == Some(15)
  {
    var t, look := Cleaned, Stops(["WHERE", "GROUP BY", "ORDER BY", "LIMIT", "HAVING"]);
    RunOver(t, 15, 16, Space);
    assert t[16..21] == "WHERE";
    MatchesSlice(t, 16, "WHERE");
    assert ["WHERE"][1..] == [];
    assert LookOneAt(t, 15, look[0]);
  }

  /** The WHERE condition is `X = 1`, found at position 16 and nowhere
      before; its group runs to the end of the statement. */
  lemma WhereOfSample()
    ensures MatchAt(Cleaned, 16, PatternOf(Where)) == Some(Span(22, 27))
    ensures forall j :: 0 <= j < 16 ==> MatchAt(Cleaned, j, PatternOf(Where)).None?
  {
    WhereAt();
    WhereNotBefore();
  }

  lemma WhereAt()
    ensures MatchAt(Cleaned, 16, PatternOf(Where)) == Some(Span(22, 27))
  {
    var t := Cleaned;
    assert t[16..21] == "WHERE";
    MatchesSlice(t, 16, "WHERE");
    RunOver(t, 21, 22, Space);
    WhereGroupEnd();
  }

  lemma WhereNotBefore()
    ensures forall j :: 0 <= j < 16 ==> MatchAt(Cleaned, j, PatternOf(Where)).None?
  {
    CleanedPairs();
    NoMatchBefore(Cleaned, "WHERE", 16);
  }

  lemma WhereGroupEnd()
    ensures LazyEnd(Cleaned, 22, 23, Stops(["GROUP BY", "ORDER BY", "LIMIT", "HAVING"]), false) == Some(27)
  {
    var t, kws := Cleaned, ["GROUP BY", "ORDER BY", "LIMIT", "HAVING"];
    var look := Stops(kws);
    WhereTail();
    assert LookOneAt(t, 27, look[4]);
    assert LazyEnd(t, 22, 27, look, false) == Some(27);
    assert LazyEnd(t, 22, 26, look, false) == Some(27);
    assert LazyEnd(t, 22, 25, look, false) == Some(27);
    assert LazyEnd(t, 22, 24, look, false) == Some(27);
  }

  /** No stop of the WHERE pattern holds inside `X = 1`. */
  lemma WhereTail()
    ensures forall e :: 23 <= e < 27 ==> !LookAt(Cleaned, e, Stops(["GROUP BY", "ORDER BY", "LIMIT", "HAVING"]))
  {
    var t, kws := Cleaned, ["GROUP BY", "ORDER BY", "LIMIT", "HAVING"];
    assert forall k :: 0 <= k < |kws| ==> |kws[k]| >= 5;
    RunOver(t, 23, 24, Space);
    NoStopNear(t, 23, kws);
    RunOver(t, 24, 24, Space);
    NoStopNear(t, 24, kws);
    RunOver(t, 25, 26, Space);
    NoStopNear(t, 25, kws);
    RunOver(t, 26, 26, Space);
    NoStopNear(t, 26, kws);
  }

  lemma GroupByAbsent()
    requires NoPairBefore(Cleaned, 'G', 'R', 28)
    ensures ScanClause(Cleaned, GroupBy).None?
  {
    NoMatchBefore(Cleaned, "GROUP BY", 28);
    HeadedNowhere(Cleaned, "GROUP BY", Stops(["ORDER BY", "LIMIT", "HAVING"]), false);
    ScanAbsent(Cleaned, GroupBy);
  }

  lemma HavingAbsent()
    requires NoPairBefore(Cleaned, 'H', 'A', 28)
    ensures ScanClause(Cleaned, Having).None?
  {
    NoMatchBefore(Cleaned, "HAVING", 28);
    HeadedNowhere(Cleaned, "HAVING", Stops(["ORDER BY", "LIMIT"]), false);
    ScanAbsent(Cleaned, Having);
  }

  lemma OrderByAbsent()
    requires NoPairBefore(Cleaned, 'O', 'R', 28)
    ensures ScanClause(Cleaned, OrderBy).None?
  {
    NoMatchBefore(Cleaned, "ORDER BY", 28);
    HeadedNowhere(Cleaned, "ORDER BY", Stops(["LIMIT"]), false);
    ScanAbsent(Cleaned, OrderBy);
  }

  lemma LimitAbsent()
    requires NoPairBefore(Cleaned, 'L', 'I', 28)
    ensures ScanClause(Cleaned, Limit).None?
  {
    NoMatchBefore(Cleaned, "LIMIT", 28);
    ScanAbsent(Cleaned, Limit);
  }

  lemma JoinAbsent()
    requires NoPairBefore(Cleaned, 'J', 'O', 28)
    ensures ScanClause(Cleaned, Join).None?
  {
    NoMatchBefore(Cleaned, "JOIN", 28);
    NoJoinKeyword(Cleaned);
  }

  /** A statement without the word JOIN has no JOIN clause. */
  lemma NoJoinKeyword(t: string)
    requires forall j :: 0 <= j <= |t| ==> !MatchesAt(t, j, "JOIN")
    ensures ScanClause(t, Join).None?
  {
    JoinedNowhere(t, JoinPrefixes, Stops(["ON", "WHERE", "GROUP", "ORDER", "LIMIT"]));
    ScanAbsent(t, Join);
  }

  /** The text of the three groups. */
  lemma CleanedGroups()
    ensures Cleaned[7..8] == "A" && Cleaned[14..15] == "T" && Cleaned[22..27] == "X = 1"
  {
  }

  /** The groups found carry no surrounding whitespace. */
  lemma GroupStripped(g: string)
    requires g == "A" || g == "T" || g == "X = 1"
    ensures Strip(g) == g
  {
    StripTrimmed(g);
  }

  lemma SelectFound(t: string)
    requires t == Cleaned
    ensures ScanClause(t, Select) == Some("A")
  {
    CleanedGroups();
    GroupStripped("A");
    SelectOfSample();
    ScanFound(t, Select, 0, Span(7, 8));
  }

  lemma FromFound(t: string)
    requires t == Cleaned
    ensures ScanClause(t, From) == Some("T")
  {
    CleanedGroups();
    GroupStripped("T");
    FromOfSample();
    ScanFound(t, From, 9, Span(14, 15));
  }

  lemma WhereFound(t: string)
    requires t == Cleaned
    ensures ScanClause(t, Where) == Some("X = 1")
  {
    CleanedGroups();
    GroupStripped("X = 1");
    WhereOfSample();
    ScanFound(t, Where, 16, Span(22, 27));
  }

  /** `extract_sql_components("select a from t where x = 1")` is
      `{select: "A", from: "T", where: "X = 1"}`. */
  lemma SampleComponents()
    ensures ExtractComponents(Sample) == map[Select := "A", From := "T", Where := "X = 1"]
  {
    ComponentsOf(Sample);
  }

  lemma ComponentsOf(sql: string)
    requires sql == Sample
    ensures ExtractComponents(sql) == map[Select := "A", From := "T", Where := "X = 1"]
  {
    var m := map[Select := "A", From := "T", Where := "X = 1"];
    SampleCleaned();
    ScansExpected(NormalizeStatement(sql));
    ExpectedMap(m);
    ExtractFromScans(sql, m);
  }

  lemma ScansExpected(t: string)
    requires t == Cleaned
    ensures forall c :: ScanClause(t, c) == Expected(c)
  {
    forall c
      ensures ScanClause(t, c) == Expected(c)
    {
      SampleScan(t, c);
    }
  }

  lemma ExpectedMap(m: map<Clause, string>)
    requires m == map[Select := "A", From := "T", Where := "X = 1"]
    ensures forall c :: (c in m <==> Expected(c).Some?)
    ensures forall c :: c in m ==> m[c] == Expected(c).value
  {
  }

  /** What the scan finds in the cleaned sample, clause by clause. */
  function Expected(c: Clause): Option<string> {
    match c
    case Select => Some("A")
    case From => Some("T")
    case Where => Some("X = 1")
    case _ => None
  }

  lemma SampleScan(t: string, c: Clause)
    requires t == Cleaned
    ensures ScanClause(t, c) == Expected(c)
  {
    if c == Select || c == From || c == Where || c == With {
      FoundScan(t, c);
    } else {
      AbsentScan(t, c);
    }
  }

  lemma FoundScan(t: string, c: Clause)
    requires t == Cleaned && (c == Select || c == From || c == Where || c == With)
    ensures ScanClause(t, c) == Expected(c)
  {
    match c
    case Select => SelectFound(t);
    case From => FromFound(t);
    case Where => WhereFound(t);
    case With => NoWith(t);
  }

  lemma AbsentScan(t: string, c: Clause)
    requires t == Cleaned && c != Select && c != From && c != Where && c != With
    ensures ScanClause(t, c).None?
  {
    CleanedPairs();
    match c
    case GroupBy => GroupByAbsent();
    case Having => HavingAbsent();
    case OrderBy => OrderByAbsent();
    case Limit => LimitAbsent();
    case Join => JoinAbsent();
  }

  lemma NoWith(t: string)
    requires t == Cleaned
    ensures ScanClause(t, With).None?
  {
    assert t[0] != 'W';
  }
}

=== FILE: clauses.dfy ===
/** Clause extraction: the table of clause patterns and the splitting of one
    cleaned statement into its named clauses. */
module Clauses {
  import opened Text
  import opened Scan
  import opened Statement

  /** The clause kinds: the eight pattern names plus the CTE prefix. */
  datatype Clause = Select | From | Where | GroupBy | Having | OrderBy | Limit | Join | With

  /** The dictionary key the source uses for each clause kind. */
  function Name(c: Clause): string {
    match c
    case Select => "select"
    case From => "from"
    case Where => "where"
    case GroupBy => "group_by"
    case Having => "having"
    case OrderBy => "order_by"
    case Limit => "limit"
    case Join => "join"
    case With => "with"
  }

  /** The clause kinds in the order the source visits them. */
  const ClauseOrder: seq<Clause> := [Select, From, Where, GroupBy, Having, OrderBy, Limit, Join, With]

  const AllClauses: set<Clause> := {Select, From, Where, GroupBy, Having, OrderBy, Limit, Join, With}

  lemma ClauseOrderComplete(c: Clause)
    ensures c in ClauseOrder && c in AllClauses
  {
  }

  /** The keyword each pattern starts from. */
  function Keyword(c: Clause): string {
    match c
    case Select => "SELECT"
    case From => "FROM"
    case Where => "WHERE"
    case GroupBy => "GROUP BY"
    case Having => "HAVING"
    case OrderBy => "ORDER BY"
    case Limit => "LIMIT"
    case Join => "JOIN"
    case With => "WITH"
  }

  /** `\s+KW` lookahead alternatives followed by `\s*$`. */
  function Stops(kws: seq<string>): (r: seq<Look>)
    ensures |r| == |kws| + 1 && r[|kws|] == AtEnd
    ensures forall k :: 0 <= k < |kws| ==> r[k] == Spaced([kws[k]])
  {
    seq(|kws|, k requires 0 <= k < |kws| => Spaced([kws[k]])) + [AtEnd]
  }

  /** Near the end of the text no stop keyword fits after the spaces, and
      more than spaces remain. */
  lemma NoStopNear(t: string, e: nat, kws: seq<string>)
    requires e <= |t| && RunEnd(t, e, Space) < |t|
    requires forall k :: 0 <= k < |kws| ==> e + 1 + |kws[k]| > |t|
    ensures !LookAt(t, e, Stops(kws))
  {
    var look := Stops(kws);
    var m := RunEnd(t, e, Space);
    forall k | 0 <= k < |look|
      ensures !LookOneAt(t, e, look[k])
    {
      if k < |kws| {
        assert look[k] == Spaced([kws[k]]);
        if m > e {
          assert !MatchesAt(t, m, kws[k]);
        }
      }
    }
  }

  /** The prefixes of the join pattern `(LEFT |RIGHT |INNER |OUTER |CROSS |FULL |)`. */
  const JoinPrefixes: seq<string> := ["LEFT ", "RIGHT ", "INNER ", "OUTER ", "CROSS ", "FULL ", ""]

  /** The clause pattern table. The WITH entry is the pattern applied with
      `re.match` (and DOTALL) when the statement starts with `WITH `. */
  function PatternOf(c: Clause): Pattern {
    match c
    case Select => SelectList(Stops(["FROM"]))
    case From => Headed("FROM", Stops(["WHERE", "GROUP BY", "ORDER BY", "LIMIT", "HAVING"]), false)
    case Where => Headed("WHERE", Stops(["GROUP BY", "ORDER BY", "LIMIT", "HAVING"]), false)
    case GroupBy => Headed("GROUP BY", Stops(["ORDER BY", "LIMIT", "HAVING"]), false)
    case Having => Headed("HAVING", Stops(["ORDER BY", "LIMIT"]), false)
    case OrderBy => Headed("ORDER BY", Stops(["LIMIT"]), false)
    case Limit => Count("LIMIT")
    case Join => Joined(JoinPrefixes, Stops(["ON", "WHERE", "GROUP", "ORDER", "LIMIT"]))
    case With => Headed("WITH", [Spaced(["SELECT"])], true)
  }

  /** The shape of each clause pattern: SELECT has the optional DISTINCT,
      LIMIT reads digits, JOIN has the prefix alternatives, and every other
      clause is its keyword, whitespace and a lazy group; `.` crosses line
      breaks only for WITH, and every pattern but WITH may also stop at the
      end of the text. */
  lemma PatternShape(c: Clause)
    ensures PatternOf(c).SelectList? <==> c == Select
    ensures PatternOf(c).Count? <==> c == Limit
    ensures PatternOf(c).Joined? <==> c == Join
    ensures PatternOf(c).Headed? || PatternOf(c).Count? ==> PatternOf(c).keyword == Keyword(c)
    ensures PatternOf(c).Headed? ==> (PatternOf(c).dotall <==> c == With)
    ensures !PatternOf(c).Count? ==> (AtEnd in PatternOf(c).look <==> c != With)
  {
  }

  /** `p` matches `t` at `i` and at no earlier position: the match
      `re.search` reports. */
  predicate FirstMatchAt(t: string, i: nat, p: Pattern) {
    i <= |t| && MatchAt(t, i, p).Some? && forall j :: 0 <= j < i ==> MatchAt(t, j, p).None?
  }

  /** The text of the last group of the match of `p` at `i`. */
  function GroupText(t: string, i: nat, p: Pattern): string
    requires i <= |t| && MatchAt(t, i, p).Some?
  {
    t[MatchAt(t, i, p).value.start..MatchAt(t, i, p).value.end]
  }

  /** The stripped text of clause `c` in the cleaned statement `t`, if
      present: the last group of the leftmost match of its pattern, or for
      WITH of the match at the start of a statement that starts `WITH `. */
  function ScanClause(t: string, c: Clause): (r: Option<string>)
    ensures c == With ==> (r.Some? <==> "WITH " <= t && MatchAt(t, 0, PatternOf(With)).Some?)
    ensures c == With && r.Some? ==> r.value == Strip(GroupText(t, 0, PatternOf(With)))
    ensures c != With ==> (r.Some? <==> exists i :: 0 <= i <= |t| && MatchAt(t, i, PatternOf(c)).Some?)
    ensures c != With && r.Some? ==> exists i :: FirstMatchAt(t, i, PatternOf(c)) && r.value == Strip(GroupText(t, i, PatternOf(c)))
    ensures r.Some? ==> Strip(r.value) == r.value
  {
    if c == With then
      if "WITH " <= t then
        match MatchAt(t, 0, PatternOf(With))
        case Some(sp) => StripIdempotent(t[sp.start..sp.end]); Some(Strip(t[sp.start..sp.end]))
        case None => None
      else None
    else
      match Search(t, PatternOf(c), 0)
      case Some(f) =>
        assert FirstMatchAt(t, f.at, PatternOf(c));
        StripIdempotent(t[f.group.start..f.group.end]);
        Some(Strip(t[f.group.start..f.group.end]))
      case None => None
  }

  /** The clause found where its pattern first matches. */
  lemma ScanFound(t: string, c: Clause, i: nat, sp: Span)
    requires c != With && i <= |t| && MatchAt(t, i, PatternOf(c)) == Some(sp)
    requires forall j :: 0 <= j < i ==> MatchAt(t, j, PatternOf(c)).None?
    ensures ScanClause(t, c) == Some(Strip(t[sp.start..sp.end]))
  {
    var r := ScanClause(t, c);
    assert r.Some?;
    var i' :| FirstMatchAt(t, i', PatternOf(c)) && r.value == Strip(GroupText(t, i', PatternOf(c)));
    assert i' == i;
  }

  /** A clause whose pattern matches nowhere is absent. */
  lemma ScanAbsent(t: string, c: Clause)
    requires c != With && forall j :: 0 <= j <= |t| ==> MatchAt(t, j, PatternOf(c)).None?
    ensures ScanClause(t, c).None?
  {
  }

  /** `extract_sql_components`: the clauses of a statement, keyed by kind. */
  function ExtractComponents(sql: string): (r: map<Clause, string>)
    ensures sql == [] ==> r == map[]
    ensures With in r ==> "WITH " <= NormalizeStatement(sql)
    ensures forall c :: c in r ==> Strip(r[c]) == r[c]
    ensures forall c :: c in r ==> Contains(NormalizeStatement(sql), Keyword(c))
  {
    if sql == [] then map[]
    else
      var t := NormalizeStatement(sql);
      var m := map c | c in AllClauses && ScanClause(t, c).Some? :: ScanClause(t, c).value;
      assert forall c :: c in m ==> Contains(t, Keyword(c)) by {
        forall c | c in m
          ensures Contains(t, Keyword(c))
        {
          KeywordPresent(t, c);
        }
      }
      m
  }

  /** A clause is extracted exactly when its pattern matches the cleaned
      statement (for WITH: at its start, the statement starting `WITH `),
      and its value is the stripped last group of the leftmost match. */
  lemma ClauseFound(sql: string, c: Clause)
    ensures var t, p := NormalizeStatement(sql), PatternOf(c);
      c != With ==> (c in ExtractComponents(sql) <==> exists i :: 0 <= i <= |t| && MatchAt(t, i, p).Some?)
    ensures var t, p := NormalizeStatement(sql), PatternOf(c);
      c != With && c in ExtractComponents(sql) ==>
        exists i :: FirstMatchAt(t, i, p) && ExtractComponents(sql)[c] == Strip(GroupText(t, i, p))
    ensures var t, p := NormalizeStatement(sql), PatternOf(c);
      c == With ==> (c in ExtractComponents(sql) <==> "WITH " <= t && MatchAt(t, 0, p).Some?)
    ensures var t, p := NormalizeStatement(sql), PatternOf(c);
      c == With && c in ExtractComponents(sql) ==> ExtractComponents(sql)[c] == Strip(GroupText(t, 0, p))
  {
    var t := NormalizeStatement(sql);
    ExtractIsScan(sql, c);
    var r := ScanClause(t, c);
  }

  lemma ExtractIsScan(sql: string, c: Clause)
    ensures c in ExtractComponents(sql) <==> ScanClause(NormalizeStatement(sql), c).Some?
    ensures c in ExtractComponents(sql) ==> ExtractComponents(sql)[c] == ScanClause(NormalizeStatement(sql), c).value
  {
    if sql == [] {
      assert ScanClause(NormalizeStatement(sql), c).None? by {
        NormalizeEmpty();
        NoClauseInEmpty(c);
      }
    } else {
      ClauseOrderComplete(c);
    }
  }

  lemma NormalizeEmpty()
    ensures NormalizeStatement([]) == []
  {
    assert Words(ReplaceNewlines(Strip([]))) == [];
  }

  /** The clauses are determined by what the scan finds in the cleaned statement. */
  lemma ExtractFromScans(sql: string, m: map<Clause, string>)
    requires forall c :: (c in m <==> ScanClause(NormalizeStatement(sql), c).Some?)
    requires forall c :: c in m ==> m[c] == ScanClause(NormalizeStatement(sql), c).value
    ensures ExtractComponents(sql) == m
  {
    ExtractAgrees(sql, m);
    SameMaps(ExtractComponents(sql), m);
  }

  lemma SameMaps<K, V>(a: map<K, V>, b: map<K, V>)
    requires forall k :: k in a <==> k in b
    requires forall k :: k in b ==> a[k] == b[k]
    ensures a == b
  {
  }

  lemma ExtractAgrees(sql: string, m: map<Clause, string>)
    requires forall c :: (c in m <==> ScanClause(NormalizeStatement(sql), c).Some?)
    requires forall c :: c in m ==> m[c] == ScanClause(NormalizeStatement(sql), c).value
    ensures forall c :: (c in ExtractComponents(sql) <==> c in m)
    ensures forall c :: c in m ==> ExtractComponents(sql)[c] == m[c]
  {
    forall c
      ensures (c in ExtractComponents(sql) <==> c in m)
      ensures c in m ==> ExtractComponents(sql)[c] == m[c]
    {
      ExtractIsScan(sql, c);
    }
  }

  /** The literal every match of a pattern contains. */
  function Lead(p: Pattern): string {
    match p
    case Headed(kw, _, _) => kw
    case SelectList(_) => "SELECT"
    case Count(kw) => kw
    case Joined(_, _) => "JOIN"
  }

  /** A clause is found only where its keyword occurs in the cleaned statement. */
  lemma KeywordPresent(t: string, c: Clause)
    requires IsUpper(t)
    requires ScanClause(t, c).Some?
    ensures Contains(t, Keyword(c))
  {
    if c == With {
      assert "WITH " <= t;
      assert t[0..4] == "WITH";
      ContainsAt(t, "WITH", 0);
    } else {
      var r := Search(t, PatternOf(c), 0);
      assert r.Some?;
      LeadOfPattern(c);
      PatternLeadPresent(t, r.value.at, PatternOf(c));
    }
  }

  lemma LeadOfPattern(c: Clause)
    ensures Keyword(c) == Lead(PatternOf(c))
    ensures IsUpper(Lead(PatternOf(c)))
  {
  }

  lemma PatternLeadPresent(t: string, i: nat, p: Pattern)
    requires IsUpper(t) && IsUpper(Lead(p)) && i <= |t|
    requires MatchAt(t, i, p).Some?
    ensures Contains(t, Lead(p))
  {
    match p
    case Joined(prefixes, look) =>
      JoinedKeyword(t, i, prefixes, look);
    case Headed(kw, look, dotall) =>
      assert HeadedAt(t, i, kw, look, dotall).Some?;
      LeadPresent(t, i, kw);
    case SelectList(look) =>
      assert MatchesAt(t, i, "SELECT");
      LeadPresent(t, i, "SELECT");
    case Count(kw) =>
      assert CountAt(t, i, kw).Some?;
      LeadPresent(t, i, kw);
  }

  lemma LeadPresent(t: string, i: nat, kw: string)
    requires IsUpper(t) && IsUpper(kw) && MatchesAt(t, i, kw)
    ensures Contains(t, kw)
  {
    MatchesAtUpper(t, i, kw);
    ContainsAt(t, kw, i);
  }

  lemma JoinedKeyword(t: string, i: nat, prefixes: seq<string>, look: seq<Look>)
    requires IsUpper(t) && i <= |t|
    requires JoinedAt(t, i, prefixes, look).Some?
    ensures Contains(t, "JOIN")
  {
    var sp := JoinedAt(t, i, prefixes, look).value;
    assert FirstJoin(t, i, prefixes, look, sp);
    var k :| 0 <= k < |prefixes| && JoinAfter(t, i, prefixes[k], look) == Some(sp);
    var j := JoinAfterKeyword(t, i, prefixes[k], look);
    JoinPresent(t, j);
  }

  /** `LeadPresent` for `JOIN`, kept apart so that its proof does not see
      the join scanner's definitions. */
  lemma JoinPresent(t: string, j: nat)
    requires IsUpper(t) && MatchesAt(t, j, "JOIN")
    ensures Contains(t, "JOIN")
  {
    LeadPresent(t, j, "JOIN");
  }

  lemma JoinAfterKeyword(t: string, i: nat, prefix: string, look: seq<Look>) returns (j: nat)
    requires i <= |t| && JoinAfter(t, i, prefix, look).Some?
    ensures j <= |t| && MatchesAt(t, j, "JOIN")
  {
    assert MatchesAt(t, i, prefix);
    j := i + |prefix|;
    assert HeadedAt(t, j, "JOIN", look, false).Some?;
  }

  /** Extraction only sees the cleaned statement, so extracting from an
      already cleaned statement gives the same clauses. */
  lemma ExtractAfterNormalize(sql: string)
    ensures ExtractComponents(NormalizeStatement(sql)) == ExtractComponents(sql)
  {
    var t := NormalizeStatement(sql);
    NormalizeStatementIdempotent(sql);
    var a, b := ExtractComponents(t), ExtractComponents(sql);
    forall c
      ensures (c in a <==> c in b) && (c in b ==> a[c] == b[c])
    {
      ExtractIsScan(t, c);
      ExtractIsScan(sql, c);
    }
    SameMaps(a, b);
  }

  /** No pattern matches the empty statement. */
  lemma NoClauseInEmpty(c: Clause)
    ensures ScanClause([], c).None?
  {
  }
}

=== FILE: complexity.dfy ===
/** Query planning hints from a natural-language question: the tables it
    names and how complex the query it asks for is likely to be, judged by
    indicator phrases. */
module Complexity {
  import opened Text
  import opened Schema

  datatype Level = Simple | Medium | Complex

  /** Levels in the order a question can raise them. */
  function Rank(l: Level): nat {
    match l
    case Simple => 0
    case Medium => 1
    case Complex => 2
  }

  datatype Analysis = Analysis(
    complexity: Level,
    likelyTables: seq<string>,
    likelyJoinsNeeded: bool,
    likelyAggregations: bool,
    likelyFilters: seq<string>,
    suggestedApproach: string)

  const JoinIndicators: seq<string> := ["between", "related", "connection", "join", "across"]

  const AggregationIndicators: seq<string> :=
    ["average", "total", "sum", "count", "maximum", "minimum", "most", "least", "highest", "lowest"]

  const ComplexIndicators: seq<string> :=
    ["for each", "group by", "having", "more than", "less than", "before", "after", "between"]

  const SimpleApproach := "Simple SELECT query with filters."
  const AggregationApproach := "Use aggregation functions with possible GROUP BY."
  const JoinApproach := "Join tables with appropriate relationships."
  const ComplexApproach := "Complex query with joins, aggregations, and filters."

  /** Some indicator occurs in the text. */
  predicate AnyIn(words: seq<string>, text: string) {
    exists k :: 0 <= k < |words| && Contains(text, words[k])
  }

  /** Some indicator occurs in the question, ignoring case. */
  predicate Mentions(question: string, words: seq<string>) {
    AnyIn(words, Lower(question))
  }

  /** The tables whose lower-cased name occurs in the text, in schema order. */
  function LikelyTables(tables: seq<Table>, text: string): (r: seq<string>)
    ensures |r| <= |tables|
    decreases |tables|
  {
    if tables == [] then []
    else
      var rest := LikelyTables(tables[1..], text);
      if Contains(text, Lower(tables[0].name)) then [tables[0].name] + rest else rest
  }

  /** `analyze_query_complexity`: a join or aggregation indicator makes the
      question medium, a complex indicator makes it complex; the suggested
      approach follows the level. */
  function AnalyzeQueryComplexity(db: DbSchema, question: string): (r: Analysis)
    ensures r.complexity == Complex <==> Mentions(question, ComplexIndicators)
    ensures r.complexity == Simple <==>
      !r.likelyJoinsNeeded && !r.likelyAggregations && !Mentions(question, ComplexIndicators)
    ensures r.likelyJoinsNeeded <==> Mentions(question, JoinIndicators)
    ensures r.likelyAggregations <==> Mentions(question, AggregationIndicators)
    ensures r.complexity == Medium ==>
      r.suggestedApproach == (if r.likelyAggregations then AggregationApproach else JoinApproach)
    ensures r.complexity == Simple ==> r.suggestedApproach == SimpleApproach
    ensures r.complexity == Complex ==> r.suggestedApproach == ComplexApproach
    ensures r.suggestedApproach != []
    ensures r.likelyTables == LikelyTables(db.tables, Lower(question))
    ensures r.likelyFilters == []
  {
    var q := Lower(question);
    var tables := LikelyTables(db.tables, q);
    var joins := AnyIn(JoinIndicators, q);
    var aggregations := AnyIn(AggregationIndicators, q);
    var level := if joins || aggregations then Medium else Simple;
    var level := if AnyIn(ComplexIndicators, q) then Complex else level;
    var approach :=
      match level
      case Simple => SimpleApproach
      case Medium => if aggregations then AggregationApproach else if joins then JoinApproach else []
      case Complex => ComplexApproach;
    Analysis(level, tables, joins, aggregations, [], approach)
  }

  // ---------------------------------------------------------------------------
  // Properties
  // ---------------------------------------------------------------------------

  /** A table is suggested exactly when its lower-cased name occurs in the
      text. */
  lemma {:induction false} LikelyTablesMembers(tables: seq<Table>, text: string, n: string)
    ensures n in LikelyTables(tables, text) <==>
      exists k :: 0 <= k < |tables| && tables[k].name == n && Contains(text, Lower(n))
    decreases |tables|
  {
    if tables != [] {
      LikelyTablesMembers(tables[1..], text, n);
      if exists k :: 0 <= k < |tables| && tables[k].name == n && Contains(text, Lower(n)) {
        var k :| 0 <= k < |tables| && tables[k].name == n && Contains(text, Lower(n));
        if k > 0 {
          assert tables[1..][k - 1] == tables[k];
        }
      }
      if exists k :: 0 <= k < |tables[1..]| && tables[1..][k].name == n && Contains(text, Lower(n)) {
        var k :| 0 <= k < |tables[1..]| && tables[1..][k].name == n && Contains(text, Lower(n));
        assert tables[k + 1] == tables[1..][k];
      }
    }
  }

  /** The analysis suggests a table exactly when its lower-cased name occurs
      in the lower-cased question. */
  lemma SuggestedTables(db: DbSchema, question: string, n: string)
    ensures n in AnalyzeQueryComplexity(db, question).likelyTables <==>
      exists k :: 0 <= k < |db.tables| && db.tables[k].name == n && Contains(Lower(question), Lower(n))
  {
    LikelyTablesMembers(db.tables, Lower(question), n);
  }

  /** The suggested tables keep the schema's order: each comes from a later
      table than the one before it. */
  lemma {:induction false} LikelyTablesInOrder(tables: seq<Table>, text: string)
    requires DistinctNames(tables)
    ensures var r := LikelyTables(tables, text);
      forall a, b :: 0 <= a < b < |r| ==> TableIndex(tables, r[a]) < TableIndex(tables, r[b])
    decreases |tables|
  {
    if tables != [] {
      var rest := LikelyTables(tables[1..], text);
      LikelyTablesInOrder(tables[1..], text);
      forall a | 0 <= a < |rest|
        ensures TableIndex(tables, rest[a]) == TableIndex(tables[1..], rest[a]) + 1 > 0
      {
        LikelyTablesMembers(tables[1..], text, rest[a]);
        var k :| 0 <= k < |tables[1..]| && tables[1..][k].name == rest[a];
        assert tables[k + 1].name == rest[a];
        LaterIndex(tables, rest[a], k + 1);
      }
    }
  }

  /** In a schema with distinct names, the table at position `k` is found at
      `k`. */
  lemma LaterIndex(tables: seq<Table>, n: string, k: nat)
    requires DistinctNames(tables) && 0 < k < |tables| && tables[k].name == n
    ensures TableIndex(tables, n) == k && TableIndex(tables[1..], n) == k - 1
  {
    assert tables[1..][k - 1] == tables[k];
    assert DistinctNames(tables[1..]) by {
      forall i, j | 0 <= i < j < |tables[1..]|
        ensures tables[1..][i].name != tables[1..][j].name
      {
        assert tables[1..][i] == tables[i + 1] && tables[1..][j] == tables[j + 1];
      }
    }
    NamedAt(tables, n, k);
    NamedAt(tables[1..], n, k - 1);
  }

  lemma NamedAt(tables: seq<Table>, n: string, k: nat)
    requires DistinctNames(tables) && k < |tables| && tables[k].name == n
    ensures TableIndex(tables, n) == k
  {
  }

  /** Lower-casing is idempotent, and undoes upper-casing. */
  lemma LowerOfCase(s: string)
    ensures Lower(Lower(s)) == Lower(s)
    ensures Lower(Upper(s)) == Lower(s)
  {
  }

  /** The analysis ignores the case of the question. */
  lemma CaseBlind(db: DbSchema, question: string)
    ensures AnalyzeQueryComplexity(db, Lower(question)) == AnalyzeQueryComplexity(db, question)
    ensures AnalyzeQueryComplexity(db, Upper(question)) == AnalyzeQueryComplexity(db, question)
  {
    LowerOfCase(question);
  }

  lemma {:induction false} ContainsInLonger(a: string, b: string, w: string)
    requires Contains(a, w)
    ensures Contains(a + b, w)
    decreases |a|
  {
    if w <= a {
      assert (a + b)[..|w|] == a[..|w|];
    } else {
      assert (a + b)[1..] == a[1..] + b;
      ContainsInLonger(a[1..], b, w);
    }
  }

  lemma LowerOfConcat(a: string, b: string)
    ensures Lower(a + b) == Lower(a) + Lower(b)
  {
  }

  /** Saying more never makes a question look simpler. */
  lemma MoreTextNoSimpler(db: DbSchema, question: string, more: string)
    ensures Rank(AnalyzeQueryComplexity(db, question).complexity) <=
      Rank(AnalyzeQueryComplexity(db, question + more).complexity)
  {
    var q, q' := Lower(question), Lower(question + more);
    LowerOfConcat(question, more);
    forall words: seq<string> | AnyIn(words, q)
      ensures AnyIn(words, q')
    {
      var k :| 0 <= k < |words| && Contains(q, words[k]);
      ContainsInLonger(q, Lower(more), words[k]);
    }
  }

  /** "between" is both a join and a complex indicator: a question that says
      it is complex and needs a join. */
  lemma BetweenIsComplex(db: DbSchema, pre: string, post: string)
    ensures var r := AnalyzeQueryComplexity(db, pre + "between" + post);
      r.complexity == Complex && r.likelyJoinsNeeded
      && r.suggestedApproach == ComplexApproach
  {
    var question := pre + "between" + post;
    var q := Lower(question);
    assert q[|pre|..|pre| + 7] == "between";
    ContainsAt(q, "between", |pre|);
    assert JoinIndicators[0] == "between" && ComplexIndicators[7] == "between";
  }

  /** A question with no indicator at all asks for a simple query. */
  lemma NoIndicatorIsSimple(db: DbSchema, question: string)
    requires forall w :: w in JoinIndicators + AggregationIndicators + ComplexIndicators ==>
      !Contains(Lower(question), w)
    ensures AnalyzeQueryComplexity(db, question).complexity == Simple
    ensures AnalyzeQueryComplexity(db, question).suggestedApproach == SimpleApproach
  {
    var all := JoinIndicators + AggregationIndicators + ComplexIndicators;
    assert forall k :: 0 <= k < |JoinIndicators| ==> JoinIndicators[k] == all[k];
    assert forall k :: 0 <= k < |AggregationIndicators| ==> AggregationIndicators[k] == all[|JoinIndicators| + k];
    assert forall k :: 0 <= k < |ComplexIndicators| ==>
      ComplexIndicators[k] == all[|JoinIndicators| + |AggregationIndicators| + k];
  }
}

=== FILE: items.dfy ===
/** Component normalisation: one clause text becomes the set of items it is
    compared by, with aliases, one leading `word.` qualifier and one
    `word(...)` wrapper removed. */
module Items {
  import opened Text
  import opened Scan

  /** `re.sub(r'^\w+\.', '', item)`: drops one leading `word.` qualifier. */
  function StripQualifier(item: string): (r: string)
    ensures |r| <= |item| && r == item[|item| - |r|..]
    ensures r != item <==> (RunEnd(item, 0, Word) > 0 && RunEnd(item, 0, Word) < |item| && item[RunEnd(item, 0, Word)] == '.')
  {
    var w := RunEnd(item, 0, Word);
    if w > 0 && w < |item| && item[w] == '.' then item[w + 1..] else item
  }

  /** One comma-separated piece after qualifier and call removal, before the
      final strip. */
  function CleanItem(piece: string): (r: string)
    ensures |r| <= |Strip(piece)|
  {
    var q := StripQualifier(Strip(piece));
    SubFrom(q, 0, UnwrapCall)
  }

  /** A piece with neither `.` nor `(` is only stripped. */
  lemma CleanPlain(piece: string)
    requires '.' !in piece && '(' !in piece
    ensures CleanItem(piece) == Strip(piece)
  {
    var t := Strip(piece);
    assert '.' !in t && '(' !in t by {
      if '.' in t { StripChars(piece, '.'); }
      if '(' in t { StripChars(piece, '('); }
    }
    forall j | 0 <= j < |t|
      ensures RewriteAt(t, j, UnwrapCall).None?
    {
      RewriteAtShape(t, j, UnwrapCall);
    }
    SubUnchanged(t, UnwrapCall);
  }

  /** The items the pieces contribute: a piece counts when its cleaned text is
      non-empty, and what is kept is that text stripped. */
  function ItemSet(pieces: seq<string>): (r: set<string>)
    ensures forall k :: 0 <= k < |pieces| && Contributes(pieces[k]) ==> ItemOf(pieces[k]) in r
    ensures forall x :: x in r ==> exists k :: 0 <= k < |pieces| && Contributes(pieces[k]) && x == ItemOf(pieces[k])
    ensures forall x :: x in r ==> Strip(x) == x
  {
    var r := Kept(pieces, Contributes, ItemOf);
    assert forall x :: x in r ==> Strip(x) == x by {
      forall x | x in r
        ensures Strip(x) == x
      {
        var k :| 0 <= k < |pieces| && Contributes(pieces[k]) && x == ItemOf(pieces[k]);
        StripIdempotent(CleanItem(pieces[k]));
      }
    }
    r
  }

  /** The item a piece contributes: its cleaned text, stripped. */
  function ItemOf(piece: string): string {
    Strip(CleanItem(piece))
  }

  /** A piece contributes an item when its cleaned text is non-empty. */
  predicate Contributes(piece: string) {
    CleanItem(piece) != []
  }

  /** The loop of the source: the set built piece by piece, adding the
      stripped cleaned text of each piece that contributes. */
  function CollectItems(pieces: seq<string>): set<string>
    decreases |pieces|
  {
    if |pieces| == 0 then {}
    else
      var last := pieces[|pieces| - 1];
      CollectItems(pieces[..|pieces| - 1]) + (if Contributes(last) then {ItemOf(last)} else {})
  }

  /** The items are those the piece-by-piece loop collects. */
  lemma {:induction false} ItemSetIsLoop(pieces: seq<string>)
    ensures ItemSet(pieces) == CollectItems(pieces)
    decreases |pieces|
  {
    if |pieces| > 0 {
      ItemSetIsLoop(pieces[..|pieces| - 1]);
      KeptSnoc(pieces, Contributes, ItemOf);
    }
  }

  /** The images under `f` of the elements of `ps` that `keep` selects. */
  function Kept<T, U>(ps: seq<T>, keep: T -> bool, f: T -> U): set<U> {
    set k | 0 <= k < |ps| && keep(ps[k]) :: f(ps[k])
  }

  lemma KeptSnoc<T, U>(ps: seq<T>, keep: T -> bool, f: T -> U)
    requires |ps| > 0
    ensures Kept(ps, keep, f) == Kept(ps[..|ps| - 1], keep, f) + (if keep(ps[|ps| - 1]) then {f(ps[|ps| - 1])} else {})
  {
    var init, last := ps[..|ps| - 1], ps[|ps| - 1];
    var added := if keep(last) then {f(last)} else {};
    forall x | x in Kept(ps, keep, f)
      ensures x in Kept(init, keep, f) + added
    {
      var k :| 0 <= k < |ps| && keep(ps[k]) && x == f(ps[k]);
      if k < |init| {
        assert ps[k] == init[k];
      }
    }
    forall x | x in Kept(init, keep, f) + added
      ensures x in Kept(ps, keep, f)
    {
      if x in Kept(init, keep, f) {
        var k :| 0 <= k < |init| && keep(init[k]) && x == f(init[k]);
        assert init[k] == ps[k];
      }
    }
  }

  /** `normalize_sql_component`. */
  function NormalizeComponent(text: string): (r: set<string>)
    ensures text == [] ==> r == {}
    ensures Strip(SubFrom(text, 0, DropAlias)) == "*" ==> r == {"*"}
    ensures forall x :: x in r ==> Strip(x) == x
  {
    if text == [] then {}
    else
      var t := SubFrom(text, 0, DropAlias);
      if Strip(t) == "*" then {"*"} else ItemSet(SplitCommas(t))
  }

  /** Outside the two special cases, the items of a component are exactly
      the cleaned, stripped texts of the pieces of its comma split, after the
      aliases are removed, that are non-empty once cleaned. */
  lemma ComponentItems(text: string, x: string)
    requires text != [] && Strip(SubFrom(text, 0, DropAlias)) != "*"
    ensures var pieces := SplitCommas(SubFrom(text, 0, DropAlias));
      x in NormalizeComponent(text) <==>
        exists k :: 0 <= k < |pieces| && CleanItem(pieces[k]) != [] && x == Strip(CleanItem(pieces[k]))
  {
    var t := SubFrom(text, 0, DropAlias);
    ComponentPieces(text, t);
    ItemSetMembers(SplitCommas(t), x);
  }

  lemma ComponentPieces(text: string, t: string)
    requires text != [] && t == SubFrom(text, 0, DropAlias) && Strip(t) != "*"
    ensures NormalizeComponent(text) == ItemSet(SplitCommas(t))
  {
  }

  lemma ItemSetMembers(pieces: seq<string>, x: string)
    ensures x in ItemSet(pieces) <==>
      exists k :: 0 <= k < |pieces| && CleanItem(pieces[k]) != [] && x == Strip(CleanItem(pieces[k]))
  {
    if exists k :: 0 <= k < |pieces| && CleanItem(pieces[k]) != [] && x == Strip(CleanItem(pieces[k])) {
      var k :| 0 <= k < |pieces| && CleanItem(pieces[k]) != [] && x == Strip(CleanItem(pieces[k]));
      assert Contributes(pieces[k]) && x == ItemOf(pieces[k]);
    }
  }



  // ---------------------------------------------------------------------------
  // Properties
  // ---------------------------------------------------------------------------

  /** Without whitespace there is no alias to drop. */
  lemma NoAliasWithoutSpace(s: string)
    requires NoSpace(s)
    ensures SubFrom(s, 0, DropAlias) == s
  {
    forall j | 0 <= j < |s|
      ensures RewriteAt(s, j, DropAlias).None?
    {
      assert !InClass(s[j], Space);
    }
    SubUnchanged(s, DropAlias);
  }

  /** Without an opening parenthesis there is no call to unwrap. */
  lemma NoCallWithoutParen(s: string)
    requires '(' !in s
    ensures SubFrom(s, 0, UnwrapCall) == s
  {
    SubUnchanged(s, UnwrapCall);
  }

  /** A text that has no alias, no comma and no surrounding whitespace, and
      is not `*`, is one piece whose cleaned, stripped text is the only item. */
  lemma OnePiece(s: string)
    requires s != [] && SubFrom(s, 0, DropAlias) == s && Strip(s) == s && ',' !in s && s != "*"
    ensures CleanItem(s) != [] ==> NormalizeComponent(s) == {Strip(CleanItem(s))}
  {
    ComponentPieces(s, s);
    CommaFree(s);
    if CleanItem(s) != [] {
      ItemSetKept([s]);
      KeptOne([s], Contributes, ItemOf);
    }
  }

  /** A text without a comma is its own only piece. */
  lemma CommaFree(s: string)
    requires ',' !in s
    ensures SplitCommas(s) == [s]
  {
    assert IndexOf(s, ',', 0) == |s|;
  }

  lemma KeptOne<T, U>(ps: seq<T>, keep: T -> bool, f: T -> U)
    requires |ps| == 1 && keep(ps[0])
    ensures Kept(ps, keep, f) == {f(ps[0])}
  {
    assert f(ps[0]) in Kept(ps, keep, f);
  }

  /** The same for a text without whitespace. */
  lemma SinglePiece(s: string)
    requires s != [] && NoSpace(s) && ',' !in s && s != "*"
    ensures CleanItem(s) != [] ==> NormalizeComponent(s) == {Strip(CleanItem(s))}
  {
    NoAliasWithoutSpace(s);
    StripTrimmed(s);
    OnePiece(s);
  }

  /** A leading word followed by `.` is the qualifier that is dropped. */
  lemma QualifierOf(q: string, c: string)
    requires q != [] && AllWord(q)
    ensures StripQualifier(q + "." + c) == c
  {
    var s := q + "." + c;
    assert forall j :: 0 <= j < |q| ==> s[j] == q[j];
    RunOver(s, 0, |q|, Word);
    assert s[|q| + 1..] == c;
  }

  /** Words joined by `.` have no whitespace, comma or parenthesis. */
  lemma DottedPlain(q: string, c: string)
    requires q != [] && AllWord(q) && c != [] && AllWord(c)
    ensures var s := q + "." + c;
      NoSpace(s) && ',' !in s && '(' !in s && s != "*" && s != []
      && !IsSpace(s[0]) && !IsSpace(s[|s| - 1])
  {
    var s := q + "." + c;
    assert forall j :: 0 <= j < |s| ==> s[j] == '.' || IsWordChar(s[j]);
    assert s[|q|] == '.';
  }

  /** A word is its own strip. */
  lemma WordStrip(c: string)
    requires c != [] && AllWord(c)
    ensures Strip(c) == c && '(' !in c
  {
    StripTrimmed(c);
  }

  /** `q.c` for words `q` and `c` is compared as `c`. */
  lemma QualifiedColumn(q: string, c: string)
    requires q != [] && AllWord(q) && c != [] && AllWord(c)
    ensures NormalizeComponent(q + "." + c) == {c}
  {
    var s := q + "." + c;
    DottedPlain(q, c);
    StripTrimmed(s);
    QualifierOf(q, c);
    WordStrip(c);
    NoCallWithoutParen(c);
    assert CleanItem(s) == c;
    SinglePiece(s);
  }

  /** `\s+AS\s+\w+` after a text without whitespace removes exactly the alias. */
  lemma {:induction false} AliasTail(s: string, a: string, i: nat)
    requires NoSpace(s) && a != [] && AllWord(a) && i <= |s|
    ensures SubFrom(s + " AS " + a, i, DropAlias) == s[i..]
    decreases |s| - i
  {
    var t := s + " AS " + a;
    if i < |s| {
      assert t[i] == s[i] && !InClass(t[i], Space);
      assert AliasAt(t, i).None?;
      AliasTail(s, a, i + 1);
      assert s[i..] == [s[i]] + s[i + 1..];
    } else {
      AliasAtEnd(s, a);
    }
  }

  lemma AliasAtEnd(s: string, a: string)
    requires a != [] && AllWord(a)
    ensures AliasAt(s + " AS " + a, |s|) == Some(|s| + 4 + |a|)
  {
    var t, i := s + " AS " + a, |s|;
    RunOver(t, i, i + 1, Space);
    assert MatchesAt(t, i + 1, "AS");
    RunOver(t, i + 3, i + 4, Space);
    assert forall j :: i + 4 <= j < |t| ==> t[j] == a[j - i - 4];
    RunOver(t, i + 4, |t|, Word);
  }

  /** An aliased qualified column `q.c AS a` is compared as `c`, the same as
      the bare `q.c`. */
  lemma AliasedColumn(q: string, c: string, a: string)
    requires q != [] && AllWord(q) && c != [] && AllWord(c) && a != [] && AllWord(a)
    ensures NormalizeComponent(q + "." + c + " AS " + a) == {c}
  {
    var s := q + "." + c;
    DottedPlain(q, c);
    AliasTail(s, a, 0);
    assert s[0..] == s;
    AliasedSame(s, a);
    QualifiedColumn(q, c);
  }

  /** Normalisation sees an aliased plain text as the text alone. */
  lemma AliasedSame(s: string, a: string)
    requires s != [] && SubFrom(s + " AS " + a, 0, DropAlias) == s && NoSpace(s)
    ensures NormalizeComponent(s + " AS " + a) == NormalizeComponent(s)
  {
    NoAliasWithoutSpace(s);
  }

  /** The parts of a call text `f(x)`. */
  lemma CallPlain(f: string, x: string)
    requires f != [] && AllWord(f) && x != [] && NoSpace(x) && ',' !in x
    ensures var s := f + "(" + x + ")";
      NoSpace(s) && ',' !in s && s != "*" && s != []
      && !IsSpace(s[0]) && !IsSpace(s[|s| - 1])
      && RunEnd(s, 0, Word) == |f| && s[|f|] == '('
      && RunEnd(s, |f| + 1, NotNewline) == |s| && s[|s| - 1] == ')'
      && s[|f| + 1..|s| - 1] == x
  {
    var s := f + "(" + x + ")";
    assert forall j :: 0 <= j < |f| ==> s[j] == f[j];
    assert forall j :: |f| + 1 <= j < |s| - 1 ==> s[j] == x[j - |f| - 1];
    assert NoSpace(s) by {
      forall j | 0 <= j < |s|
        ensures !IsSpace(s[j])
      {
        if j < |f| {
          assert IsWordChar(f[j]);
        } else if |f| < j < |s| - 1 {
          assert !IsSpace(x[j - |f| - 1]);
        }
      }
    }
    assert ',' !in s by {
      forall j | 0 <= j < |s|
        ensures s[j] != ','
      {
        if j < |f| {
          assert IsWordChar(f[j]);
        } else if |f| < j < |s| - 1 {
          assert s[j] == x[j - |f| - 1];
        }
      }
    }
    RunOver(s, 0, |f|, Word);
    RunOver(s, |f| + 1, |s|, NotNewline);
  }

  /** A call `f(x)` of a word `f` on a text `x` without whitespace or comma
      is compared as `x`: the wrapper goes, and a qualifier inside the
      argument stays. */
  lemma CallColumn(f: string, x: string)
    requires f != [] && AllWord(f) && x != [] && NoSpace(x) && ',' !in x
    ensures NormalizeComponent(f + "(" + x + ")") == {x}
  {
    var s := f + "(" + x + ")";
    CallPlain(f, x);
    StripTrimmed(s);
    assert StripQualifier(s) == s;
    assert LastIndexOf(s, ')', |f| + 1, |s|) == Some(|s| - 1);
    assert CallAt(s, 0) == Some((|s|, x));
    assert SubFrom(s, 0, UnwrapCall) == x + SubFrom(s, |s|, UnwrapCall);
    StripTrimmed(x);
    assert CleanItem(s) == x;
    SinglePiece(s);
  }

  /** `COUNT(O.X)` is compared as `O.X`. */
  lemma CountOfQualified()
    ensures NormalizeComponent("COUNT(O.X)") == {"O.X"}
  {
    CountParts("COUNT", "O.X");
    CallColumn("COUNT", "O.X");
  }

  lemma CountParts(f: string, x: string)
    requires f == "COUNT" && x == "O.X"
    ensures f != [] && AllWord(f) && x != [] && NoSpace(x) && ',' !in x
    ensures f + "(" + x + ")" == "COUNT(O.X)"
  {
    assert forall j :: 0 <= j < |x| ==> x[j] == 'O' || x[j] == '.' || x[j] == 'X';
  }

  /** A word is its own cleaned item. */
  lemma WordClean(w: string)
    requires w != [] && AllWord(w)
    ensures CleanItem(w) == w && ItemOf(w) == w && Contributes(w)
  {
    WordStrip(w);
    RunOver(w, 0, |w|, Word);
    NoCallWithoutParen(w);
  }

  /** Without an alias, a comma list of words: the `AS` of an alias would
      need whitespace after it, and every whitespace character follows a comma. */
  lemma NoAliasInCommaList(s: string)
    requires SpacesFollowCommas(s)
    ensures SubFrom(s, 0, DropAlias) == s
  {
    forall j | 0 <= j < |s|
      ensures RewriteAt(s, j, DropAlias).None?
    {
      var m := RunEnd(s, j, Space);
      if m > j && MatchesAt(s, m, "AS") {
        assert SameIgnoringCase(s[m + 1], "AS"[1]);
        if m + 2 < |s| {
          assert !SpaceAt(s, m + 2);
        }
      }
    }
    SubUnchanged(s, DropAlias);
  }

  /** The names of a list, as a set. */
  function SetOf(ws: seq<string>): set<string> {
    set k | 0 <= k < |ws| :: ws[k]
  }

  /** A list of words `w1, w2, ...` is compared as the set of its words. */
  lemma {:induction false} WordList(ws: seq<string>)
    requires |ws| >= 1 && forall k :: 0 <= k < |ws| ==> ws[k] != [] && AllWord(ws[k])
    ensures NormalizeComponent(CommaList(ws)) == SetOf(ws)
  {
    CommaListItems(ws);
  }

  /** A comma list of words is compared as the items of its words, which are
      the words themselves. */
  lemma CommaListItems(ws: seq<string>)
    requires |ws| >= 1 && forall k :: 0 <= k < |ws| ==> ws[k] != [] && AllWord(ws[k])
    ensures NormalizeComponent(CommaList(ws)) == ItemSet(ws) && ItemSet(ws) == SetOf(ws)
  {
    var s := CommaList(ws);
    CommaListPlain(ws);
    PlainList(s, ws);
    WordItems(ws);
  }

  /** A comma list of words has no alias, is not `*` and splits into the words. */
  lemma CommaListPlain(ws: seq<string>)
    requires |ws| >= 1 && forall k :: 0 <= k < |ws| ==> ws[k] != [] && AllWord(ws[k])
    ensures var s := CommaList(ws);
      s != [] && SubFrom(s, 0, DropAlias) == s && Strip(s) != "*" && SplitCommas(s) == ws
  {
    var s := CommaList(ws);
    assert s != [] by {
      assert |ws[0]| <= |s|;
    }
    assert SubFrom(s, 0, DropAlias) == s by {
      WordsBare(ws);
      CommaListSpaces(ws);
      NoAliasInCommaList(s);
    }
    assert Strip(s) != "*" by {
      CommaListNotStar(ws);
    }
    assert SplitCommas(s) == ws by {
      WordsBare(ws);
      SplitCommaList(ws);
    }
  }

  /** A text with no alias, not `*`, is compared as the items of its pieces. */
  lemma PlainList(s: string, ws: seq<string>)
    requires s != [] && SubFrom(s, 0, DropAlias) == s && Strip(s) != "*" && SplitCommas(s) == ws
    ensures NormalizeComponent(s) == ItemSet(ws)
  {
  }

  /** Words are bare names that do not start with whitespace. */
  lemma WordsBare(ws: seq<string>)
    requires forall k :: 0 <= k < |ws| ==> ws[k] != [] && AllWord(ws[k])
    ensures forall k :: 0 <= k < |ws| ==> Bare(ws[k]) && !IsSpace(ws[k][0]) && ',' !in ws[k]
  {
    forall k | 0 <= k < |ws|
      ensures Bare(ws[k]) && !IsSpace(ws[k][0])
    {
      assert forall j :: 0 <= j < |ws[k]| ==> IsWordChar(ws[k][j]);
    }
  }

  /** A comma list of words is not `*`, even once stripped. */
  lemma CommaListNotStar(ws: seq<string>)
    requires |ws| >= 1 && forall k :: 0 <= k < |ws| ==> AllWord(ws[k])
    ensures Strip(CommaList(ws)) != "*"
  {
    var s := CommaList(ws);
    if Strip(s) == "*" {
      assert '*' in Strip(s);
      StripChars(s, '*');
      CommaListChars(ws, '*');
      assert false;
    }
  }

  /** Each word contributes itself. */
  lemma WordItems(ws: seq<string>)
    requires forall k :: 0 <= k < |ws| ==> ws[k] != [] && AllWord(ws[k])
    ensures ItemSet(ws) == SetOf(ws)
  {
    forall k | 0 <= k < |ws|
      ensures Contributes(ws[k]) && ItemOf(ws[k]) == ws[k]
    {
      WordClean(ws[k]);
    }
  }

  /** `A, B` is compared as `{A, B}`. */
  lemma ListOfTwo()
    ensures NormalizeComponent("A, B") == {"A", "B"}
  {
    WordsOf("A, B", ["A", "B"]);
    WordSet(["A", "B"]);
  }

  /** A single name `ID` is compared as `{ID}`. */
  lemma ListOfOne()
    ensures NormalizeComponent("ID") == {"ID"}
  {
    WordsOf("ID", ["ID"]);
    WordSet(["ID"]);
  }

  lemma WordsOf(s: string, ws: seq<string>)
    requires (s == "A, B" && ws == ["A", "B"]) || (s == "ID" && ws == ["ID"])
    ensures NormalizeComponent(s) == SetOf(ws)
  {
    assert forall k :: 0 <= k < |ws| ==> ws[k] != [] && AllWord(ws[k]) by {
      LetterWords(ws);
    }
    assert CommaList(ws) == s;
    WordList(ws);
  }

  lemma LetterWords(ws: seq<string>)
    requires ws == ["A", "B"] || ws == ["ID"]
    ensures forall k :: 0 <= k < |ws| ==> ws[k] != [] && AllWord(ws[k])
  {
    forall k, j | 0 <= k < |ws| && 0 <= j < |ws[k]|
      ensures IsWordChar(ws[k][j])
    {
      assert ws[k][j] in "ABDI";
    }
  }

  lemma WordSet(ws: seq<string>)
    requires ws == ["A", "B"] || ws == ["ID"]
    ensures ws == ["A", "B"] ==> SetOf(ws) == {"A", "B"}
    ensures ws == ["ID"] ==> SetOf(ws) == {"ID"}
  {
    if |ws| == 2 {
      assert SetOf(ws) == {ws[0], ws[1]};
    } else {
      assert SetOf(ws) == {ws[0]};
    }
  }

  /** The split is at every comma, also inside a call: `F(A, B)` is compared
      as the two pieces `F(A` and `B)`, neither of which is a call. */
  lemma CommaInsideCallSplits()
    ensures NormalizeComponent("F(A, B)") == {"F(A", "B)"}
  {
    CallSplit("F(A, B)");
  }

  lemma CallSplit(s: string)
    requires s == "F(A, B)"
    ensures NormalizeComponent(s) == {"F(A", "B)"}
  {
    var ps := ["F(A", "B)"];
    CallText(s, ps);
    TwoPieces(s, ps);
  }

  /** A text without aliases that is not `*` and splits into two pieces,
      each its own item. */
  predicate TwoItemText(s: string, ps: seq<string>) {
    && s != [] && SubFrom(s, 0, DropAlias) == s && Strip(s) == s && s != "*"
    && SplitCommas(s) == ps && |ps| == 2
    && ItemOf(ps[0]) == ps[0] && Contributes(ps[0])
    && ItemOf(ps[1]) == ps[1] && Contributes(ps[1])
  }

  lemma CallText(s: string, ps: seq<string>)
    requires s == "F(A, B)" && ps == ["F(A", "B)"]
    ensures TwoItemText(s, ps)
  {
    PairPlain(s);
    PiecesSplit(s, ps);
    OpenPiece(ps[0]);
    ClosePiece(ps[1]);
  }

  /** Such a text is compared as its two pieces. */
  lemma TwoPieces(s: string, ps: seq<string>)
    requires TwoItemText(s, ps)
    ensures NormalizeComponent(s) == {ps[0], ps[1]}
  {
    ItemSetKept(ps);
    KeptTwo(ps, Contributes, ItemOf);
  }

  /** The items of the pieces are the pieces `Contributes` selects, under `ItemOf`. */
  lemma ItemSetKept(ps: seq<string>)
    ensures ItemSet(ps) == Kept(ps, Contributes, ItemOf)
  {
  }

  lemma PairPlain(s: string)
    requires s == "F(A, B)"
    ensures s != [] && SubFrom(s, 0, DropAlias) == s && Strip(s) == s && s != "*"
  {
    PairNoAlias();
  }

  lemma PiecesSplit(s: string, ps: seq<string>)
    requires s == "F(A, B)" && ps == ["F(A", "B)"]
    ensures SplitCommas(s) == ps
  {
    assert CommaList(ps) == s;
    assert ps[0][0] == 'F' && ps[1][0] == 'B';
    SplitCommaList(ps);
  }

  lemma KeptTwo<T, U>(ps: seq<T>, keep: T -> bool, f: T -> U)
    requires |ps| == 2 && keep(ps[0]) && keep(ps[1])
    ensures Kept(ps, keep, f) == {f(ps[0]), f(ps[1])}
  {
    forall x | x in Kept(ps, keep, f)
      ensures x == f(ps[0]) || x == f(ps[1])
    {
      var k :| 0 <= k < |ps| && keep(ps[k]) && x == f(ps[k]);
    }
  }

  lemma PairNoAlias()
    ensures SubFrom("F(A, B)", 0, DropAlias) == "F(A, B)" && Strip("F(A, B)") == "F(A, B)"
  {
    var s := "F(A, B)";
    StripTrimmed(s);
    forall j | 0 <= j < |s|
      ensures RewriteAt(s, j, DropAlias).None?
    {
      if j == 4 {
        RunOver(s, 4, 5, Space);
        MissAt(s, 5, "AS", 0);
      } else {
        assert !InClass(s[j], Space);
      }
    }
    SubUnchanged(s, DropAlias);
  }

  lemma OpenPiece(s: string)
    requires s == "F(A"
    ensures CleanItem(s) == s && ItemOf(s) == s && Contributes(s)
  {
    OpenPieceClean();
  }

  lemma OpenPieceClean()
    ensures CleanItem("F(A") == "F(A" && ItemOf("F(A") == "F(A"
  {
    var s := "F(A";
    StripTrimmed(s);
    RunOver(s, 0, 1, Word);
    assert StripQualifier(s) == s;
    RunOver(s, 2, 3, NotNewline);
    assert LastIndexOf(s, ')', 2, 3).None?;
    forall j | 0 <= j < |s|
      ensures RewriteAt(s, j, UnwrapCall).None?
    {
      if j == 1 {
        RunOver(s, 1, 1, Word);
      } else if j == 2 {
        RunOver(s, 2, 3, Word);
      }
    }
    SubUnchanged(s, UnwrapCall);
  }

  lemma ClosePiece(s: string)
    requires s == "B)"
    ensures CleanItem(s) == s && ItemOf(s) == s && Contributes(s)
  {
    ClosePieceClean();
  }

  lemma ClosePieceClean()
    ensures CleanItem("B)") == "B)" && ItemOf("B)") == "B)"
  {
    var s := "B)";
    StripTrimmed(s);
    RunOver(s, 0, 1, Word);
    assert StripQualifier(s) == s;
    NoCallWithoutParen(s);
  }

  /** A piece that is non-empty before its final strip counts even when the
      strip leaves nothing: a call on a blank argument, `F( )`, contributes the
      empty item. */
  lemma BlankArgumentKept()
    ensures NormalizeComponent("F( )") == {""}
  {
    BlankHasNoAlias();
    BlankCleaned();
    OnePiece("F( )");
  }

  lemma BlankHasNoAlias()
    ensures SubFrom("F( )", 0, DropAlias) == "F( )" && Strip("F( )") == "F( )"
    ensures "F( )" != [] && ',' !in "F( )" && "F( )" != "*"
  {
    var s := "F( )";
    assert s[0] == 'F' && s[3] == ')';
    StripTrimmed(s);
    forall j | 0 <= j < |s|
      ensures RewriteAt(s, j, DropAlias).None?
    {
      if j == 2 {
        assert RunEnd(s, 2, Space) == 3;
      } else {
        assert !InClass(s[j], Space);
      }
    }
    SubUnchanged(s, DropAlias);
  }

  lemma BlankCleaned()
    ensures CleanItem("F( )") == " " && Strip(CleanItem("F( )")) == ""
  {
    var s := "F( )";
    StripTrimmed(s);
    assert RunEnd(s, 0, Word) == 1;
    assert StripQualifier(s) == s;
    assert RunEnd(s, 2, NotNewline) == 4;
    assert LastIndexOf(s, ')', 2, 4) == Some(3);
    assert s[2..3] == " ";
    assert CallAt(s, 0) == Some((4, " "));
    SubFromReplaces(s, 0, UnwrapCall, 4, " ");
    assert Strip(" ") == "";
  }
}

=== FILE: joinpaths.dfy ===
/** Join-path suggestion: a breadth-first search over the relationship graph
    from one table to another, and the SQL text of the joins it finds. */
module JoinPaths {
  import opened Text
  import opened Relationships

  // ---------------------------------------------------------------------------
  // Walks in the relationship graph
  // ---------------------------------------------------------------------------

  /** The table a walk from `s` has reached after `i` edges. */
  function At(s: string, w: seq<Edge>, i: nat): string
    requires i <= |w|
  {
    if i == 0 then s else w[i - 1].relatedTable
  }

  /** Each edge of `w` leaves, from the graph, the table the walk is at. */
  predicate IsWalk(g: Graph, s: string, w: seq<Edge>) {
    forall i :: 0 <= i < |w| ==> At(s, w, i) in g && w[i] in g[At(s, w, i)]
  }

  predicate WalkTo(g: Graph, s: string, w: seq<Edge>, t: string) {
    IsWalk(g, s, w) && At(s, w, |w|) == t
  }

  /** The walk passes through `t` at most at its end. */
  predicate Avoids(s: string, w: seq<Edge>, t: string) {
    forall i :: 0 <= i < |w| ==> At(s, w, i) != t
  }

  /** `t` can be reached from `s` by following edges of the graph. */
  ghost predicate Reachable(g: Graph, s: string, t: string) {
    exists w :: WalkTo(g, s, w, t)
  }

  lemma AtPrefix(s: string, w: seq<Edge>, j: nat, i: nat)
    requires i <= j <= |w|
    ensures At(s, w[..j], i) == At(s, w, i)
  {
  }

  lemma WalkPrefix(g: Graph, s: string, w: seq<Edge>, j: nat)
    requires IsWalk(g, s, w) && j <= |w|
    ensures WalkTo(g, s, w[..j], At(s, w, j))
  {
    forall i | 0 <= i < j
      ensures At(s, w[..j], i) in g && w[..j][i] in g[At(s, w[..j], i)]
    {
      AtPrefix(s, w, j, i);
    }
  }

  lemma AvoidsPrefix(s: string, w: seq<Edge>, t: string, j: nat)
    requires Avoids(s, w, t) && j <= |w|
    ensures Avoids(s, w[..j], t)
  {
    forall i | 0 <= i < j
      ensures At(s, w[..j], i) != t
    {
      AtPrefix(s, w, j, i);
    }
  }

  /** A walk extended by an edge leaving its end is a walk. */
  lemma WalkExtend(g: Graph, s: string, w: seq<Edge>, t: string, e: Edge)
    requires WalkTo(g, s, w, t) && t in g && e in g[t]
    ensures WalkTo(g, s, w + [e], e.relatedTable)
  {
    var w' := w + [e];
    assert w'[..|w|] == w;
    forall i | 0 <= i < |w'|
      ensures At(s, w', i) in g && w'[i] in g[At(s, w', i)]
    {
      AtPrefix(s, w', |w|, i);
    }
  }

  /** The first index at or after `i` where the walk is at `t`. */
  function FirstAt(s: string, w: seq<Edge>, t: string, i: nat): (r: nat)
    requires i <= |w| && At(s, w, |w|) == t
    ensures i <= r <= |w| && At(s, w, r) == t
    ensures forall j :: i <= j < r ==> At(s, w, j) != t
    decreases |w| - i
  {
    if At(s, w, i) == t then i else FirstAt(s, w, t, i + 1)
  }

  /** Every walk to `t` has a prefix that reaches `t` without passing
      through it before. */
  lemma FirstHit(g: Graph, s: string, w: seq<Edge>, t: string) returns (j: nat)
    requires WalkTo(g, s, w, t)
    ensures j <= |w| && WalkTo(g, s, w[..j], t) && Avoids(s, w[..j], t)
  {
    j := FirstAt(s, w, t, 0);
    WalkPrefix(g, s, w, j);
    forall i | 0 <= i < j
      ensures At(s, w[..j], i) != t
    {
      AtPrefix(s, w, j, i);
    }
  }

  // ---------------------------------------------------------------------------
  // The search state
  // ---------------------------------------------------------------------------

  /** A queued table with the edges that led to it. */
  datatype Entry = Entry(table: string, path: seq<Edge>)

  /** Queue entries for the edges leaving a table reached by `p`. */
  function Extend(p: seq<Edge>, rels: seq<Edge>): (r: seq<Entry>)
    ensures |r| == |rels|
    ensures forall k :: 0 <= k < |rels| ==> r[k] == Entry(rels[k].relatedTable, p + [rels[k]])
  {
    seq(|rels|, k requires 0 <= k < |rels| => Entry(rels[k].relatedTable, p + [rels[k]]))
  }

  /** Every table the search can meet: the start and every edge target. */
  function Universe(g: Graph, s: string): set<string> {
    {s} + set n, k | n in g && 0 <= k < |g[n]| :: g[n][k].relatedTable
  }

  predicate QueueWalks(g: Graph, s: string, q: seq<Entry>) {
    forall k :: 0 <= k < |q| ==> WalkTo(g, s, q[k].path, q[k].table)
  }

  predicate InUniverse(g: Graph, s: string, q: seq<Entry>) {
    forall k :: 0 <= k < |q| ==> q[k].table in Universe(g, s)
  }

  /** Path lengths never decrease along the queue... */
  predicate Sorted(q: seq<Entry>) {
    forall i, j :: 0 <= i <= j < |q| ==> |q[i].path| <= |q[j].path|
  }

  /** ...and exceed the front's by at most one. */
  predicate Spread(q: seq<Entry>) {
    q != [] ==> forall k :: 0 <= k < |q| ==> |q[k].path| <= |q[0].path| + 1
  }

  /** `u` is visited, or queued with a path of at most `bound` edges. */
  predicate Covered(visited: set<string>, q: seq<Entry>, u: string, bound: int) {
    u in visited || exists j :: 0 <= j < |q| && q[j].table == u && |q[j].path| <= bound
  }

  /** Every edge out of `v` leads to a covered table, one edge further. */
  predicate ClosedAt(g: Graph, visited: set<string>, q: seq<Entry>, dist: map<string, nat>, v: string)
    requires v in g && v in dist
  {
    forall k :: 0 <= k < |g[v]| ==> Covered(visited, q, g[v][k].relatedTable, dist[v] + 1)
  }

  /** Every visited table the search expanded has its neighbours covered. */
  predicate Closed(g: Graph, target: string, visited: set<string>, q: seq<Entry>, dist: map<string, nat>) {
    forall v {:trigger ClosedAt(g, visited, q, dist, v)} ::
      v in visited && v != target && v in g && v in dist ==> ClosedAt(g, visited, q, dist, v)
  }

  /** No walk to `v` avoiding the target is shorter than `dist[v]`. */
  ghost predicate MinAt(g: Graph, s: string, target: string, dist: map<string, nat>, v: string)
    requires v in dist
  {
    forall w :: WalkTo(g, s, w, v) && Avoids(s, w, target) ==> dist[v] <= |w|
  }

  ghost predicate Shortest(g: Graph, s: string, target: string, dist: map<string, nat>) {
    forall v {:trigger MinAt(g, s, target, dist, v)} :: v in dist ==> MinAt(g, s, target, dist, v)
  }

  /** The search never starts over: the start is visited first. */
  predicate Started(s: string, visited: set<string>, q: seq<Entry>) {
    s in visited || (visited == {} && q == [Entry(s, [])])
  }

  /** At most one path, found exactly when the target has been visited, and
      it is a walk of the target's distance. */
  predicate Found(g: Graph, s: string, target: string, visited: set<string>, dist: map<string, nat>, paths: seq<seq<Edge>>) {
    && |paths| <= 1
    && (paths != [] <==> target in visited)
    && (paths != [] ==> target in dist && WalkTo(g, s, paths[0], target) && |paths[0]| == dist[target])
  }

  // ---------------------------------------------------------------------------
  // suggest_join_paths
  // ---------------------------------------------------------------------------

  datatype Join = Join(leftTable: string, rightTable: string, leftColumn: Option<string>, rightColumn: Option<string>, joinType: string)

  datatype JoinPath = JoinPath(pathLength: nat, joins: seq<Join>)

  /** One join per edge, each from the table the walk is at. */
  function JoinsOf(s: string, w: seq<Edge>): (r: seq<Join>)
    ensures |r| == |w|
  {
    seq(|w|, i requires 0 <= i < |w| =>
      Join(At(s, w, i), w[i].relatedTable, w[i].joinColumn, w[i].referencedColumn, "INNER JOIN"))
  }

  /** The joins of a walk form a chain: the first starts at `s`, each next
      one starts where the previous one ended, and each is an inner join to
      its edge's table on its edge's columns. */
  lemma JoinsOfChain(s: string, w: seq<Edge>)
    ensures forall i :: 0 <= i < |w| ==>
      JoinsOf(s, w)[i].leftTable == (if i == 0 then s else JoinsOf(s, w)[i - 1].rightTable)
    ensures forall i :: 0 <= i < |w| ==>
      var j := JoinsOf(s, w)[i];
      j.joinType == "INNER JOIN" && j.rightTable == w[i].relatedTable &&
      j.leftColumn == w[i].joinColumn && j.rightColumn == w[i].referencedColumn
  {
  }

  /** The join follows the edge: same target table and the same columns. */
  predicate JoinFollows(j: Join, e: Edge) {
    e.relatedTable == j.rightTable && e.joinColumn == j.leftColumn && e.referencedColumn == j.rightColumn
  }

  /** The join's left table is in the graph and has an edge the join follows. */
  predicate JoinInGraph(g: Graph, j: Join) {
    j.leftTable in g && exists k :: 0 <= k < |g[j.leftTable]| && JoinFollows(j, g[j.leftTable][k])
  }

  /** The joins chain from `s` to `t`, each one an inner join along an edge
      of the graph. */
  predicate JoinChain(g: Graph, s: string, t: string, joins: seq<Join>) {
    && (forall i :: 0 <= i < |joins| ==> joins[i].leftTable == (if i == 0 then s else joins[i - 1].rightTable))
    && (forall i :: 0 <= i < |joins| ==> joins[i].joinType == "INNER JOIN" && JoinInGraph(g, joins[i]))
    && (if joins == [] then s else joins[|joins| - 1].rightTable) == t
  }

  /** `suggest_join_paths`: the join path of the first walk the breadth-first
      search finds to the target: there is one exactly when the target is
      reachable, and no walk to the target is shorter. */
  method SuggestJoinPaths(g: Graph, source: string, target: string) returns (r: seq<JoinPath>)
    ensures |r| <= 1
    ensures r != [] <==> Reachable(g, source, target)
    ensures r != [] ==> r[0].pathLength == |r[0].joins| && JoinChain(g, source, target, r[0].joins)
    ensures r != [] ==> forall w :: WalkTo(g, source, w, target) ==> r[0].pathLength <= |w|
    ensures source == target ==> r == [JoinPath(0, [])]
  {
    var visited: set<string> := {};
    var queue: seq<Entry> := [Entry(source, [])];
    var paths: seq<seq<Edge>> := [];
    ghost var dist: map<string, nat> := map[];
    ghost var U := Universe(g, source);
    assert WalkTo(g, source, [], source);
    while queue != []
      invariant visited == dist.Keys && visited <= U
      invariant InUniverse(g, source, queue)
      invariant Started(source, visited, queue)
      invariant QueueWalks(g, source, queue)
      invariant Sorted(queue) && Spread(queue)
      invariant Closed(g, target, visited, queue, dist)
      invariant Shortest(g, source, target, dist)
      invariant Found(g, source, target, visited, dist, paths)
      decreases |U - visited|, |queue|
    {
      var current := queue[0];
      if current.table in visited {
        SkipClosed(g, target, visited, queue, dist);
        SkipQueue(g, source, queue);
        queue := queue[1..];
        continue;
      }
      // The target is recorded and not expanded; any other table in the
      // graph has its neighbours queued.
      var added := Added(g, target, queue);
      VisitStep(g, source, target, visited, queue, dist, paths);
      Fewer(U, visited, current.table);
      paths := if current.table == target then paths + [current.path] else paths;
      visited := visited + {current.table};
      dist := dist[current.table := |current.path|];
      queue := queue[1..] + added;
    }
    r := FormatPaths(source, paths);
    Finish(g, source, target, visited, dist, paths);
  }

  /** The join path of each path found, in order (already ordered by
      length, as there is at most one). */
  function FormatPaths(s: string, paths: seq<seq<Edge>>): (r: seq<JoinPath>)
    ensures |r| == |paths|
  {
    seq(|paths|, k requires 0 <= k < |paths| => JoinPath(|paths[k]|, JoinsOf(s, paths[k])))
  }

  /** What the search state at the end of the loop says about its result. */
  lemma {:induction false} Finish(g: Graph, source: string, target: string, visited: set<string>, dist: map<string, nat>, paths: seq<seq<Edge>>)
    requires visited == dist.Keys && Started(source, visited, [])
    requires Closed(g, target, visited, [], dist) && Shortest(g, source, target, dist)
    requires Found(g, source, target, visited, dist, paths)
    ensures var r := FormatPaths(source, paths);
      && |r| <= 1
      && (r != [] <==> Reachable(g, source, target))
      && (r != [] ==> r[0].pathLength == |r[0].joins| && JoinChain(g, source, target, r[0].joins))
      && (r != [] ==> forall w :: WalkTo(g, source, w, target) ==> r[0].pathLength <= |w|)
      && (source == target ==> r == [JoinPath(0, [])])
  {
    Complete(g, source, target, visited, dist, paths);
    FormatFound(g, source, target, paths);
    if source == target {
      FinishSame(g, source, target, visited, dist, paths);
    }
  }

  /** The formatted first path keeps the found path's length and joins. */
  lemma FormatFound(g: Graph, source: string, target: string, paths: seq<seq<Edge>>)
    requires paths != [] <==> Reachable(g, source, target)
    requires paths != [] ==> WalkTo(g, source, paths[0], target)
    requires paths != [] ==> forall w :: WalkTo(g, source, w, target) ==> |paths[0]| <= |w|
    ensures var r := FormatPaths(source, paths);
      && (r != [] <==> Reachable(g, source, target))
      && (r != [] ==> r[0].pathLength == |r[0].joins| && JoinChain(g, source, target, r[0].joins))
      && (r != [] ==> forall w :: WalkTo(g, source, w, target) ==> r[0].pathLength <= |w|)
  {
    if paths != [] {
      WalkJoins(g, source, target, paths[0]);
    }
  }

  /** From a table to itself the one path found is the empty one. */
  lemma FinishSame(g: Graph, source: string, target: string, visited: set<string>, dist: map<string, nat>, paths: seq<seq<Edge>>)
    requires visited == dist.Keys && Started(source, visited, [])
    requires Closed(g, target, visited, [], dist) && Shortest(g, source, target, dist)
    requires Found(g, source, target, visited, dist, paths)
    requires source == target
    ensures FormatPaths(source, paths) == [JoinPath(0, [])]
  {
    assert WalkTo(g, source, [], target);
    assert Avoids(source, [], target);
    assert MinAt(g, source, target, dist, target);
  }

  // ---------------------------------------------------------------------------
  // The search invariant, step by step
  // ---------------------------------------------------------------------------

  /** Popping a table already visited keeps every table covered. */
  lemma SkipClosed(g: Graph, target: string, visited: set<string>, q: seq<Entry>, dist: map<string, nat>)
    requires Closed(g, target, visited, q, dist)
    requires q != [] && q[0].table in visited
    ensures Closed(g, target, visited, q[1..], dist)
  {
    var q' := q[1..];
    forall v | v in visited && v != target && v in g && v in dist
      ensures ClosedAt(g, visited, q', dist, v)
    {
      assert ClosedAt(g, visited, q, dist, v);
      forall k | 0 <= k < |g[v]|
        ensures Covered(visited, q', g[v][k].relatedTable, dist[v] + 1)
      {
        var u := g[v][k].relatedTable;
        assert Covered(visited, q, u, dist[v] + 1);
        if u !in visited {
          var j :| 0 <= j < |q| && q[j].table == u && |q[j].path| <= dist[v] + 1;
          assert q'[j - 1] == q[j];
        }
      }
    }
  }

  /** Dropping the front keeps the queue's walks, order and spread. */
  lemma SkipQueue(g: Graph, s: string, q: seq<Entry>)
    requires QueueWalks(g, s, q) && InUniverse(g, s, q) && Sorted(q) && Spread(q)
    requires q != []
    ensures var q' := q[1..]; QueueWalks(g, s, q') && InUniverse(g, s, q') && Sorted(q') && Spread(q')
  {
    var q' := q[1..];
    assert forall k :: 0 <= k < |q'| ==> q'[k] == q[k + 1];
    if q' != [] {
      assert |q[0].path| <= |q'[0].path|;
    }
  }

  /** The first index at or after `i` where the walk is at an unvisited
      table. */
  function FirstOutside(s: string, w: seq<Edge>, visited: set<string>, i: nat): (r: nat)
    requires i <= |w| && At(s, w, |w|) !in visited
    ensures i <= r <= |w| && At(s, w, r) !in visited
    ensures forall j :: i <= j < r ==> At(s, w, j) in visited
    decreases |w| - i
  {
    if At(s, w, i) !in visited then i else FirstOutside(s, w, visited, i + 1)
  }

  /** An edge out of a visited table the search expanded leads to a covered
      table. */
  lemma EdgeCovered(g: Graph, target: string, visited: set<string>, q: seq<Entry>, dist: map<string, nat>, v: string, e: Edge)
    requires Closed(g, target, visited, q, dist)
    requires v in visited && v != target && v in g && v in dist && e in g[v]
    ensures Covered(visited, q, e.relatedTable, dist[v] + 1)
  {
    var k :| 0 <= k < |g[v]| && g[v][k] == e;
    assert ClosedAt(g, visited, q, dist, v);
  }

  /** A visited table on a walk avoiding the target is no further than its
      place on the walk. */
  lemma DistOnWalk(g: Graph, s: string, target: string, dist: map<string, nat>, w: seq<Edge>, j: nat)
    requires Shortest(g, s, target, dist)
    requires IsWalk(g, s, w) && Avoids(s, w, target) && j <= |w| && At(s, w, j) in dist
    ensures dist[At(s, w, j)] <= j
  {
    WalkPrefix(g, s, w, j);
    AvoidsPrefix(s, w, target, j);
    assert MinAt(g, s, target, dist, At(s, w, j));
  }

  /** The table at the front of the queue, when not yet visited, is reached
      by a shortest walk among those avoiding the target. */
  lemma FrontIsShortest(g: Graph, s: string, target: string, visited: set<string>, q: seq<Entry>, dist: map<string, nat>, w: seq<Edge>)
    requires visited == dist.Keys && Started(s, visited, q) && Sorted(q)
    requires Closed(g, target, visited, q, dist) && Shortest(g, s, target, dist)
    requires q != [] && q[0].table !in visited
    requires WalkTo(g, s, w, q[0].table) && Avoids(s, w, target)
    ensures |q[0].path| <= |w|
  {
    if s in visited {
      var j := FirstOutside(s, w, visited, 0);
      var v := At(s, w, j - 1);
      assert v in g && w[j - 1] in g[v] && v != target;
      EdgeCovered(g, target, visited, q, dist, v, w[j - 1]);
      DistOnWalk(g, s, target, dist, w, j - 1);
      var m :| 0 <= m < |q| && q[m].table == At(s, w, j) && |q[m].path| <= dist[v] + 1;
      assert |q[0].path| <= |q[m].path|;
    }
  }

  /** Visiting the front table records a shortest distance for it. */
  lemma VisitShortest(g: Graph, s: string, target: string, visited: set<string>, q: seq<Entry>, dist: map<string, nat>)
    requires visited == dist.Keys && Started(s, visited, q) && Sorted(q)
    requires Closed(g, target, visited, q, dist) && Shortest(g, s, target, dist)
    requires q != [] && q[0].table !in visited
    ensures Shortest(g, s, target, dist[q[0].table := |q[0].path|])
  {
    var t, p := q[0].table, q[0].path;
    var dist' := dist[t := |p|];
    forall v | v in dist'
      ensures MinAt(g, s, target, dist', v)
    {
      if v == t {
        forall w | WalkTo(g, s, w, v) && Avoids(s, w, target)
          ensures dist'[v] <= |w|
        {
          FrontIsShortest(g, s, target, visited, q, dist, w);
        }
      } else {
        assert MinAt(g, s, target, dist, v);
      }
    }
  }

  /** Visiting the front table visits the start if it was not yet, and
      records the front's walk when it reaches the target. */
  lemma VisitFound(g: Graph, s: string, target: string, visited: set<string>, q: seq<Entry>, dist: map<string, nat>, paths: seq<seq<Edge>>)
    requires visited == dist.Keys && Started(s, visited, q) && QueueWalks(g, s, q)
    requires Found(g, s, target, visited, dist, paths)
    requires q != [] && q[0].table !in visited
    ensures s in visited + {q[0].table}
    ensures var t, p := q[0].table, q[0].path;
      Found(g, s, target, visited + {t}, dist[t := |p|], if t == target then paths + [p] else paths)
  {
    assert WalkTo(g, s, q[0].path, q[0].table);
  }

  /** Visiting the front table keeps the whole search invariant. */
  lemma VisitStep(g: Graph, s: string, target: string, visited: set<string>, q: seq<Entry>, dist: map<string, nat>, paths: seq<seq<Edge>>)
    requires visited == dist.Keys && visited <= Universe(g, s)
    requires InUniverse(g, s, q) && Started(s, visited, q) && QueueWalks(g, s, q) && Sorted(q) && Spread(q)
    requires Closed(g, target, visited, q, dist) && Shortest(g, s, target, dist)
    requires Found(g, s, target, visited, dist, paths)
    requires q != [] && q[0].table !in visited
    ensures var t, p := q[0].table, q[0].path;
      var visited', q', dist' := visited + {t}, q[1..] + Added(g, target, q), dist[t := |p|];
      && visited' == dist'.Keys && visited' <= Universe(g, s)
      && InUniverse(g, s, q') && Started(s, visited', q') && QueueWalks(g, s, q') && Sorted(q') && Spread(q')
      && Closed(g, target, visited', q', dist') && Shortest(g, s, target, dist')
      && Found(g, s, target, visited', dist', if t == target then paths + [p] else paths)
  {
    VisitFound(g, s, target, visited, q, dist, paths);
    VisitShortest(g, s, target, visited, q, dist);
    VisitQueue(g, s, target, q, Added(g, target, q));
    VisitClosed(g, target, visited, q, dist, Added(g, target, q));
  }

  /** Visiting a new table of the universe leaves fewer to visit. */
  lemma Fewer(u: set<string>, visited: set<string>, t: string)
    requires t in u && t !in visited
    ensures |u - (visited + {t})| < |u - visited|
  {
    assert u - (visited + {t}) == (u - visited) - {t};
  }

  /** The entries queued for the neighbours of the front table. */
  function Added(g: Graph, target: string, q: seq<Entry>): seq<Entry>
    requires q != []
  {
    if q[0].table != target && q[0].table in g then Extend(q[0].path, g[q[0].table]) else []
  }

  /** Replacing the front by its neighbours, one edge further, keeps the
      queue's walks, order and spread. */
  lemma VisitQueue(g: Graph, s: string, target: string, q: seq<Entry>, added: seq<Entry>)
    requires QueueWalks(g, s, q) && InUniverse(g, s, q) && Sorted(q) && Spread(q)
    requires q != [] && added == Added(g, target, q)
    ensures var q' := q[1..] + added;
      QueueWalks(g, s, q') && InUniverse(g, s, q') && Sorted(q') && Spread(q')
  {
    AddedWalks(g, s, target, q);
    assert |q[0].path| + 1 >= 0;
    AppendOrdered(q, added, |q[0].path| + 1);
  }

  /** The entries queued for the neighbours are walks to them, one edge
      longer than the front's. */
  lemma AddedWalks(g: Graph, s: string, target: string, q: seq<Entry>)
    requires q != [] && WalkTo(g, s, q[0].path, q[0].table)
    ensures var added := Added(g, target, q);
      && QueueWalks(g, s, added) && InUniverse(g, s, added)
      && forall k :: 0 <= k < |added| ==> |added[k].path| == |q[0].path| + 1
  {
    var t, p := q[0].table, q[0].path;
    var added := Added(g, target, q);
    forall k | 0 <= k < |added|
      ensures WalkTo(g, s, added[k].path, added[k].table) && added[k].table in Universe(g, s)
    {
      WalkExtend(g, s, p, t, g[t][k]);
    }
  }

  /** Dropping the front and appending entries of length one more than the
      front's keeps the queue's walks, order and spread. */
  lemma AppendOrdered(q: seq<Entry>, added: seq<Entry>, n: nat)
    requires q != [] && Sorted(q) && Spread(q) && n == |q[0].path| + 1
    requires forall k :: 0 <= k < |added| ==> |added[k].path| == n
    ensures Sorted(q[1..] + added) && Spread(q[1..] + added)
  {
    var q' := q[1..] + added;
    assert forall k :: 0 <= k < |q| - 1 ==> q'[k] == q[k + 1];
    assert forall k :: 0 <= k < |added| ==> q'[|q| - 1 + k] == added[k];
    forall i, j | 0 <= i <= j < |q'|
      ensures |q'[i].path| <= |q'[j].path|
    {
      if j < |q| - 1 {
        assert |q[i + 1].path| <= |q[j + 1].path|;
      } else if i < |q| - 1 {
        assert |q[i + 1].path| <= n;
      }
    }
    if q' != [] && |q| > 1 {
      assert n - 1 <= |q'[0].path|;
    }
  }

  /** Visiting the front table keeps every table covered: its own
      neighbours are now queued one edge further. */
  lemma VisitClosed(g: Graph, target: string, visited: set<string>, q: seq<Entry>, dist: map<string, nat>, added: seq<Entry>)
    requires visited == dist.Keys && Closed(g, target, visited, q, dist)
    requires q != [] && q[0].table !in visited && added == Added(g, target, q)
    ensures Closed(g, target, visited + {q[0].table}, q[1..] + added, dist[q[0].table := |q[0].path|])
  {
    var t, p := q[0].table, q[0].path;
    var visited', dist' := visited + {t}, dist[t := |p|];
    var q' := q[1..] + added;
    forall v | v in visited' && v != target && v in g && v in dist'
      ensures ClosedAt(g, visited', q', dist', v)
    {
      forall k | 0 <= k < |g[v]|
        ensures Covered(visited', q', g[v][k].relatedTable, dist'[v] + 1)
      {
        var u := g[v][k].relatedTable;
        if v == t {
          assert q'[|q| - 1 + k] == added[k];
        } else if u !in visited' {
          assert ClosedAt(g, visited, q, dist, v);
          assert Covered(visited, q, u, dist[v] + 1);
          var j :| 0 <= j < |q| && q[j].table == u && |q[j].path| <= dist[v] + 1;
          assert q'[j - 1] == q[j];
        }
      }
    }
  }

  /** With nothing left to search, every table reachable without passing
      through the target has been visited. */
  lemma {:induction false} AllVisited(g: Graph, s: string, target: string, visited: set<string>, dist: map<string, nat>, w: seq<Edge>)
    requires visited == dist.Keys && s in visited && Closed(g, target, visited, [], dist)
    requires IsWalk(g, s, w) && Avoids(s, w, target)
    ensures At(s, w, |w|) in visited
    decreases |w|
  {
    if w != [] {
      var n := |w| - 1;
      WalkPrefix(g, s, w, n);
      AvoidsPrefix(s, w, target, n);
      AllVisited(g, s, target, visited, dist, w[..n]);
      var v := At(s, w, n);
      assert v in g && w[n] in g[v] && v != target;
      var k :| 0 <= k < |g[v]| && g[v][k] == w[n];
      assert ClosedAt(g, visited, [], dist, v);
    }
  }

  /** When the queue is empty, the target has been found exactly when it is
      reachable, and by a shortest walk. */
  lemma Complete(g: Graph, s: string, target: string, visited: set<string>, dist: map<string, nat>, paths: seq<seq<Edge>>)
    requires visited == dist.Keys && Started(s, visited, [])
    requires Closed(g, target, visited, [], dist) && Shortest(g, s, target, dist)
    requires Found(g, s, target, visited, dist, paths)
    ensures paths != [] <==> Reachable(g, s, target)
    ensures paths != [] ==> WalkTo(g, s, paths[0], target)
    ensures paths != [] ==> forall w :: WalkTo(g, s, w, target) ==> |paths[0]| <= |w|
  {
    if Reachable(g, s, target) {
      var w :| WalkTo(g, s, w, target);
      var j := FirstHit(g, s, w, target);
      AllVisited(g, s, target, visited, dist, w[..j]);
    }
    if paths != [] {
      forall w | WalkTo(g, s, w, target)
        ensures |paths[0]| <= |w|
      {
        var j := FirstHit(g, s, w, target);
        assert MinAt(g, s, target, dist, target);
      }
    }
  }

  /** The joins of a walk chain from its start to its end along graph
      edges. */
  lemma WalkJoins(g: Graph, s: string, t: string, w: seq<Edge>)
    requires WalkTo(g, s, w, t)
    ensures JoinChain(g, s, t, JoinsOf(s, w))
  {
    var joins := JoinsOf(s, w);
    forall i | 0 <= i < |joins|
      ensures JoinInGraph(g, joins[i])
    {
      var v := At(s, w, i);
      assert v in g && w[i] in g[v];
      var k :| 0 <= k < |g[v]| && g[v][k] == w[i];
      assert JoinFollows(joins[i], g[v][k]);
    }
  }

  // ---------------------------------------------------------------------------
  // format_join_path_for_query
  // ---------------------------------------------------------------------------

  /** Python's `str()` of a column that may be missing. */
  function Show(c: Option<string>): (r: string)
    ensures c.Some? ==> r == c.value
    ensures r == "None" <==> c == None || c == Some("None")
  {
    match c
    case Some(x) => x
    case None => "None"
  }

  /** `{join_type} {right} ON {left}.{left_column} = {right}.{right_column}`. */
  function JoinLine(j: Join): (r: string)
    ensures '\n' !in r <==> SingleLine(j)
  {
    j.joinType + " " + j.rightTable + " ON " + j.leftTable + "." + Show(j.leftColumn) +
      " = " + j.rightTable + "." + Show(j.rightColumn)
  }

  /** `format_join_path_for_query`: each join's line, each ended by a
      newline, in order. */
  function FormatJoinPathForQuery(jp: JoinPath): (r: string)
    ensures jp.joins == [] <==> r == []
  {
    Terminated(Lines(jp.joins))
  }

  /** The line of each join. */
  function Lines(joins: seq<Join>): (r: seq<string>)
    ensures |r| == |joins|
  {
    seq(|joins|, i requires 0 <= i < |joins| => JoinLine(joins[i]))
  }

  /** The lines, each followed by a newline. */
  function Terminated(lines: seq<string>): (r: string)
    ensures lines == [] <==> r == []
    decreases |lines|
  {
    if lines == [] then [] else lines[0] + "\n" + Terminated(lines[1..])
  }

  /** Splitting newline-terminated lines at newlines gives back the lines and
      the empty text after the last newline. */
  lemma {:induction false} TerminatedSplit(lines: seq<string>)
    requires forall k :: 0 <= k < |lines| ==> '\n' !in lines[k]
    ensures SplitOn(Terminated(lines), '\n') == lines + [""]
    decreases |lines|
  {
    if lines != [] {
      var rest := lines[1..];
      assert Terminated(lines) == lines[0] + "\n" + Terminated(rest);
      SplitFirstLine(lines[0], Terminated(rest));
      TerminatedSplit(rest);
      assert lines + [""] == [lines[0]] + (rest + [""]);
    } else {
      assert IndexOf([], '\n', 0) == 0;
    }
  }

  /** Splitting at newlines cuts off a first line that holds none. */
  lemma SplitFirstLine(l: string, rest: string)
    requires '\n' !in l
    ensures SplitOn(l + "\n" + rest, '\n') == [l] + SplitOn(rest, '\n')
  {
    var s := l + "\n" + rest;
    assert forall j :: 0 <= j < |l| ==> s[j] == l[j];
    assert s[|l|] == '\n';
    var i := IndexOf(s, '\n', 0);
    assert i == |l|;
    assert s[..i] == l && s[i + 1..] == rest;
  }

  /** No table name or column of the join holds a newline. */
  predicate SingleLine(j: Join) {
    '\n' !in j.joinType && '\n' !in j.leftTable && '\n' !in j.rightTable &&
    '\n' !in Show(j.leftColumn) && '\n' !in Show(j.rightColumn)
  }

  /** The query text splits at newlines into one line per join, in order,
      when no name or column holds a newline. */
  lemma FormatLines(jp: JoinPath)
    requires forall k :: 0 <= k < |jp.joins| ==> SingleLine(jp.joins[k])
    ensures SplitOn(FormatJoinPathForQuery(jp), '\n') == Lines(jp.joins) + [""]
  {
    var lines := Lines(jp.joins);
    forall k | 0 <= k < |lines|
      ensures '\n' !in lines[k]
    {
      var j := jp.joins[k];
      assert lines[k] == j.joinType + " " + j.rightTable + " ON " + j.leftTable + "." + Show(j.leftColumn) +
        " = " + j.rightTable + "." + Show(j.rightColumn);
    }
    TerminatedSplit(lines);
  }
}

=== FILE: metrics.dfy ===
/** Precision, recall and F1 between a predicted and a reference item set,
    as exact ratios of counts. */
module Metrics {

  datatype Scores = Scores(precision: real, recall: real, f1: real)

  predicate InUnit(x: real) {
    0.0 <= x <= 1.0
  }

  predicate ScoresInUnit(s: Scores) {
    InUnit(s.precision) && InUnit(s.recall) && InUnit(s.f1)
  }

  /** The scores with precision and recall exchanged. */
  function Swapped(s: Scores): Scores {
    Scores(s.recall, s.precision, s.f1)
  }

  /** `2 * p * r / (p + r)`, or 0 when `p + r` is not positive. */
  function F1(p: real, r: real): real {
    if p + r > 0.0 then 2.0 * p * r / (p + r) else 0.0
  }

  /** `calculate_component_metrics`. */
  function ComponentMetrics(pred: set<string>, gold: set<string>): (r: Scores)
    ensures pred == {} && gold == {} ==> r == Scores(1.0, 1.0, 1.0)
    ensures (pred == {}) != (gold == {}) ==> r == Scores(0.0, 0.0, 0.0)
    ensures pred != {} && gold != {} ==>
      r.precision == |pred * gold| as real / |pred| as real &&
      r.recall == |pred * gold| as real / |gold| as real
    ensures ScoresInUnit(r)
  {
    if pred == {} && gold == {} then Scores(1.0, 1.0, 1.0)
    else if pred == {} then Scores(0.0, 0.0, 0.0)
    else if gold == {} then Scores(0.0, 0.0, 0.0)
    else
      var common := |pred * gold| as real;
      var p := common / |pred| as real;
      var r := common / |gold| as real;
      IntersectionSmaller(pred, gold);
      F1InUnit(p, r);
      Scores(p, r, F1(p, r))
  }

  lemma IntersectionSmaller(a: set<string>, b: set<string>)
    ensures |a * b| <= |a| && |a * b| <= |b|
  {
    assert a * b <= a;
    assert a * b <= b;
    SubsetCard(a * b, a);
    SubsetCard(a * b, b);
  }

  lemma {:induction false} SubsetCard<T>(a: set<T>, b: set<T>)
    requires a <= b
    ensures |a| <= |b|
    decreases |b|
  {
    if a != {} {
      var x :| x in a;
      SubsetCard(a - {x}, b - {x});
    }
  }

  lemma F1InUnit(p: real, r: real)
    requires InUnit(p) && InUnit(r)
    ensures InUnit(F1(p, r))
  {
    if p + r > 0.0 {
      var pr, x := p * r, 2.0 * p * r;
      ProductBounds(p, r);
      TwiceProduct(p, r);
      assert x == pr + pr && 0.0 <= pr <= p && pr <= r;
      DivInUnit(x, p + r);
    }
  }

  lemma ProductBounds(p: real, r: real)
    requires InUnit(p) && InUnit(r)
    ensures 0.0 <= p * r <= p && p * r <= r
  {
    MulAtMostOne(p, r);
    MulNonNegative(p, r);
    MulNonNegative(1.0 - p, r);
    Distribute(1.0, -p, r);
    assert (1.0 - p) * r == r - p * r;
  }

  lemma TwiceProduct(p: real, r: real)
    ensures 2.0 * p * r == p * r + p * r
  {
    var tp := 2.0 * p;
    assert tp == p + p;
    Distribute(p, p, r);
  }

  lemma Distribute(a: real, b: real, c: real)
    ensures (a + b) * c == a * c + b * c
  {
  }

  lemma MulAtMost(a: real, b: real, c: real)
    requires 0.0 <= a && b <= c
    ensures a * b <= a * c
  {
    assert a * c - a * b == a * (c - b);
    MulNonNegative(a, c - b);
  }

  lemma MulAtMostOne(a: real, b: real)
    requires 0.0 <= a && b <= 1.0
    ensures a * b <= a
  {
    assert a - a * b == a * (1.0 - b);
    MulNonNegative(a, 1.0 - b);
  }

  lemma MulNonNegative(a: real, b: real)
    requires 0.0 <= a && 0.0 <= b
    ensures 0.0 <= a * b
  {
  }

  lemma DivInUnit(x: real, y: real)
    requires 0.0 <= x <= y && y > 0.0
    ensures InUnit(x / y)
  {
    var q := x / y;
    assert q * y == x;
    if q > 1.0 {
      MulAtMost(y, 1.0, q);
      assert false;
    }
    if q < 0.0 {
      MulAtMost(y, q, 0.0);
      assert false;
    }
  }

  /** F1 is the Dice coefficient of the two sets: twice the overlap over the
      total size. */
  lemma F1IsDice(pred: set<string>, gold: set<string>)
    requires pred != {} && gold != {}
    ensures ComponentMetrics(pred, gold).f1 == 2.0 * |pred * gold| as real / (|pred| as real + |gold| as real)
  {
    var i, a, b := |pred * gold| as real, |pred| as real, |gold| as real;
    assert a > 0.0 && b > 0.0;
    var m := ComponentMetrics(pred, gold);
    assert m.precision == i / a && m.recall == i / b;
    assert m.f1 == F1(i / a, i / b);
    if i > 0.0 {
      DiceAlgebra(i, a, b);
    }
  }

  lemma DiceAlgebra(i: real, a: real, b: real)
    requires i > 0.0 && a > 0.0 && b > 0.0
    ensures i / a + i / b > 0.0
    ensures 2.0 * (i / a) * (i / b) / (i / a + i / b) == 2.0 * i / (a + b)
  {
    var p, r := i / a, i / b;
    var x := 2.0 * i / (a + b);
    assert p * a == i && r * b == i && x * (a + b) == 2.0 * i;
    assert (p + r) * (a * b) == i * (a + b) by {
      assert (p + r) * (a * b) == (p * a) * b + (r * b) * a;
    }
    assert 2.0 * p * r * (a * b) == 2.0 * i * i by {
      assert 2.0 * p * r * (a * b) == 2.0 * (p * a) * (r * b);
    }
    assert x * (p + r) * (a * b) == 2.0 * i * i by {
      assert x * (p + r) * (a * b) == x * ((p + r) * (a * b));
      assert x * (i * (a + b)) == (x * (a + b)) * i;
    }
    MulCancel(x * (p + r), 2.0 * p * r, a * b);
    assert p > 0.0 && r > 0.0;
    DivOfProduct(2.0 * p * r, p + r, x);
  }

  lemma MulCancel(u: real, v: real, k: real)
    requires k != 0.0 && u * k == v * k
    ensures u == v
  {
    assert (u - v) * k == 0.0;
  }

  lemma DivOfProduct(n: real, d: real, q: real)
    requires d != 0.0 && q * d == n
    ensures n / d == q
  {
  }

  /** F1 is zero exactly when two non-empty sets share nothing. */
  lemma F1ZeroIffDisjoint(pred: set<string>, gold: set<string>)
    requires pred != {} && gold != {}
    ensures ComponentMetrics(pred, gold).f1 == 0.0 <==> pred !! gold
  {
    F1IsDice(pred, gold);
    if pred !! gold {
      assert pred * gold == {};
    } else {
      var x :| x in pred && x in gold;
      assert x in pred * gold;
    }
  }

  /** A non-empty set scored against itself is a perfect match. */
  lemma SelfScoreIsPerfect(s: set<string>)
    ensures ComponentMetrics(s, s) == Scores(1.0, 1.0, 1.0)
  {
    if s != {} {
      assert s * s == s;
    }
  }

  /** Exchanging prediction and reference exchanges precision and recall and
      keeps F1. */
  lemma MetricsSwap(pred: set<string>, gold: set<string>)
    ensures ComponentMetrics(gold, pred) == Swapped(ComponentMetrics(pred, gold))
  {
    if pred != {} && gold != {} {
      assert gold * pred == pred * gold;
      var m := ComponentMetrics(pred, gold);
      assert F1(m.recall, m.precision) == F1(m.precision, m.recall) by {
        var p, r := m.precision, m.recall;
        assert 2.0 * r * p == 2.0 * p * r;
        assert r + p == p + r;
      }
    }
  }
}

=== FILE: relationships.dfy ===
/** The relationship graph: for every table, the tables it refers to, taken
    from its declared foreign keys and from columns named `<table>_id`. */
module Relationships {
  import opened Text
  import opened Schema

  datatype EdgeKind = ManyToOne | PotentialForeignKey

  /** One outgoing relationship; the join columns may be missing. */
  datatype Edge = Edge(relatedTable: string, kind: EdgeKind, joinColumn: Option<string>, referencedColumn: Option<string>)

  /** The `relationships` dictionary. */
  type Graph = map<string, seq<Edge>>

  /** The edge a declared foreign key gives: only one whose referenced table
      is present and non-empty gives one. */
  function ForeignKeyEdge(fk: ForeignKey): (r: Option<Edge>)
    ensures r.Some? <==> fk.referencesTable.Some? && fk.referencesTable.value != []
  {
    match fk.referencesTable
    case Some(t) =>
      if t != [] then Some(Edge(t, ManyToOne, fk.columnName, fk.referencesColumn)) else None
    case None => None
  }

  function ForeignKeyEdges(fks: seq<ForeignKey>): (r: seq<Edge>)
    ensures |r| <= |fks|
    ensures forall k :: 0 <= k < |r| ==> r[k].kind == ManyToOne
    decreases |fks|
  {
    if fks == [] then []
    else
      (match ForeignKeyEdge(fks[0]) case Some(e) => [e] case None => []) + ForeignKeyEdges(fks[1..])
  }

  /** `any(fk.get("column_name") == c for fk in fks)`. */
  predicate Declared(fks: seq<ForeignKey>, c: string) {
    exists k :: 0 <= k < |fks| && fks[k].columnName == Some(c)
  }

  /** The edge the naming convention gives for one column: a lower-cased
      name `<table>_id`, not declared as a foreign key column, where
      `<table>` is a table of the schema. */
  function InferredEdge(names: seq<string>, fks: seq<ForeignKey>, col: Column): (r: Option<Edge>)
    ensures r.Some? ==> r.value.relatedTable in names
  {
    var c := Lower(col.name);
    if EndsWith(c, "_id") && !Declared(fks, c) && c[..|c| - 3] in names then
      Some(Edge(c[..|c| - 3], PotentialForeignKey, Some(c), Some("id")))
    else None
  }

  function InferredEdges(names: seq<string>, fks: seq<ForeignKey>, cols: seq<Column>): (r: seq<Edge>)
    ensures |r| <= |cols|
    ensures forall k :: 0 <= k < |r| ==> r[k].kind == PotentialForeignKey && r[k].relatedTable in names
    decreases |cols|
  {
    if cols == [] then []
    else
      (match InferredEdge(names, fks, cols[0]) case Some(e) => [e] case None => []) +
        InferredEdges(names, fks, cols[1..])
  }

  /** The edges of one table: declared foreign keys first, then inferred
      ones, each group in declaration order. */
  function TableEdges(db: DbSchema, t: Table): (r: seq<Edge>)
    ensures |r| <= |t.foreignKeys| + |t.columns|
    ensures forall k :: 0 <= k < |r| ==> (r[k].kind == ManyToOne <==> k < |ForeignKeyEdges(t.foreignKeys)|)
    ensures forall k :: 0 <= k < |r| && r[k].kind == PotentialForeignKey ==> r[k].relatedTable in TableNames(db.tables)
  {
    ForeignKeyEdges(t.foreignKeys) + InferredEdges(TableNames(db.tables), t.foreignKeys, t.columns)
  }

  /** `infer_relationships`. */
  function InferRelationships(db: DbSchema): (r: Graph)
    ensures r.Keys == set n | n in TableNames(db.tables)
    ensures forall n :: n in r ==> |r[n]| <= |db.tables[TableIndex(db.tables, n)].foreignKeys| + |db.tables[TableIndex(db.tables, n)].columns|
  {
    map n | n in TableNames(db.tables) :: TableEdges(db, db.tables[TableIndex(db.tables, n)])
  }

  // ---------------------------------------------------------------------------
  // Properties
  // ---------------------------------------------------------------------------

  lemma {:induction false} ForeignKeyEdgesMembers(fks: seq<ForeignKey>, e: Edge)
    ensures e in ForeignKeyEdges(fks) <==> exists k :: 0 <= k < |fks| && ForeignKeyEdge(fks[k]) == Some(e)
    decreases |fks|
  {
    if fks != [] {
      ForeignKeyEdgesMembers(fks[1..], e);
      if exists k :: 0 <= k < |fks[1..]| && ForeignKeyEdge(fks[1..][k]) == Some(e) {
        var k :| 0 <= k < |fks[1..]| && ForeignKeyEdge(fks[1..][k]) == Some(e);
        assert fks[k + 1] == fks[1..][k];
      }
      if exists k :: 0 <= k < |fks| && ForeignKeyEdge(fks[k]) == Some(e) {
        var k :| 0 <= k < |fks| && ForeignKeyEdge(fks[k]) == Some(e);
        if k > 0 {
          assert fks[1..][k - 1] == fks[k];
        }
      }
    }
  }

  lemma {:induction false} InferredEdgesMembers(names: seq<string>, fks: seq<ForeignKey>, cols: seq<Column>, e: Edge)
    ensures e in InferredEdges(names, fks, cols) <==> exists k :: 0 <= k < |cols| && InferredEdge(names, fks, cols[k]) == Some(e)
    decreases |cols|
  {
    if cols != [] {
      InferredEdgesMembers(names, fks, cols[1..], e);
      if exists k :: 0 <= k < |cols[1..]| && InferredEdge(names, fks, cols[1..][k]) == Some(e) {
        var k :| 0 <= k < |cols[1..]| && InferredEdge(names, fks, cols[1..][k]) == Some(e);
        assert cols[k + 1] == cols[1..][k];
      }
      if exists k :: 0 <= k < |cols| && InferredEdge(names, fks, cols[k]) == Some(e) {
        var k :| 0 <= k < |cols| && InferredEdge(names, fks, cols[k]) == Some(e);
        if k > 0 {
          assert cols[1..][k - 1] == cols[k];
        }
      }
    }
  }

  /** The edges of `t` in the graph of a schema it belongs to. */
  lemma EdgesOf(db: DbSchema, i: nat)
    requires Valid(db) && i < |db.tables|
    ensures db.tables[i].name in InferRelationships(db)
    ensures InferRelationships(db)[db.tables[i].name] == TableEdges(db, db.tables[i])
  {
    var n := db.tables[i].name;
    assert TableNames(db.tables)[i] == n;
    assert TableIndex(db.tables, n) == i;
  }

  /** A table's many-to-one edges are exactly its foreign keys that name a
      referenced table, carrying the key's columns as they were declared. */
  lemma ManyToOneEdges(db: DbSchema, i: nat, e: Edge)
    requires Valid(db) && i < |db.tables|
    ensures var t := db.tables[i];
      (e in InferRelationships(db)[t.name] && e.kind == ManyToOne) <==>
      exists k :: 0 <= k < |t.foreignKeys| &&
        t.foreignKeys[k].referencesTable == Some(e.relatedTable) && e.relatedTable != [] &&
        e.kind == ManyToOne &&
        e.joinColumn == t.foreignKeys[k].columnName && e.referencedColumn == t.foreignKeys[k].referencesColumn
  {
    var t := db.tables[i];
    EdgesOf(db, i);
    ForeignKeyEdgesMembers(t.foreignKeys, e);
    var inferred := InferredEdges(TableNames(db.tables), t.foreignKeys, t.columns);
    assert e.kind == ManyToOne ==> e !in inferred;
  }

  /** A table's potential-foreign-key edges are exactly its columns whose
      lower-cased name is `<table>_id` for a table of the schema and is not
      the column of a declared foreign key; they join on that lower-cased
      name against `id`. */
  lemma {:induction false} PotentialEdges(db: DbSchema, i: nat, e: Edge)
    requires Valid(db) && i < |db.tables|
    ensures var t := db.tables[i];
      (e in InferRelationships(db)[t.name] && e.kind == PotentialForeignKey) <==>
      exists k :: 0 <= k < |t.columns| &&
        var c := Lower(t.columns[k].name);
        && e == Edge(e.relatedTable, PotentialForeignKey, Some(c), Some("id"))
        && c == e.relatedTable + "_id"
        && e.relatedTable in TableNames(db.tables)
        && !Declared(t.foreignKeys, c)
  {
    var t := db.tables[i];
    var names := TableNames(db.tables);
    EdgesOf(db, i);
    InferredEdgesMembers(names, t.foreignKeys, t.columns, e);
    var fkEdges := ForeignKeyEdges(t.foreignKeys);
    assert e.kind == PotentialForeignKey ==> e !in fkEdges;
    forall k | 0 <= k < |t.columns|
      ensures InferredEdge(names, t.foreignKeys, t.columns[k]) == Some(e) <==>
        var c := Lower(t.columns[k].name);
        && e == Edge(e.relatedTable, PotentialForeignKey, Some(c), Some("id"))
        && c == e.relatedTable + "_id"
        && e.relatedTable in names
        && !Declared(t.foreignKeys, c)
    {
      InferredEdgeIs(names, t.foreignKeys, t.columns[k], e);
    }
  }

  /** The edge a column gives is `e` exactly when the column is `e`'s
      table name followed by `_id`, that table exists, and no key covers it. */
  lemma InferredEdgeIs(names: seq<string>, fks: seq<ForeignKey>, col: Column, e: Edge)
    ensures InferredEdge(names, fks, col) == Some(e) <==>
      var c := Lower(col.name);
      && e == Edge(e.relatedTable, PotentialForeignKey, Some(c), Some("id"))
      && c == e.relatedTable + "_id"
      && e.relatedTable in names
      && !Declared(fks, c)
  {
    var c := Lower(col.name);
    if c == e.relatedTable + "_id" {
      assert EndsWith(c, "_id") && c[..|c| - 3] == e.relatedTable;
    }
  }

  /** Position of the foreign key that gives the `i`-th declared edge. */
  function KeyOfEdge(fks: seq<ForeignKey>, i: nat): (r: nat)
    requires i < |ForeignKeyEdges(fks)|
    ensures r < |fks|
    decreases |fks|
  {
    var rest := ForeignKeyEdges(fks[1..]);
    if ForeignKeyEdge(fks[0]).Some? then
      assert ForeignKeyEdges(fks) == [ForeignKeyEdge(fks[0]).value] + rest;
      if i == 0 then 0 else 1 + KeyOfEdge(fks[1..], i - 1)
    else
      assert ForeignKeyEdges(fks) == rest;
      1 + KeyOfEdge(fks[1..], i)
  }

  /** Position of the column that gives the `i`-th inferred edge. */
  function ColumnOfEdge(names: seq<string>, fks: seq<ForeignKey>, cols: seq<Column>, i: nat): (r: nat)
    requires i < |InferredEdges(names, fks, cols)|
    ensures r < |cols|
    decreases |cols|
  {
    var rest := InferredEdges(names, fks, cols[1..]);
    if InferredEdge(names, fks, cols[0]).Some? then
      assert InferredEdges(names, fks, cols) == [InferredEdge(names, fks, cols[0]).value] + rest;
      if i == 0 then 0 else 1 + ColumnOfEdge(names, fks, cols[1..], i - 1)
    else
      assert InferredEdges(names, fks, cols) == rest;
      1 + ColumnOfEdge(names, fks, cols[1..], i)
  }

  /** The `i`-th declared edge is the edge of the key `KeyOfEdge` names. */
  lemma {:induction false} KeyGivesEdge(fks: seq<ForeignKey>, i: nat)
    requires i < |ForeignKeyEdges(fks)|
    ensures ForeignKeyEdge(fks[KeyOfEdge(fks, i)]) == Some(ForeignKeyEdges(fks)[i])
    decreases |fks|
  {
    var rest := ForeignKeyEdges(fks[1..]);
    if ForeignKeyEdge(fks[0]).Some? {
      assert ForeignKeyEdges(fks) == [ForeignKeyEdge(fks[0]).value] + rest;
      if i > 0 {
        KeyGivesEdge(fks[1..], i - 1);
        assert fks[KeyOfEdge(fks, i)] == fks[1..][KeyOfEdge(fks[1..], i - 1)];
      }
    } else {
      assert ForeignKeyEdges(fks) == rest;
      KeyGivesEdge(fks[1..], i);
      assert fks[KeyOfEdge(fks, i)] == fks[1..][KeyOfEdge(fks[1..], i)];
    }
  }

  /** The `i`-th inferred edge is the edge of the column `ColumnOfEdge`
      names. */
  lemma {:induction false} ColumnGivesEdge(names: seq<string>, fks: seq<ForeignKey>, cols: seq<Column>, i: nat)
    requires i < |InferredEdges(names, fks, cols)|
    ensures InferredEdge(names, fks, cols[ColumnOfEdge(names, fks, cols, i)]) == Some(InferredEdges(names, fks, cols)[i])
    decreases |cols|
  {
    var rest := InferredEdges(names, fks, cols[1..]);
    if InferredEdge(names, fks, cols[0]).Some? {
      assert InferredEdges(names, fks, cols) == [InferredEdge(names, fks, cols[0]).value] + rest;
      if i > 0 {
        ColumnGivesEdge(names, fks, cols[1..], i - 1);
        assert cols[ColumnOfEdge(names, fks, cols, i)] == cols[1..][ColumnOfEdge(names, fks, cols[1..], i - 1)];
      }
    } else {
      assert InferredEdges(names, fks, cols) == rest;
      ColumnGivesEdge(names, fks, cols[1..], i);
      assert cols[ColumnOfEdge(names, fks, cols, i)] == cols[1..][ColumnOfEdge(names, fks, cols[1..], i)];
    }
  }

  /** Declared edges keep the order of their foreign keys. */
  lemma {:induction false} KeyOfEdgeIncreasing(fks: seq<ForeignKey>, i: nat, j: nat)
    requires i < j < |ForeignKeyEdges(fks)|
    ensures KeyOfEdge(fks, i) < KeyOfEdge(fks, j)
    decreases |fks|
  {
    var tail := fks[1..];
    if ForeignKeyEdge(fks[0]).Some? {
      assert KeyOfEdge(fks, j) == 1 + KeyOfEdge(tail, j - 1);
      if i > 0 {
        assert KeyOfEdge(fks, i) == 1 + KeyOfEdge(tail, i - 1);
        KeyOfEdgeIncreasing(tail, i - 1, j - 1);
      } else {
        assert KeyOfEdge(fks, i) == 0;
      }
    } else {
      assert KeyOfEdge(fks, i) == 1 + KeyOfEdge(tail, i);
      assert KeyOfEdge(fks, j) == 1 + KeyOfEdge(tail, j);
      KeyOfEdgeIncreasing(tail, i, j);
    }
  }

  /** Inferred edges keep the order of their columns. */
  lemma {:induction false} ColumnOfEdgeIncreasing(names: seq<string>, fks: seq<ForeignKey>, cols: seq<Column>, i: nat, j: nat)
    requires i < j < |InferredEdges(names, fks, cols)|
    ensures ColumnOfEdge(names, fks, cols, i) < ColumnOfEdge(names, fks, cols, j)
    decreases |cols|
  {
    var tail := cols[1..];
    if InferredEdge(names, fks, cols[0]).Some? {
      assert ColumnOfEdge(names, fks, cols, j) == 1 + ColumnOfEdge(names, fks, tail, j - 1);
      if i > 0 {
        assert ColumnOfEdge(names, fks, cols, i) == 1 + ColumnOfEdge(names, fks, tail, i - 1);
        ColumnOfEdgeIncreasing(names, fks, tail, i - 1, j - 1);
      } else {
        assert ColumnOfEdge(names, fks, cols, i) == 0;
      }
    } else {
      assert ColumnOfEdge(names, fks, cols, i) == 1 + ColumnOfEdge(names, fks, tail, i);
      assert ColumnOfEdge(names, fks, cols, j) == 1 + ColumnOfEdge(names, fks, tail, j);
      ColumnOfEdgeIncreasing(names, fks, tail, i, j);
    }
  }

  /** In a table's edge list (its entry in the graph, by `EdgesOf`), two
      many-to-one edges appear in the order of the foreign keys they come
      from, and two potential-foreign-key edges in the order of their
      columns. */
  lemma EdgesInSourceOrder(db: DbSchema, t: Table, i: nat, j: nat)
    requires i < j < |TableEdges(db, t)|
    ensures var es := TableEdges(db, t);
      var d := |ForeignKeyEdges(t.foreignKeys)|;
      && (es[j].kind == ManyToOne ==>
            j < d && KeyOfEdge(t.foreignKeys, i) < KeyOfEdge(t.foreignKeys, j))
      && (es[i].kind == PotentialForeignKey ==>
            d <= i && ColumnOfEdge(TableNames(db.tables), t.foreignKeys, t.columns, i - d) <
                      ColumnOfEdge(TableNames(db.tables), t.foreignKeys, t.columns, j - d))
  {
    var fkEdges := ForeignKeyEdges(t.foreignKeys);
    var inferred := InferredEdges(TableNames(db.tables), t.foreignKeys, t.columns);
    var d := |fkEdges|;
    if j < d {
      KeyOfEdgeIncreasing(t.foreignKeys, i, j);
    } else {
      assert TableEdges(db, t)[j] == inferred[j - d];
    }
    if d <= i {
      ColumnOfEdgeIncreasing(TableNames(db.tables), t.foreignKeys, t.columns, i - d, j - d);
    } else {
      assert TableEdges(db, t)[i] == fkEdges[i];
    }
  }

  /** The edges stored under a key are those of the first table with that
      name. */
  lemma GraphAt(db: DbSchema, n: string)
    requires n in InferRelationships(db)
    ensures TableIndex(db.tables, n) < |db.tables|
    ensures InferRelationships(db)[n] == TableEdges(db, db.tables[TableIndex(db.tables, n)])
  {
    var j :| 0 <= j < |db.tables| && TableNames(db.tables)[j] == n;
  }

  lemma EdgeTargets(db: DbSchema, t: Table, e: Edge)
    requires e in TableEdges(db, t)
    ensures e.kind == PotentialForeignKey ==> e.relatedTable in TableNames(db.tables)
    ensures e.kind == ManyToOne ==> e.relatedTable != []
  {
    var fkEdges := ForeignKeyEdges(t.foreignKeys);
    var inferred := InferredEdges(TableNames(db.tables), t.foreignKeys, t.columns);
    if e in fkEdges {
      ForeignKeyEdgesMembers(t.foreignKeys, e);
    } else {
      var k :| 0 <= k < |inferred| && inferred[k] == e;
    }
  }

  /** Every potential-foreign-key edge leads to a table of the schema; a
      many-to-one edge names a non-empty table, which the schema need not
      have. */
  lemma InferredTargetsAreTables(db: DbSchema, n: string, e: Edge)
    requires n in InferRelationships(db) && e in InferRelationships(db)[n]
    ensures e.kind == PotentialForeignKey ==> e.relatedTable in TableNames(db.tables)
    ensures e.kind == ManyToOne ==> e.relatedTable != []
  {
    GraphAt(db, n);
    EdgeTargets(db, db.tables[TableIndex(db.tables, n)], e);
  }

  lemma TableEdgesOrdered(db: DbSchema, t: Table, i: nat, j: nat)
    requires i < j < |TableEdges(db, t)|
    requires TableEdges(db, t)[i].kind == PotentialForeignKey
    ensures TableEdges(db, t)[j].kind == PotentialForeignKey
  {
    var fkEdges := ForeignKeyEdges(t.foreignKeys);
    var inferred := InferredEdges(TableNames(db.tables), t.foreignKeys, t.columns);
    assert i >= |fkEdges|;
    assert TableEdges(db, t)[j] == inferred[j - |fkEdges|];
  }

  /** In every edge list the many-to-one edges come before the inferred ones. */
  lemma DeclaredEdgesFirst(db: DbSchema, n: string, i: nat, j: nat)
    requires n in InferRelationships(db)
    requires i < j < |InferRelationships(db)[n]|
    requires InferRelationships(db)[n][i].kind == PotentialForeignKey
    ensures InferRelationships(db)[n][j].kind == PotentialForeignKey
  {
    GraphAt(db, n);
    TableEdgesOrdered(db, db.tables[TableIndex(db.tables, n)], i, j);
  }

  /** The duplicate check compares the lower-cased column name with the key's
      column name as declared, so a declared key on a mixed-case column
      `Customer_ID` also yields an inferred edge for the same column. */
  lemma MixedCaseKeyInferredAgain()
    ensures var db := DbSchema([
        Table("customer", [], [], []),
        Table("orders", [Column("Customer_ID", "INT")], [],
          [ForeignKey(Some("Customer_ID"), Some("customer"), Some("id"))])]);
      "orders" in InferRelationships(db) && InferRelationships(db)["orders"] == [
        Edge("customer", ManyToOne, Some("Customer_ID"), Some("id")),
        Edge("customer", PotentialForeignKey, Some("customer_id"), Some("id"))]
  {
    var fk := ForeignKey(Some("Customer_ID"), Some("customer"), Some("id"));
    var orders := Table("orders", [Column("Customer_ID", "INT")], [], [fk]);
    var db := DbSchema([Table("customer", [], [], []), orders]);
    var names := TableNames(db.tables);
    assert names == ["customer", "orders"];
    assert ForeignKeyEdges([fk]) == [Edge("customer", ManyToOne, Some("Customer_ID"), Some("id"))];
    var c := Lower("Customer_ID");
    assert c == "customer_id";
    assert !Declared([fk], c) by {
      assert "Customer_ID"[0] != c[0];
    }
    assert c[..|c| - 3] == "customer";
    assert InferredEdge(names, [fk], Column("Customer_ID", "INT")) ==
      Some(Edge("customer", PotentialForeignKey, Some("customer_id"), Some("id")));
    assert InferredEdges(names, [fk], orders.columns) ==
      [Edge("customer", PotentialForeignKey, Some("customer_id"), Some("id"))];
    assert TableNames(db.tables)[1] == "orders";
    assert TableIndex(db.tables, "orders") == 1;
  }

  /** The naming convention does not exclude the table itself: a column
      `manager_id`-style reference to the own table, here `employee_id` in
      `employee`, yields an edge from the table to itself. */
  lemma SelfReferenceInferred()
    ensures var db := DbSchema([Table("employee", [Column("employee_id", "INT")], [], [])]);
      "employee" in InferRelationships(db) && InferRelationships(db)["employee"] ==
        [Edge("employee", PotentialForeignKey, Some("employee_id"), Some("id"))]
  {
    var employee := Table("employee", [Column("employee_id", "INT")], [], []);
    var db := DbSchema([employee]);
    var names := TableNames(db.tables);
    assert names == ["employee"];
    var c := Lower("employee_id");
    assert c == "employee_id";
    assert c[..|c| - 3] == "employee";
    assert InferredEdge(names, [], employee.columns[0]) ==
      Some(Edge("employee", PotentialForeignKey, Some("employee_id"), Some("id")));
    assert InferredEdges(names, [], employee.columns) ==
      [Edge("employee", PotentialForeignKey, Some("employee_id"), Some("id"))];
    assert TableIndex(db.tables, "employee") == 0;
  }
}

=== FILE: scan.dfy ===
/** The regular expressions of the comparison engine, each written as a
    hand-made scanner that follows Python's backtracking order for that one
    shape: greedy `\s+` runs that give back one character at a time, lazy
    `.+?` / `.*?` groups that stop at the first position where the lookahead
    holds, `.` refusing a newline unless DOTALL is set, leftmost-first
    `re.search`, and the left-to-right rewriting loop of `re.sub`. */
module Scan {
  import opened Text

  /** One alternative of a lookahead `(?=...)`. */
  datatype Look =
    | Spaced(words: seq<string>)   // `\s+W1\s+W2...`; every W starts with a letter
    | AtEnd                        // `\s*$`
    | Lit(c: char)                 // one literal character

  /** `\s+W1\s+W2...` at `e`. Since every word starts with a letter, only the
      full whitespace run can be followed by the word, so backtracking the run
      finds nothing more. */
  predicate SpacedAt(s: string, e: nat, words: seq<string>)
    requires e <= |s|
    decreases |words|
  {
    if |words| == 0 then true
    else
      var m := RunEnd(s, e, Space);
      m > e && MatchesAt(s, m, words[0]) && SpacedAt(s, m + |words[0]|, words[1..])
  }

  predicate LookOneAt(s: string, e: nat, l: Look)
    requires e <= |s|
  {
    match l
    case Spaced(ws) => SpacedAt(s, e, ws)
    case AtEnd => RunEnd(s, e, Space) == |s|
    case Lit(c) => e < |s| && s[e] == c
  }

  /** The lookahead made of the alternatives `alts` holds at `e`. */
  predicate LookAt(s: string, e: nat, alts: seq<Look>)
    requires e <= |s|
  {
    exists k :: 0 <= k < |alts| && LookOneAt(s, e, alts[k])
  }

  /** `.` may consume every character of `s[g..e]`. */
  predicate Dotted(s: string, g: nat, e: nat, dotall: bool)
    requires g <= e <= |s|
  {
    dotall || forall j :: g <= j < e ==> s[j] != '\n'
  }

  /** A lazy `.*?` (or, started at `g + 1`, `.+?`) group opened at `g`: the
      first end position from `e` on where the lookahead holds. */
  function LazyEnd(s: string, g: nat, e: nat, alts: seq<Look>, dotall: bool): (r: Option<nat>)
    requires g <= e <= |s| + 1
    requires e == g || Dotted(s, g, e - 1, dotall)
    ensures r.Some? ==> e <= r.value <= |s| && Dotted(s, g, r.value, dotall) && LookAt(s, r.value, alts)
    ensures r.Some? ==> forall x :: e <= x < r.value ==> !LookAt(s, x, alts)
    ensures r.None? ==> forall x :: e <= x <= |s| && Dotted(s, g, x, dotall) ==> !LookAt(s, x, alts)
    decreases |s| + 1 - e
  {
    if e > |s| then None
    else if e > g && !dotall && s[e - 1] == '\n' then None
    else if LookAt(s, e, alts) then Some(e)
    else LazyEnd(s, g, e + 1, alts, dotall)
  }

  /** Bounds of a captured group. */
  datatype Span = Span(start: nat, end: nat)

  /** `\s+(.+?)(?=alts)` once the greedy `\s+` has covered `s[lo..g]`: the
      group is tried from `g`, then from one character earlier, and so on
      while the run keeps at least one character. The group found starts as
      late as possible and ends as early as possible; no start leaves any
      group when none is found. */
  function LazyAfterRun(s: string, lo: nat, g: nat, alts: seq<Look>, dotall: bool): (r: Option<Span>)
    requires lo <= g <= |s|
    ensures r.Some? ==> lo < r.value.start <= g && r.value.start < r.value.end <= |s|
    ensures r.Some? ==> LookAt(s, r.value.end, alts) && Dotted(s, r.value.start, r.value.end, dotall)
    ensures r.Some? ==> forall x :: r.value.start < x < r.value.end ==> !LookAt(s, x, alts)
    ensures r.Some? ==> NoGroup(s, r.value.start, g, alts, dotall)
    ensures r.None? ==> NoGroup(s, lo, g, alts, dotall)
    decreases g
  {
    if g <= lo then None
    else
      match LazyEnd(s, g, g + 1, alts, dotall)
      case Some(e) => Some(Span(g, e))
      case None => LazyAfterRun(s, lo, g - 1, alts, dotall)
  }

  /** No group `(.+?)(?=alts)` starts after `lo` and at or before `g`. */
  predicate NoGroup(s: string, lo: nat, g: nat, alts: seq<Look>, dotall: bool) {
    forall h, x :: lo < h <= g && h < x <= |s| && Dotted(s, h, x, dotall) ==> !LookAt(s, x, alts)
  }

  /** `KW\s+(.+?)(?=alts)` anchored at `i`. The group starts inside the
      whitespace run after the keyword, as late as a group can start, and
      ends at the first place the lookahead holds; when there is none, no
      split of the run leaves a group. */
  function HeadedAt(s: string, i: nat, kw: string, alts: seq<Look>, dotall: bool): (r: Option<Span>)
    requires i <= |s|
    ensures r.Some? ==> MatchesAt(s, i, kw) && i + |kw| < r.value.start <= RunEnd(s, i + |kw|, Space)
    ensures r.Some? ==> r.value.start < r.value.end <= |s| && Dotted(s, r.value.start, r.value.end, dotall)
    ensures r.Some? ==> LookAt(s, r.value.end, alts)
    ensures r.Some? ==> forall x :: r.value.start < x < r.value.end ==> !LookAt(s, x, alts)
    ensures r.Some? ==> NoGroup(s, r.value.start, RunEnd(s, i + |kw|, Space), alts, dotall)
    ensures r.None? && MatchesAt(s, i, kw) ==> NoGroup(s, i + |kw|, RunEnd(s, i + |kw|, Space), alts, dotall)
  {
    if MatchesAt(s, i, kw) then
      var lo := i + |kw|;
      LazyAfterRun(s, lo, RunEnd(s, lo, Space), alts, dotall)
    else None
  }

  /** `(DISTINCT\s+)?(.+?)(?=alts)` from `h`, the optional group tried
      first: the match of `DISTINCT\s+(.+?)` when there is one, else the
      lazy group from `h` itself, ending where the lookahead first holds. */
  function SelectTry(s: string, h: nat, alts: seq<Look>): (r: Option<Span>)
    requires h <= |s|
    ensures r.Some? ==> h <= r.value.start < r.value.end <= |s| && LookAt(s, r.value.end, alts)
    ensures r.Some? ==> forall x :: r.value.start < x < r.value.end ==> !LookAt(s, x, alts)
    ensures r.Some? && r.value.start > h ==> MatchesAt(s, h, "DISTINCT") && r == HeadedAt(s, h, "DISTINCT", alts, false)
    ensures r.Some? && r.value.start == h ==> HeadedAt(s, h, "DISTINCT", alts, false).None? && Dotted(s, h, r.value.end, false)
    ensures r.None? <==>
      (HeadedAt(s, h, "DISTINCT", alts, false).None? &&
       forall x :: h < x <= |s| && Dotted(s, h, x, false) ==> !LookAt(s, x, alts))
  {
    match HeadedAt(s, h, "DISTINCT", alts, false)
    case Some(sp) => Some(sp)
    case None =>
      match LazyEnd(s, h, h + 1, alts, false)
      case Some(e) => Some(Span(h, e))
      case None => None
  }

  /** `SELECT\s+(DISTINCT\s+)?(.+?)(?=alts)` once `SELECT\s+` has covered
      `s[lo..g]`: the run gives back one character at a time, and at each
      length the `DISTINCT\s+` branch is tried before the branch that skips
      it. The match is that of the longest run that leaves one. */
  function SelectAfterRun(s: string, lo: nat, g: nat, alts: seq<Look>): (r: Option<Span>)
    requires lo <= g <= |s|
    ensures r.Some? ==> lo < r.value.start < r.value.end <= |s| && LookAt(s, r.value.end, alts)
    ensures r.Some? ==> forall x :: r.value.start < x < r.value.end ==> !LookAt(s, x, alts)
    decreases g
  {
    if g <= lo then None
    else
      match SelectTry(s, g, alts)
      case Some(sp) => Some(sp)
      case None => SelectAfterRun(s, lo, g - 1, alts)
  }

  /** The SELECT match is that of the longest run that leaves one, and no
      run length leaves one when there is none. */
  lemma {:induction false} SelectLongestRun(s: string, lo: nat, g: nat, alts: seq<Look>) returns (h: nat)
    requires lo <= g <= |s|
    ensures SelectAfterRun(s, lo, g, alts).Some? ==>
      lo < h <= g && SelectTry(s, h, alts) == SelectAfterRun(s, lo, g, alts) && SelectFailsAbove(s, h, g, alts)
    ensures SelectAfterRun(s, lo, g, alts).None? ==> SelectFailsAbove(s, lo, g, alts)
    decreases g
  {
    if g <= lo {
      h := g;
    } else if SelectTry(s, g, alts).Some? {
      h := g;
    } else {
      h := SelectLongestRun(s, lo, g - 1, alts);
      FailsOneMore(s, if SelectAfterRun(s, lo, g, alts).Some? then h else lo, g, alts);
    }
  }

  lemma FailsOneMore(s: string, h: nat, g: nat, alts: seq<Look>)
    requires h < g <= |s| && SelectFailsAbove(s, h, g - 1, alts) && SelectTry(s, g, alts).None?
    ensures SelectFailsAbove(s, h, g, alts)
  {
  }

  /** No run length after `h` and up to `g` leaves a match. */
  predicate SelectFailsAbove(s: string, h: nat, g: nat, alts: seq<Look>)
    requires g <= |s|
  {
    forall h' :: h < h' <= g ==> SelectTry(s, h', alts).None?
  }

  /** `KW\s+(\d+)` anchored at `i`; the group is the whole digit run. */
  function CountAt(s: string, i: nat, kw: string): (r: Option<Span>)
    requires i <= |s|
    ensures r.Some? ==> MatchesAt(s, i, kw) && i + |kw| < r.value.start < r.value.end <= |s|
    ensures r.Some? ==> forall j :: r.value.start <= j < r.value.end ==> IsDigit(s[j])
  {
    if MatchesAt(s, i, kw) then
      var m := RunEnd(s, i + |kw|, Space);
      var d := RunEnd(s, m, Digit);
      if m > i + |kw| && d > m then Some(Span(m, d)) else None
    else None
  }

  /** `(P1|P2|...|Pn)JOIN\s+(.+?)(?=alts)` anchored at `i`, alternatives tried
      in order: the match is that of the first prefix after which the JOIN
      pattern matches, and there is none when it matches after no prefix. */
  function JoinedAt(s: string, i: nat, prefixes: seq<string>, alts: seq<Look>): (r: Option<Span>)
    requires i <= |s|
    ensures r.Some? ==> i < r.value.start < r.value.end <= |s| && LookAt(s, r.value.end, alts)
    ensures r.Some? ==> forall x :: r.value.start < x < r.value.end ==> !LookAt(s, x, alts)
    ensures r.Some? ==> FirstJoin(s, i, prefixes, alts, r.value)
    ensures r.None? ==> forall k :: 0 <= k < |prefixes| ==> JoinAfter(s, i, prefixes[k], alts).None?
    decreases |prefixes|
  {
    if |prefixes| == 0 then None
    else
      var here := JoinAfter(s, i, prefixes[0], alts);
      if here.Some? then
        JoinedFirst(s, i, prefixes, alts, here.value);
        here
      else
        var r := JoinedAt(s, i, prefixes[1..], alts);
        JoinedLater(s, i, prefixes, alts, r);
        r
  }

  /** A match after the first prefix is the first join. */
  lemma JoinedFirst(s: string, i: nat, prefixes: seq<string>, alts: seq<Look>, sp: Span)
    requires i <= |s| && |prefixes| > 0 && JoinAfter(s, i, prefixes[0], alts) == Some(sp)
    ensures FirstJoin(s, i, prefixes, alts, sp)
  {
    assert JoinAfter(s, i, prefixes[0], alts) == Some(sp);
  }

  /** When the first prefix fails, the outcome on the rest is the outcome on all. */
  lemma JoinedLater(s: string, i: nat, prefixes: seq<string>, alts: seq<Look>, r: Option<Span>)
    requires i <= |s| && |prefixes| > 0 && JoinAfter(s, i, prefixes[0], alts).None?
    requires r.Some? ==> FirstJoin(s, i, prefixes[1..], alts, r.value)
    requires r.None? ==> forall k :: 0 <= k < |prefixes[1..]| ==> JoinAfter(s, i, prefixes[1..][k], alts).None?
    ensures r.Some? ==> FirstJoin(s, i, prefixes, alts, r.value)
    ensures r.None? ==> forall k :: 0 <= k < |prefixes| ==> JoinAfter(s, i, prefixes[k], alts).None?
  {
    var rest := prefixes[1..];
    assert forall k :: 1 <= k < |prefixes| ==> prefixes[k] == rest[k - 1];
    if r.Some? {
      var k :| 0 <= k < |rest| && JoinAfter(s, i, rest[k], alts) == Some(r.value) &&
        forall k' :: 0 <= k' < k ==> JoinAfter(s, i, rest[k'], alts).None?;
      assert JoinAfter(s, i, prefixes[k + 1], alts) == Some(r.value);
    }
  }

  /** `sp` is the match after some prefix, and no earlier prefix leads to one. */
  predicate FirstJoin(s: string, i: nat, prefixes: seq<string>, alts: seq<Look>, sp: Span)
    requires i <= |s|
  {
    exists k :: 0 <= k < |prefixes| && JoinAfter(s, i, prefixes[k], alts) == Some(sp) &&
      forall k' :: 0 <= k' < k ==> JoinAfter(s, i, prefixes[k'], alts).None?
  }

  /** `P JOIN\s+(.+?)(?=alts)` at `i` for one prefix `P`. */
  function JoinAfter(s: string, i: nat, prefix: string, alts: seq<Look>): (r: Option<Span>)
    requires i <= |s|
    ensures r.Some? ==> MatchesAt(s, i, prefix) && r == HeadedAt(s, i + |prefix|, "JOIN", alts, false)
    ensures MatchesAt(s, i, prefix) ==> r == HeadedAt(s, i + |prefix|, "JOIN", alts, false)
  {
    if MatchesAt(s, i, prefix) then HeadedAt(s, i + |prefix|, "JOIN", alts, false) else None
  }

  /** The shapes of clause pattern the comparison engine uses. */
  datatype Pattern =
    | Headed(keyword: string, look: seq<Look>, dotall: bool)  // `KW\s+(.+?)(?=look)`
    | SelectList(look: seq<Look>)                             // `SELECT\s+(DISTINCT\s+)?(.+?)(?=look)`
    | Count(keyword: string)                                  // `KW\s+(\d+)`
    | Joined(prefixes: seq<string>, look: seq<Look>)          // `(P1|...|Pn)JOIN\s+(.+?)(?=look)`

  /** The last capturing group of pattern `p` matched at `i`, if it matches there. */
  function MatchAt(s: string, i: nat, p: Pattern): (r: Option<Span>)
    requires i <= |s|
    ensures r.Some? ==> i < r.value.start < r.value.end <= |s|
  {
    match p
    case Headed(kw, look, dotall) => HeadedAt(s, i, kw, look, dotall)
    case SelectList(look) =>
      if MatchesAt(s, i, "SELECT") then SelectAfterRun(s, i + 6, RunEnd(s, i + 6, Space), look) else None
    case Count(kw) => CountAt(s, i, kw)
    case Joined(prefixes, look) => JoinedAt(s, i, prefixes, look)
  }

  /** What a match of each pattern shape is: the keyword at `i`; for the
      lazy shapes, a group ending at the first place the lookahead holds
      (after the first prefix that works, for JOIN); for LIMIT, digits. */
  lemma MatchAtShape(s: string, i: nat, p: Pattern)
    requires i <= |s|
    ensures MatchAt(s, i, p).Some? && p.Headed? ==>
      MatchesAt(s, i, p.keyword) && Dotted(s, MatchAt(s, i, p).value.start, MatchAt(s, i, p).value.end, p.dotall)
    ensures MatchAt(s, i, p).Some? && p.SelectList? ==> MatchesAt(s, i, "SELECT")
    ensures MatchAt(s, i, p).Some? && p.Joined? ==> FirstJoin(s, i, p.prefixes, p.look, MatchAt(s, i, p).value)
    ensures MatchAt(s, i, p).Some? && !p.Count? ==>
      var sp := MatchAt(s, i, p).value;
      LookAt(s, sp.end, p.look) && forall x :: sp.start < x < sp.end ==> !LookAt(s, x, p.look)
    ensures MatchAt(s, i, p).Some? && p.Count? ==>
      var sp := MatchAt(s, i, p).value;
      MatchesAt(s, i, p.keyword) && forall j :: sp.start <= j < sp.end ==> IsDigit(s[j])
  {
  }

  /** A keyword found nowhere leaves its pattern no match. */
  lemma HeadedNowhere(s: string, kw: string, alts: seq<Look>, dotall: bool)
    requires forall j :: 0 <= j <= |s| ==> !MatchesAt(s, j, kw)
    ensures forall j :: 0 <= j <= |s| ==> HeadedAt(s, j, kw, alts, dotall).None?
  {
  }

  /** Without a `JOIN` anywhere no join pattern matches. */
  lemma JoinedNowhere(s: string, prefixes: seq<string>, alts: seq<Look>)
    requires forall j :: 0 <= j <= |s| ==> !MatchesAt(s, j, "JOIN")
    ensures forall j :: 0 <= j <= |s| ==> JoinedAt(s, j, prefixes, alts).None?
  {
    forall j | 0 <= j <= |s|
      ensures JoinedAt(s, j, prefixes, alts).None?
    {
      forall k | 0 <= k < |prefixes|
        ensures JoinAfter(s, j, prefixes[k], alts).None?
      {
        if MatchesAt(s, j, prefixes[k]) {
          assert !MatchesAt(s, j + |prefixes[k]|, "JOIN");
        }
      }
      if JoinedAt(s, j, prefixes, alts).Some? {
        assert FirstJoin(s, j, prefixes, alts, JoinedAt(s, j, prefixes, alts).value);
      }
    }
  }

  /** A match found by `re.search`: where it starts and its last group. */
  datatype Found = Found(at: nat, group: Span)

  /** `re.search` from position `i`: the leftmost position where `p` matches. */
  function Search(s: string, p: Pattern, i: nat): (r: Option<Found>)
    requires i <= |s|
    ensures r.Some? ==> i <= r.value.at <= |s| && MatchAt(s, r.value.at, p) == Some(r.value.group)
    ensures r.Some? ==> forall j :: i <= j < r.value.at ==> MatchAt(s, j, p).None?
    ensures r.None? ==> forall j :: i <= j <= |s| ==> MatchAt(s, j, p).None?
  {
    Leftmost(Matches(s, p), i)
  }

  /** The outcome of `p` at every position of `s`, the end included. */
  function Matches(s: string, p: Pattern): (r: seq<Option<Span>>)
    ensures |r| == |s| + 1 && forall j :: 0 <= j <= |s| ==> r[j] == MatchAt(s, j, p)
  {
    seq(|s| + 1, j requires 0 <= j <= |s| => MatchAt(s, j, p))
  }

  /** The first position from `i` on with a match. */
  function Leftmost(ms: seq<Option<Span>>, i: nat): (r: Option<Found>)
    requires i < |ms|
    ensures r.Some? ==> i <= r.value.at < |ms| && ms[r.value.at] == Some(r.value.group)
    ensures r.Some? ==> forall j :: i <= j < r.value.at ==> ms[j].None?
    ensures r.None? ==> forall j :: i <= j < |ms| ==> ms[j].None?
    decreases |ms| - i
  {
    if ms[i].Some? then Some(Found(i, ms[i].value))
    else if i == |ms| - 1 then None
    else Leftmost(ms, i + 1)
  }

  // ---------------------------------------------------------------------------
  // re.finditer
  // ---------------------------------------------------------------------------

  /** Match outcomes, one per position of a text and its end, where every
      match starts after its position and ends within the text. */
  predicate Forward(ms: seq<Option<Span>>) {
    forall j :: 0 <= j < |ms| && ms[j].Some? ==> j < ms[j].value.start <= ms[j].value.end < |ms|
  }

  /** `re.finditer` from position `i`: the leftmost match, then the leftmost
      match from where it ends, and so on. The spans found lie after `i`, in
      order, without overlapping. */
  function FindAll(ms: seq<Option<Span>>, i: nat): (r: seq<Span>)
    requires i < |ms| && Forward(ms)
    ensures forall k :: 0 <= k < |r| ==> i < r[k].start <= r[k].end < |ms|
    ensures forall k :: 0 <= k < |r| - 1 ==> r[k].end < r[k + 1].start
    decreases |ms| - i
  {
    match Leftmost(ms, i)
    case Some(f) =>
      var rest := FindAll(ms, f.group.end);
      assert forall k :: 0 < k < |rest| + 1 ==> ([f.group] + rest)[k] == rest[k - 1];
      [f.group] + rest
    case None => []
  }

  /** The first span found from `i` is the match at the first position with one. */
  lemma FindAllFirst(ms: seq<Option<Span>>, i: nat, p: nat)
    requires Forward(ms) && i <= p < |ms| && ms[p].Some?
    requires forall j :: i <= j < p ==> ms[j].None?
    ensures FindAll(ms, i) == [ms[p].value] + FindAll(ms, ms[p].value.end)
  {
    var f := Leftmost(ms, i);
    assert f.Some? && f.value.at == p;
  }

  /** Nothing is found from `i` exactly when no position from `i` on matches. */
  lemma FindAllEmpty(ms: seq<Option<Span>>, i: nat)
    requires i < |ms| && Forward(ms)
    ensures FindAll(ms, i) == [] <==> forall p :: i <= p < |ms| ==> ms[p].None?
  {
  }

  /** Every span found from `i` is the match of some position from `i` on. */
  lemma {:induction false} FindAllSource(ms: seq<Option<Span>>, i: nat, k: nat) returns (p: nat)
    requires i < |ms| && Forward(ms) && k < |FindAll(ms, i)|
    ensures i <= p < |ms| && ms[p] == Some(FindAll(ms, i)[k])
    decreases |ms| - i
  {
    var f := Leftmost(ms, i).value;
    if k == 0 {
      p := f.at;
    } else {
      p := FindAllSource(ms, f.group.end, k - 1);
    }
  }

  // ---------------------------------------------------------------------------
  // re.split(r',\s*', text)
  // ---------------------------------------------------------------------------

  /** `re.split(r',\s*', s)`: cut at every comma, dropping the whitespace
      that follows it. The pieces are those of `s.split(',')`, every piece
      after the first without its leading whitespace. */
  function SplitCommas(s: string): (r: seq<string>)
    ensures |r| == |SplitOn(s, ',')|
    ensures r[0] == SplitOn(s, ',')[0]
    ensures forall k :: 1 <= k < |r| ==> r[k] == StripStart(SplitOn(s, ',')[k])
    ensures forall k :: 0 <= k < |r| ==> ',' !in r[k]
    ensures |r[0]| <= |s| && r[0] == s[..|r[0]|]
    decreases |s|
  {
    var c := IndexOf(s, ',', 0);
    SplitFirst(s, ',', c);
    if c == |s| then [s]
    else
      var m := RunEnd(s, c + 1, Space);
      var rest := SplitCommas(s[m..]);
      CommaStep(s, c, m, rest);
      assert ',' !in s[..c];
      [s[..c]] + rest
  }

  /** One step of the split: the first piece, then the pieces of the text
      after the comma and its whitespace. */
  lemma CommaStep(s: string, c: nat, m: nat, rest: seq<string>)
    requires c == IndexOf(s, ',', 0) < |s| && m == RunEnd(s, c + 1, Space)
    requires |rest| == |SplitOn(s[m..], ',')| && rest[0] == SplitOn(s[m..], ',')[0]
    requires forall k :: 1 <= k < |rest| ==> rest[k] == StripStart(SplitOn(s[m..], ',')[k])
    ensures var r := [s[..c]] + rest;
      && |r| == |SplitOn(s, ',')|
      && r[0] == SplitOn(s, ',')[0]
      && (forall k :: 1 <= k < |r| ==> r[k] == StripStart(SplitOn(s, ',')[k]))
  {
    var whole, tail, pieces := SplitOn(s, ','), SplitOn(s[c + 1..], ','), SplitOn(s[m..], ',');
    SplitFirst(s, ',', c);
    SkipAfterComma(s, c, m);
    PiecesCons(s[..c], rest, pieces, tail, whole, StripStart);
  }

  /** The pieces after the first one relate to those of the text after the
      comma as `rest` relates to `pieces`, and the first piece is shared. */
  lemma PiecesCons<T>(h: T, rest: seq<T>, pieces: seq<T>, tail: seq<T>, a: seq<T>, f: T -> T)
    requires |pieces| == |tail| >= 1 && pieces[0] == f(tail[0]) && pieces[1..] == tail[1..]
    requires |rest| == |pieces| && rest[0] == pieces[0]
    requires forall k :: 1 <= k < |rest| ==> rest[k] == f(pieces[k])
    requires a == [h] + tail
    ensures var r := [h] + rest;
      |r| == |a| && r[0] == a[0] && forall k :: 1 <= k < |r| ==> r[k] == f(a[k])
  {
    var r := [h] + rest;
    forall k | 1 <= k < |r|
      ensures r[k] == f(a[k])
    {
      assert r[k] == rest[k - 1] && a[k] == tail[k - 1];
      if k > 1 {
        assert pieces[k - 1] == pieces[1..][k - 2] == tail[1..][k - 2];
      }
    }
  }

  /** The text after a comma with its whitespace skipped splits like the
      text after the comma, up to the first piece's leading whitespace. */
  lemma SkipAfterComma(s: string, c: nat, m: nat)
    requires c < |s| && m == RunEnd(s, c + 1, Space)
    ensures |SplitOn(s[m..], ',')| == |SplitOn(s[c + 1..], ',')|
    ensures SplitOn(s[m..], ',')[0] == StripStart(SplitOn(s[c + 1..], ',')[0])
    ensures SplitOn(s[m..], ',')[1..] == SplitOn(s[c + 1..], ',')[1..]
  {
    var u := s[c + 1..];
    var n := m - (c + 1);
    assert n == RunEnd(u, 0, Space) && s[m..] == u[n..] by {
      RunEndShift(s, c + 1, Space);
      DropDrop(s, c + 1, n);
    }
    SplitOnSkipSpaces(u, ',', n);
  }

  /** A name as it can be written in a plain FROM list: non-empty, with
      neither whitespace nor a comma. */
  predicate Bare(t: string) {
    t != [] && NoSpace(t) && ',' !in t
  }

  /** `', '.join(names)`. */
  function CommaList(names: seq<string>): (r: string)
    requires |names| >= 1
    ensures |names[0]| <= |r| && r[..|names[0]|] == names[0]
    decreases |names|
  {
    if |names| == 1 then names[0] else names[0] + ", " + CommaList(names[1..])
  }

  /** Splitting a comma list of names that neither hold a comma nor start
      with whitespace gives the names back. */
  lemma {:induction false} SplitCommaList(names: seq<string>)
    requires |names| >= 1
    requires forall k :: 0 <= k < |names| ==> names[k] != [] && ',' !in names[k] && !IsSpace(names[k][0])
    ensures SplitCommas(CommaList(names)) == names
    decreases |names|
  {
    var s := CommaList(names);
    var n0 := names[0];
    var c := IndexOf(s, ',', 0);
    if |names| == 1 {
      assert c == |s|;
    } else {
      var rest := CommaList(names[1..]);
      assert s == n0 + ", " + rest;
      assert s[|n0|] == ',';
      assert forall j :: 0 <= j < |n0| ==> s[j] == n0[j];
      assert c == |n0|;
      assert rest[0] == names[1][0];
      assert s[c + 1] == ' ' && s[c + 2] == rest[0];
      var m := RunEnd(s, c + 1, Space);
      assert m == c + 2;
      assert s[m..] == rest;
      SplitCommaList(names[1..]);
    }
  }

  predicate SpaceAt(s: string, j: nat)
    requires j < |s|
  {
    IsSpace(s[j])
  }

  /** Every whitespace character of `s` comes right after a comma. */
  predicate SpacesFollowCommas(s: string) {
    forall j :: 0 <= j < |s| && SpaceAt(s, j) ==> j > 0 && s[j - 1] == ','
  }

  /** Every whitespace character of a comma list of space-free names is the
      space after a comma. */
  lemma {:induction false} CommaListSpaces(names: seq<string>)
    requires |names| >= 1
    requires forall k :: 0 <= k < |names| ==> Bare(names[k])
    ensures SpacesFollowCommas(CommaList(names))
    decreases |names|
  {
    if |names| > 1 {
      CommaListSpaces(names[1..]);
      var s, n0, rest := CommaList(names), names[0], CommaList(names[1..]);
      assert s == n0 + ", " + rest;
      forall j | 0 <= j < |s| && SpaceAt(s, j)
        ensures j > 0 && s[j - 1] == ','
      {
        if j > |n0| + 1 {
          assert s[j] == rest[j - |n0| - 2];
          assert SpaceAt(rest, j - |n0| - 2);
        }
      }
    }
  }

  /** Every character of a comma list is a comma, a space or a character of
      one of the names. */
  lemma {:induction false} CommaListChars(names: seq<string>, c: char)
    requires |names| >= 1 && c in CommaList(names)
    ensures c == ',' || c == ' ' || exists k :: 0 <= k < |names| && c in names[k]
    decreases |names|
  {
    if |names| > 1 {
      var rest := CommaList(names[1..]);
      assert CommaList(names) == names[0] + ", " + rest;
      if c in rest {
        CommaListChars(names[1..], c);
        if c != ',' && c != ' ' {
          var k :| 0 <= k < |names[1..]| && c in names[1..][k];
          assert c in names[k + 1];
        }
      } else if c in names[0] {
        assert c in names[0];
      }
    } else {
      assert c in names[0];
    }
  }

  // ---------------------------------------------------------------------------
  // re.sub
  // ---------------------------------------------------------------------------

  /** The three substitutions the engine performs. */
  datatype Rewrite =
    | DropAlias        // re.sub(r'\s+AS\s+\w+', '', ..., IGNORECASE)
    | UnwrapCall       // re.sub(r'\w+\((.*)\)', r'\1', ...)
    | DropJoinClause   // re.sub(r'(LEFT|...|FULL)\s+JOIN.*?ON.*?(?=...)', '', ..., IGNORECASE)

  /** `\s+AS\s+\w+` at `i`: end of the match. */
  function AliasAt(s: string, i: nat): (r: Option<nat>)
    requires i <= |s|
    ensures r.Some? ==> i < r.value <= |s|
  {
    var m := RunEnd(s, i, Space);
    if m > i && MatchesAt(s, m, "AS") then
      var m2 := RunEnd(s, m + 2, Space);
      var w := RunEnd(s, m2, Word);
      if m2 > m + 2 && w > m2 then Some(w) else None
    else None
  }

  /** `s[i..e]` reads `\s+AS\s+\w+`, the `AS` at `m` and the word from `m2`. */
  predicate AliasSplit(s: string, i: nat, m: nat, m2: nat, e: nat) {
    && i < m && m + 2 < m2 < e <= |s|
    && (forall j :: i <= j < m ==> IsSpace(s[j]))
    && MatchesAt(s, m, "AS")
    && (forall j :: m + 2 <= j < m2 ==> IsSpace(s[j]))
    && (forall j :: m2 <= j < e ==> IsWordChar(s[j]))
  }

  /** A match of the alias pattern is whitespace, `AS`, whitespace and a
      word, and the word is whole: the next character does not extend it. */
  lemma AliasAtSplit(s: string, i: nat) returns (m: nat, m2: nat)
    requires i <= |s|
    ensures AliasAt(s, i).Some? ==>
      AliasSplit(s, i, m, m2, AliasAt(s, i).value) &&
      (AliasAt(s, i).value == |s| || !IsWordChar(s[AliasAt(s, i).value]))
  {
    m := RunEnd(s, i, Space);
    m2 := if m + 2 <= |s| then RunEnd(s, m + 2, Space) else m;
  }

  /** Wherever `\s+AS\s+\w+` can be read at `i`, the pattern matches there,
      and its greedy word reaches at least as far. */
  lemma AliasAtGreedy(s: string, i: nat, m: nat, m2: nat, e: nat)
    requires AliasSplit(s, i, m, m2, e)
    ensures AliasAt(s, i).Some? && e <= AliasAt(s, i).value
  {
    assert SameIgnoringCase(s[m], "AS"[0]) && SameIgnoringCase(s[m2], s[m2]);
    NotSpaceOfLetter(s[m], 'a');
    RunOver(s, i, m, Space);
    RunOver(s, m + 2, m2, Space);
  }

  /** A character that matches a letter ignoring case is not whitespace. */
  lemma NotSpaceOfLetter(c: char, l: char)
    requires 'a' <= l <= 'z' && LowerChar(c) == l
    ensures !IsSpace(c)
  {
  }

  /** The largest `k` in `[lo, hi)` with `s[k] == c`. */
  function LastIndexOf(s: string, c: char, lo: nat, hi: nat): (r: Option<nat>)
    requires lo <= hi <= |s|
    ensures r.Some? ==> lo <= r.value < hi && s[r.value] == c
    ensures r.Some? ==> forall j :: r.value < j < hi ==> s[j] != c
    ensures r.None? ==> forall j :: lo <= j < hi ==> s[j] != c
    decreases hi - lo
  {
    if hi == lo then None
    else if s[hi - 1] == c then Some(hi - 1)
    else LastIndexOf(s, c, lo, hi - 1)
  }

  /** `s[i..k + 1]` reads `\w+\((.*)\)`: a word up to the `(` at `w`, then
      text without a newline up to the `)` at `k`. */
  predicate CallSplit(s: string, i: int, w: int, k: int) {
    && 0 <= i < w < k < |s|
    && (forall j :: i <= j < w ==> IsWordChar(s[j]))
    && s[w] == '(' && s[k] == ')'
    && (forall j :: w < j < k ==> s[j] != '\n')
  }

  /** `\w+\((.*)\)` at `i`: end of the match and the argument text. The greedy
      `.*` runs to the end of the line and gives back up to the last `)`. */
  function CallAt(s: string, i: nat): (r: Option<(nat, string)>)
    requires i <= |s|
    ensures r.Some? ==> i < r.value.0 <= |s| && |r.value.1| < r.value.0 - i
  {
    var w := RunEnd(s, i, Word);
    if w > i && w < |s| && s[w] == '(' then
      match LastIndexOf(s, ')', w + 1, RunEnd(s, w + 1, NotNewline))
      case Some(k) => Some((k + 1, s[w + 1..k]))
      case None => None
    else None
  }

  /** A call match is a word, `(`, the argument text and `)`, all on one line. */
  lemma CallAtSplit(s: string, i: nat)
    requires i <= |s|
    ensures CallAt(s, i).Some? ==>
      var (e, arg) := CallAt(s, i).value;
      CallSplit(s, i, e - |arg| - 2, e - 1) && arg == s[e - |arg| - 1..e - 1]
  {
  }

  /** Wherever `\w+\((.*)\)` can be read at `i`, the pattern matches there,
      and its greedy `.*` reaches at least the same `)`. */
  lemma CallAtGreedy(s: string, i: nat, w: nat, k: nat)
    requires CallSplit(s, i, w, k)
    ensures CallAt(s, i).Some? && k < CallAt(s, i).value.0
  {
    RunOver(s, i, w, Word);
    var n := RunEnd(s, w + 1, NotNewline);
  }

  /** The join-kind keywords of the FROM-text clean-up. */
  const JoinKinds: seq<string> := ["LEFT", "RIGHT", "INNER", "OUTER", "CROSS", "FULL"]

  /** Lookahead ending a removed join: `,|\s+(?:LEFT|...|FULL)\s+JOIN|\s*$`. */
  const JoinClauseEnd: seq<Look> :=
    [Lit(','),
     Spaced(["LEFT", "JOIN"]), Spaced(["RIGHT", "JOIN"]), Spaced(["INNER", "JOIN"]),
     Spaced(["OUTER", "JOIN"]), Spaced(["CROSS", "JOIN"]), Spaced(["FULL", "JOIN"]),
     AtEnd]

  /** `.*?ON.*?(?=JoinClauseEnd)` from `a0`: each `ON` in turn, and for the
      first one that allows it, the first position where the lookahead holds. */
  function OnThenEnd(s: string, a0: nat, a: nat): (r: Option<nat>)
    requires a0 <= a <= |s| + 1
    requires a == a0 || Dotted(s, a0, a - 1, false)
    ensures r.Some? ==> a + 2 <= r.value <= |s|
    decreases |s| + 1 - a
  {
    if a > |s| then None
    else if a > a0 && s[a - 1] == '\n' then None
    else if MatchesAt(s, a, "ON") && LazyEnd(s, a + 2, a + 2, JoinClauseEnd, false).Some? then
      LazyEnd(s, a + 2, a + 2, JoinClauseEnd, false)
    else OnThenEnd(s, a0, a + 1)
  }

  /** The lazy tail `.*?(?=JoinClauseEnd)` after an `ON` at `p`. */
  function AfterOn(s: string, p: nat): (r: Option<nat>)
    requires p + 2 <= |s|
  {
    LazyEnd(s, p + 2, p + 2, JoinClauseEnd, false)
  }

  /** No `ON` from `a` up to `p` leaves a lazy tail. */
  predicate OnFails(s: string, a: nat, p: nat) {
    forall q :: a <= q < p && MatchesAt(s, q, "ON") ==> AfterOn(s, q).None?
  }

  /** The match ends where the tail after the first workable `ON` ends;
      without a match, no `ON` that `.*?` can reach leaves a tail. */
  lemma {:induction false} OnThenEndFirst(s: string, a0: nat, a: nat) returns (p: nat)
    requires a0 <= a <= |s| + 1
    requires a == a0 || Dotted(s, a0, a - 1, false)
    ensures OnThenEndIs(s, a0, a, p)
    decreases |s| + 1 - a
  {
    p := a;
    if a > |s| {
    } else if a > a0 && s[a - 1] == '\n' {
    } else if MatchesAt(s, a, "ON") && AfterOn(s, a).Some? {
      assert Dotted(s, a0, a, false);
    } else {
      assert Dotted(s, a0, a, false);
      p := OnThenEndFirst(s, a0, a + 1);
      if OnThenEnd(s, a0, a).Some? {
        OnFailsStep(s, a, p);
      } else {
        NoOnStep(s, a0, a);
      }
    }
  }

  /** What `OnThenEnd` from `a` finds, with `p` the `ON` it uses. */
  predicate OnThenEndIs(s: string, a0: nat, a: nat, p: nat)
    requires a0 <= a <= |s| + 1
    requires a == a0 || Dotted(s, a0, a - 1, false)
  {
    && (OnThenEnd(s, a0, a).Some? ==>
         a <= p && MatchesAt(s, p, "ON") && Dotted(s, a0, p, false) &&
         OnThenEnd(s, a0, a) == AfterOn(s, p) && OnFails(s, a, p))
    && (OnThenEnd(s, a0, a).None? ==>
         forall q :: a <= q <= |s| && Dotted(s, a0, q, false) && MatchesAt(s, q, "ON") ==> AfterOn(s, q).None?)
  }

  lemma OnFailsStep(s: string, a: nat, p: nat)
    requires a < p && OnFails(s, a + 1, p)
    requires !(MatchesAt(s, a, "ON") && AfterOn(s, a).Some?)
    ensures OnFails(s, a, p)
  {
  }

  lemma NoOnStep(s: string, a0: nat, a: nat)
    requires a0 <= a <= |s|
    requires !(MatchesAt(s, a, "ON") && AfterOn(s, a).Some?)
    requires forall q :: a + 1 <= q <= |s| && Dotted(s, a0, q, false) && MatchesAt(s, q, "ON") ==> AfterOn(s, q).None?
    ensures forall q :: a <= q <= |s| && Dotted(s, a0, q, false) && MatchesAt(s, q, "ON") ==> AfterOn(s, q).None?
  {
  }

  /** `KIND\s+JOIN.*?ON.*?(?=JoinClauseEnd)` at `i` for one join kind. */
  function JoinKindAt(s: string, i: nat, kind: string): (r: Option<nat>)
    requires i <= |s|
    ensures r.Some? ==> MatchesAt(s, i, kind) && i < r.value <= |s|
  {
    if MatchesAt(s, i, kind) && |kind| > 0 then
      var lo := i + |kind|;
      var m := RunEnd(s, lo, Space);
      if m > lo && MatchesAt(s, m, "JOIN") then OnThenEnd(s, m + 4, m + 4) else None
    else None
  }

  /** `(LEFT|RIGHT|INNER|OUTER|CROSS|FULL)\s+JOIN.*?ON.*?(?=...)` at `i`: end of the match. */
  function JoinClauseAt(s: string, i: nat, kinds: seq<string>): (r: Option<nat>)
    requires i <= |s|
    ensures r.Some? ==> i < r.value <= |s|
    decreases |kinds|
  {
    if |kinds| == 0 then None
    else
      var here := JoinKindAt(s, i, kinds[0]);
      if here.Some? then here else JoinClauseAt(s, i, kinds[1..])
  }

  /** A join clause is removed after the first kind that leads to one. */
  lemma {:induction false} JoinClauseFirst(s: string, i: nat, kinds: seq<string>) returns (k: nat)
    requires i <= |s|
    ensures JoinClauseIs(s, i, kinds, k)
    decreases |kinds|
  {
    k := 0;
    if |kinds| > 0 {
      if JoinKindAt(s, i, kinds[0]).None? {
        var k1 := JoinClauseFirst(s, i, kinds[1..]);
        k := k1 + 1;
        JoinClauseLater(s, i, kinds, k1);
      } else {
        JoinKindEnd(s, i, kinds[0]);
      }
    }
  }

  /** What `JoinClauseAt` finds, with `k` the kind it uses: the first kind
      that leads to a match, ending where the lookahead holds; without a
      match, no kind leads to one. */
  predicate JoinClauseIs(s: string, i: nat, kinds: seq<string>, k: nat)
    requires i <= |s|
  {
    && (JoinClauseAt(s, i, kinds).Some? ==>
         k < |kinds| && MatchesAt(s, i, kinds[k]) && JoinClauseAt(s, i, kinds) == JoinKindAt(s, i, kinds[k]) &&
         (forall k' :: 0 <= k' < k ==> JoinKindAt(s, i, kinds[k']).None?) &&
         LookAt(s, JoinClauseAt(s, i, kinds).value, JoinClauseEnd))
    && (JoinClauseAt(s, i, kinds).None? ==> forall k' :: 0 <= k' < |kinds| ==> JoinKindAt(s, i, kinds[k']).None?)
  }

  lemma JoinClauseLater(s: string, i: nat, kinds: seq<string>, k1: nat)
    requires i <= |s| && |kinds| > 0 && JoinKindAt(s, i, kinds[0]).None?
    requires JoinClauseIs(s, i, kinds[1..], k1)
    ensures JoinClauseIs(s, i, kinds, k1 + 1)
  {
    assert JoinClauseAt(s, i, kinds) == JoinClauseAt(s, i, kinds[1..]);
    assert forall k' :: 1 <= k' < |kinds| ==> kinds[k'] == kinds[1..][k' - 1];
  }

  /** A removed join clause ends where the lookahead holds. */
  lemma JoinKindEnd(s: string, i: nat, kind: string)
    requires i <= |s|
    ensures JoinKindAt(s, i, kind).Some? ==> LookAt(s, JoinKindAt(s, i, kind).value, JoinClauseEnd)
  {
    if JoinKindAt(s, i, kind).Some? {
      var m := RunEnd(s, i + |kind|, Space);
      var p := OnThenEndFirst(s, m + 4, m + 4);
    }
  }

  /** Match of a rewrite at `i`: its end and the replacement text, which is
      never longer than the text it replaces. An alias or a join clause is
      replaced by nothing; a call by its argument text. */
  function RewriteAt(s: string, i: nat, rw: Rewrite): (r: Option<(nat, string)>)
    requires i <= |s|
    ensures r.Some? ==> i < r.value.0 <= |s| && |r.value.1| <= r.value.0 - i
    ensures r.Some? && !rw.UnwrapCall? ==> r.value.1 == ""
  {
    match rw
    case DropAlias =>
      (match AliasAt(s, i) case Some(e) => Some((e, "")) case None => None)
    case UnwrapCall => CallAt(s, i)
    case DropJoinClause =>
      (match JoinClauseAt(s, i, JoinKinds) case Some(e) => Some((e, "")) case None => None)
  }

  /** What each rewrite removes: an alias starts with whitespace, a join
      clause ends where its lookahead holds, and a call is replaced by its
      argument text. */
  lemma RewriteAtShape(s: string, i: nat, rw: Rewrite)
    requires i <= |s|
    ensures RewriteAt(s, i, rw).Some? && rw.DropAlias? ==> IsSpace(s[i])
    ensures RewriteAt(s, i, rw).Some? && rw.DropJoinClause? ==> LookAt(s, RewriteAt(s, i, rw).value.0, JoinClauseEnd)
    ensures RewriteAt(s, i, rw).Some? && rw.UnwrapCall? ==>
      var (e, arg) := RewriteAt(s, i, rw).value;
      CallSplit(s, i, e - |arg| - 2, e - 1) && arg == s[e - |arg| - 1..e - 1]
  {
    match rw
    case DropAlias =>
    case UnwrapCall => CallAtSplit(s, i);
    case DropJoinClause => var k := JoinClauseFirst(s, i, JoinKinds);
  }

  /** `re.sub` over `s[i..]`: every leftmost, non-overlapping match replaced. */
  function SubFrom(s: string, i: nat, rw: Rewrite): (r: string)
    requires i <= |s|
    ensures |r| <= |s| - i
    decreases |s| - i
  {
    if i == |s| then ""
    else
      match RewriteAt(s, i, rw)
      case Some((e, rep)) => rep + SubFrom(s, e, rw)
      case None => [s[i]] + SubFrom(s, i + 1, rw)
  }

  /** `re.sub` copies the text up to the first match, puts the replacement
      in place of the match and goes on after it. */
  lemma {:induction false} SubFromFirst(s: string, i: nat, j: nat, rw: Rewrite, e: nat, rep: string)
    requires i <= j < |s|
    requires forall x :: i <= x < j ==> RewriteAt(s, x, rw).None?
    requires RewriteAt(s, j, rw) == Some((e, rep))
    ensures SubFrom(s, i, rw) == s[i..j] + (rep + SubFrom(s, e, rw))
    decreases j - i
  {
    if i < j {
      SubFromFirst(s, i + 1, j, rw, e, rep);
      SubFromCopies(s, i, rw);
      ConsSlice(s, i, j, rep + SubFrom(s, e, rw));
    } else {
      SubFromReplaces(s, j, rw, e, rep);
      assert s[i..j] == [];
    }
  }

  /** Where the rewrite does not match, the character is copied. */
  lemma SubFromCopies(s: string, i: nat, rw: Rewrite)
    requires i < |s| && RewriteAt(s, i, rw).None?
    ensures SubFrom(s, i, rw) == [s[i]] + SubFrom(s, i + 1, rw)
  {
  }

  /** Where the rewrite matches, its replacement comes first. */
  lemma SubFromReplaces(s: string, j: nat, rw: Rewrite, e: nat, rep: string)
    requires j < |s| && RewriteAt(s, j, rw) == Some((e, rep))
    ensures SubFrom(s, j, rw) == rep + SubFrom(s, e, rw)
  {
  }

  lemma ConsSlice(s: string, i: nat, j: nat, t: string)
    requires i < j <= |s|
    ensures [s[i]] + (s[i + 1..j] + t) == s[i..j] + t
  {
    assert s[i..j] == [s[i]] + s[i + 1..j];
  }


  /** Where no rewrite matches, `re.sub` leaves the text unchanged. */
  lemma {:induction false} SubFromNoMatch(s: string, i: nat, rw: Rewrite)
    requires i <= |s|
    requires forall j :: i <= j < |s| ==> RewriteAt(s, j, rw).None?
    ensures SubFrom(s, i, rw) == s[i..]
    decreases |s| - i
  {
    if i < |s| {
      SubFromNoMatch(s, i + 1, rw);
    }
  }

  /** A text in which the rewrite matches nowhere is left as it is. */
  lemma SubUnchanged(s: string, rw: Rewrite)
    requires forall j :: 0 <= j < |s| ==> RewriteAt(s, j, rw).None?
    ensures SubFrom(s, 0, rw) == s
  {
    SubFromNoMatch(s, 0, rw);
    assert s[0..] == s;
  }
}

=== FILE: scan_facts.dfy ===
/** Facts about the scanners for texts whose characters are known one by
    one: where a lazy group ends, where no stop or join kind stands, and how
    `re.sub` copies the text it does not rewrite. */
module ScanFacts {
  import opened Text
  import opened Scan
  import opened Clauses

  /** `w` stands at `i` in `s`, character for character. */
  predicate Spells(s: string, i: nat, w: string) {
    i + |w| <= |s| && s[i..i + |w|] == w
  }

  lemma SpelledAt(s: string, i: nat, w: string, k: nat)
    requires Spells(s, i, w) && k < |w|
    ensures s[i + k] == w[k]
  {
    assert s[i..i + |w|][k] == s[i + k];
  }

  /** A stretch of a spelled text matches, ignoring case. */
  lemma SpellsPart(s: string, i: nat, w: string, a: nat, v: string)
    requires Spells(s, i, w) && a + |v| <= |w| && v == w[a..a + |v|]
    ensures MatchesAt(s, i + a, v)
  {
    forall k | 0 <= k < |v|
      ensures SameIgnoringCase(s[i + a + k], v[k])
    {
      SpelledAt(s, i, w, a + k);
    }
  }

  /** A stretch of a spelled text, as a slice. */
  lemma SpellsSlice(s: string, i: nat, w: string, a: nat, b: nat)
    requires Spells(s, i, w) && a <= b <= |w|
    ensures s[i + a..i + b] == w[a..b]
  {
    forall k | 0 <= k < b - a
      ensures s[i + a..i + b][k] == w[a..b][k]
    {
      SpelledAt(s, i, w, a + k);
    }
  }

  /** What is spelled inside a slice is spelled in the slice, shifted. */
  lemma SpellsIn(s: string, a: nat, b: nat, i: nat, w: string)
    requires a <= i && i + |w| <= b <= |s| && Spells(s, i, w)
    ensures Spells(s[a..b], i - a, w)
  {
    forall k | 0 <= k < |w|
      ensures s[a..b][i - a..i - a + |w|][k] == w[k]
    {
      SpelledAt(s, i, w, k);
    }
  }

  /** A slice that is the literal is a match of it. */
  lemma SliceMatches(s: string, i: nat, w: string)
    requires i + |w| <= |s| && s[i..i + |w|] == w
    ensures MatchesAt(s, i, w)
  {
    forall k | 0 <= k < |w|
      ensures SameIgnoringCase(s[i + k], w[k])
    {
      assert s[i..i + |w|][k] == s[i + k];
    }
  }

  lemma KindsAll(s: string, i: nat)
    requires !MatchesAt(s, i, "LEFT") && !MatchesAt(s, i, "RIGHT") && !MatchesAt(s, i, "INNER")
    requires !MatchesAt(s, i, "OUTER") && !MatchesAt(s, i, "CROSS") && !MatchesAt(s, i, "FULL")
    ensures forall k :: 0 <= k < |JoinKinds| ==> !MatchesAt(s, i, JoinKinds[k])
  {
  }

  /** A lazy group that meets no stop before the end of a one-line text runs
      to the end, where the stop holds. */
  lemma LazyToEnd(s: string, g: nat, e: nat, alts: seq<Look>)
    requires g <= e <= |s|
    requires forall j :: g <= j < |s| ==> s[j] != '\n'
    requires forall x :: e <= x < |s| ==> !LookAt(s, x, alts)
    requires LookAt(s, |s|, alts)
    ensures LazyEnd(s, g, e, alts, false) == Some(|s|)
  {
    assert e == g || Dotted(s, g, e - 1, false);
    assert Dotted(s, g, |s|, false);
  }

  /** No `\s+KW` or `\s*$` stop holds on a non-space character. */
  lemma NoStopInWord(t: string, x: nat, kws: seq<string>)
    requires x < |t| && !IsSpace(t[x])
    ensures !LookAt(t, x, Stops(kws))
  {
    assert RunEnd(t, x, Space) == x;
    var look := Stops(kws);
    forall k | 0 <= k < |look|
      ensures !LookOneAt(t, x, look[k])
    {
      if k < |kws| {
        assert look[k] == Spaced([kws[k]]);
      }
    }
  }

  /** On a single space before a word that is none of the stop words, no
      stop holds. */
  lemma NoStopAfterSpace(t: string, x: nat, kws: seq<string>)
    requires x + 1 < |t| && IsSpace(t[x]) && !IsSpace(t[x + 1])
    requires forall k :: 0 <= k < |kws| ==> !MatchesAt(t, x + 1, kws[k])
    ensures !LookAt(t, x, Stops(kws))
  {
    RunOver(t, x, x + 1, Space);
    var look := Stops(kws);
    forall k | 0 <= k < |look|
      ensures !LookOneAt(t, x, look[k])
    {
      if k < |kws| {
        assert look[k] == Spaced([kws[k]]);
      }
    }
  }

  /** The end of a removed join clause is not at a character that is neither
      a space nor a comma. */
  lemma NoJoinEndInWord(s: string, x: nat)
    requires x < |s| && !IsSpace(s[x]) && s[x] != ','
    ensures !LookAt(s, x, JoinClauseEnd)
  {
    assert RunEnd(s, x, Space) == x;
    forall k | 0 <= k < |JoinClauseEnd|
      ensures !LookOneAt(s, x, JoinClauseEnd[k])
    {
    }
  }

  /** Nor at a single space before a word that is no join kind. */
  lemma NoJoinEndAfterSpace(s: string, x: nat)
    requires x + 1 < |s| && IsSpace(s[x]) && !IsSpace(s[x + 1])
    requires forall k :: 0 <= k < |JoinKinds| ==> !MatchesAt(s, x + 1, JoinKinds[k])
    ensures !LookAt(s, x, JoinClauseEnd)
  {
    RunOver(s, x, x + 1, Space);
    forall k | 0 <= k < |JoinClauseEnd|
      ensures !LookOneAt(s, x, JoinClauseEnd[k])
    {
      if 1 <= k < 7 {
        assert JoinClauseEnd[k] == Spaced([JoinKinds[k - 1], "JOIN"]);
      }
    }
  }

  /** Where no join kind matches, no join clause starts. */
  lemma {:induction false} NoKindAt(s: string, i: nat, kinds: seq<string>)
    requires i <= |s| && forall k :: 0 <= k < |kinds| ==> !MatchesAt(s, i, kinds[k])
    ensures JoinClauseAt(s, i, kinds).None?
    decreases |kinds|
  {
    if |kinds| > 0 {
      NoKindAt(s, i, kinds[1..]);
    }
  }

  /** Positions without `ON` are passed over by the search for `ON`. */
  lemma {:induction false} OnSkip(s: string, a0: nat, a: nat, n: nat)
    requires a0 <= a <= n <= |s|
    requires forall j :: a0 <= j < n ==> s[j] != '\n'
    requires forall j :: a <= j < n ==> !MatchesAt(s, j, "ON")
    ensures a == a0 || Dotted(s, a0, a - 1, false)
    ensures n == a0 || Dotted(s, a0, n - 1, false)
    ensures OnThenEnd(s, a0, a) == OnThenEnd(s, a0, n)
    decreases n - a
  {
    DottedBefore(s, a0, a, n);
    DottedBefore(s, a0, n, n);
    if a < n {
      OnStep(s, a0, a);
      OnSkip(s, a0, a + 1, n);
    } else {
      assert a == n;
    }
  }

  lemma DottedBefore(s: string, a0: nat, m: nat, n: nat)
    requires a0 <= m <= n <= |s|
    requires forall j :: a0 <= j < n ==> s[j] != '\n'
    ensures m == a0 || Dotted(s, a0, m - 1, false)
  {
  }

  lemma OnStep(s: string, a0: nat, a: nat)
    requires a0 <= a < |s| && (a == a0 || (Dotted(s, a0, a - 1, false) && s[a - 1] != '\n'))
    requires !MatchesAt(s, a, "ON")
    ensures Dotted(s, a0, a, false)
    ensures OnThenEnd(s, a0, a) == OnThenEnd(s, a0, a + 1)
  {
  }

  /** `re.sub` copies the text up to the next position where it matches. */
  lemma {:induction false} SubFromUntil(s: string, i: nat, n: nat, rw: Rewrite)
    requires i <= n <= |s|
    requires forall j :: i <= j < n ==> RewriteAt(s, j, rw).None?
    ensures SubFrom(s, i, rw) == s[i..n] + SubFrom(s, n, rw)
    decreases n - i
  {
    if i < n {
      SubFromUntil(s, i + 1, n, rw);
      SubFromCons(s, i, n, rw);
    } else {
      assert s[i..n] == [];
    }
  }

  lemma SubFromCons(s: string, i: nat, n: nat, rw: Rewrite)
    requires i < n <= |s| && RewriteAt(s, i, rw).None?
    requires SubFrom(s, i + 1, rw) == s[i + 1..n] + SubFrom(s, n, rw)
    ensures SubFrom(s, i, rw) == s[i..n] + SubFrom(s, n, rw)
  {
    var rest := SubFrom(s, n, rw);
    SubFromStep(s, i, rw);
    ConsSlice(s, i, n, rest);
  }

  lemma ConsSlice<T>(s: seq<T>, i: nat, n: nat, rest: seq<T>)
    requires i < n <= |s|
    ensures [s[i]] + (s[i + 1..n] + rest) == s[i..n] + rest
  {
    assert s[i..n] == [s[i]] + s[i + 1..n];
  }

  lemma SubFromStep(s: string, i: nat, rw: Rewrite)
    requires i < |s| && RewriteAt(s, i, rw).None?
    ensures SubFrom(s, i, rw) == [s[i]] + SubFrom(s, i + 1, rw)
  {
  }

  /** A text without a comma splits into itself. */
  lemma NoCommaSplit(s: string)
    requires forall j :: 0 <= j < |s| ==> s[j] != ','
    ensures SplitCommas(s) == [s]
  {
    assert IndexOf(s, ',', 0) == |s|;
  }
}

=== FILE: schema.dfy ===
/** The schema the graph is built from: tables keyed by name, each with its
    columns and declared keys, and the line-oriented parser that builds one
    from a plain-text description. */
module Schema {
  import opened Text

  datatype Column = Column(name: string, colType: string)

  /** A declared foreign key; each field may be missing from the source's
      dictionary. */
  datatype ForeignKey = ForeignKey(columnName: Option<string>, referencesTable: Option<string>, referencesColumn: Option<string>)

  datatype Table = Table(name: string, columns: seq<Column>, primaryKeys: seq<string>, foreignKeys: seq<ForeignKey>)

  /** The `tables` dictionary, in insertion order. */
  datatype DbSchema = DbSchema(tables: seq<Table>)

  /** The table names, in schema order. */
  function TableNames(tables: seq<Table>): (r: seq<string>)
    ensures |r| == |tables| && forall k :: 0 <= k < |tables| ==> r[k] == tables[k].name
  {
    seq(|tables|, k requires 0 <= k < |tables| => tables[k].name)
  }

  /** Dictionary keys are distinct. */
  predicate DistinctNames(tables: seq<Table>) {
    forall i, j :: 0 <= i < j < |tables| ==> tables[i].name != tables[j].name
  }

  predicate Valid(db: DbSchema) {
    DistinctNames(db.tables)
  }

  /** Position of the table called `name`, or `|tables|` when there is none. */
  function TableIndex(tables: seq<Table>, name: string): (r: nat)
    ensures r <= |tables|
    ensures r < |tables| ==> tables[r].name == name
    ensures forall j :: 0 <= j < r ==> tables[j].name != name
    decreases |tables|
  {
    if tables == [] then 0
    else if tables[0].name == name then 0
    else 1 + TableIndex(tables[1..], name)
  }

  /** `get_table_columns`: the columns of the named table, or none when the
      schema has no such table. */
  function GetTableColumns(db: DbSchema, name: string): (r: seq<Column>)
    ensures name !in TableNames(db.tables) ==> r == []
    ensures Valid(db) ==> forall k :: 0 <= k < |db.tables| && db.tables[k].name == name ==> r == db.tables[k].columns
  {
    var k := TableIndex(db.tables, name);
    if k < |db.tables| then db.tables[k].columns else []
  }

  // ---------------------------------------------------------------------------
  // extract_schema_from_description
  // ---------------------------------------------------------------------------

  /** `re.match(r'Table:\s+(\w+)', line)`: the table a header line names.
      The match is case-sensitive. */
  function TableHeader(line: string): (r: Option<string>)
    ensures r.Some? ==> r.value != [] && AllWord(r.value)
  {
    if |line| >= 6 && line[..6] == "Table:" then
      var g := RunEnd(line, 6, Space);
      var w := RunEnd(line, g, Word);
      if g > 6 && w > g then Some(line[g..w]) else None
    else None
  }

  /** End of the column type `\w+(?:\(\d+(?:,\d+)?\))?` whose word ends at `c`:
      past the closing parenthesis when a size follows, else `c`. */
  function TypeEnd(line: string, c: nat): (r: nat)
    requires c <= |line|
    ensures c <= r <= |line|
    ensures r > c ==> line[c] == '(' && line[r - 1] == ')'
  {
    if c < |line| && line[c] == '(' then
      var d1 := RunEnd(line, c + 1, Digit);
      if d1 > c + 1 then
        var e :=
          if d1 < |line| && line[d1] == ',' && RunEnd(line, d1 + 1, Digit) > d1 + 1
          then RunEnd(line, d1 + 1, Digit) else d1;
        if e < |line| && line[e] == ')' then e + 1 else c
      else c
    else c
  }

  /** `re.match(r'(\w+)\s+(\w+(?:\(\d+(?:,\d+)?\))?)', line)`: a column
      name and its type. */
  function ColumnDef(line: string): (r: Option<Column>)
    ensures r.Some? ==> r.value.name != [] && AllWord(r.value.name)
    ensures r.Some? ==> |r.value.name| < |line| && line[..|r.value.name|] == r.value.name && IsSpace(line[|r.value.name|])
    ensures r.Some? ==> r.value.colType != [] && IsWordChar(r.value.colType[0])
  {
    var a := RunEnd(line, 0, Word);
    var b := RunEnd(line, a, Space);
    var c := RunEnd(line, b, Word);
    if a > 0 && b > a && c > b then Some(Column(line[..a], line[b..TypeEnd(line, c)])) else None
  }

  /** What one line of a description declares. */
  datatype LineKind = HeaderLine(table: string) | ColumnLine(col: Column) | OtherLine

  /** A stripped line is a table header if the header pattern matches; else,
      a column if the column pattern matches; blank lines declare nothing. */
  function Classify(raw: string): (r: LineKind)
    ensures r.HeaderLine? <==> TableHeader(Strip(raw)).Some?
    ensures r.HeaderLine? ==> Some(r.table) == TableHeader(Strip(raw))
    ensures r.ColumnLine? ==> Some(r.col) == ColumnDef(Strip(raw))
    ensures r.OtherLine? ==> ColumnDef(Strip(raw)).None?
  {
    var line := Strip(raw);
    if line == [] then OtherLine
    else
      match TableHeader(line)
      case Some(n) => HeaderLine(n)
      case None =>
        match ColumnDef(line)
        case Some(c) => ColumnLine(c)
        case None => OtherLine
  }

  /** The lines, each classified. */
  function LineKinds(lines: seq<string>): (r: seq<LineKind>)
    ensures |r| == |lines|
    decreases |lines|
  {
    if lines == [] then [] else [Classify(lines[0])] + LineKinds(lines[1..])
  }

  lemma {:induction false} LineKindsAt(lines: seq<string>, j: nat)
    requires j < |lines|
    ensures LineKinds(lines)[j] == Classify(lines[j])
    decreases j
  {
    if j > 0 {
      LineKindsAt(lines[1..], j - 1);
    }
  }

  /** `description.split('\n')`, each line classified. */
  function DescriptionKinds(description: string): seq<LineKind> {
    LineKinds(SplitOn(description, '\n'))
  }

  /** A header written as `Table: <name>` names that table. */
  lemma HeaderOfName(name: string, rest: string)
    requires name != [] && AllWord(name)
    requires rest == [] || !IsWordChar(rest[0])
    ensures TableHeader("Table: " + name + rest) == Some(name)
  {
    var line := "Table: " + name + rest;
    assert line[..6] == "Table:";
    assert line[6] == ' ' && line[7] == name[0];
    assert RunEnd(line, 6, Space) == 7;
    forall j | 7 <= j < 7 + |name|
      ensures line[j] == name[j - 7]
    {
    }
    if rest != [] {
      assert line[7 + |name|] == rest[0];
    }
    assert RunEnd(line, 7, Word) == 7 + |name|;
    assert line[7..7 + |name|] == name;
  }

  /** The header keyword is matched case-sensitively. */
  lemma HeaderIsCaseSensitive()
    ensures TableHeader("table: users") == None
  {
    assert "table: users"[..6] != "Table:" by {
      assert "table: users"[0] == 't';
    }
  }

  /** A column written as `<name> <type>` gives that name and type. */
  lemma ColumnOfWords(name: string, ty: string, rest: string)
    requires name != [] && AllWord(name) && ty != [] && AllWord(ty)
    requires rest == [] || (!IsWordChar(rest[0]) && rest[0] != '(')
    ensures ColumnDef(name + " " + ty + rest) == Some(Column(name, ty))
  {
    var line := name + " " + ty + rest;
    var a := |name|;
    var c := a + 1 + |ty|;
    assert line[..a] == name && line[a] == ' ' && line[a + 1..c] == ty && line[c..] == rest;
    SizedWords(line, name, ty, a, c);
    assert TypeEnd(line, c) == c by {
      assert c < |line| ==> line[c] == rest[0];
    }
    ColumnDefAt(line, a, c, c);
  }

  predicate AllDigits(s: string) {
    forall j :: 0 <= j < |s| ==> IsDigit(s[j])
  }

  /** A column whose type carries a size, `<name> <type>(<size>)`, keeps the
      size as part of the type, whatever follows. */
  lemma ColumnOfSizedType(name: string, ty: string, size: string, rest: string)
    requires name != [] && AllWord(name) && ty != [] && AllWord(ty)
    requires size != [] && AllDigits(size)
    ensures ColumnDef(name + " " + ty + "(" + size + ")" + rest) == Some(Column(name, ty + "(" + size + ")"))
  {
    var line := name + " " + ty + "(" + size + ")" + rest;
    var a := |name|;
    var c := a + 1 + |ty|;
    var d := c + 1 + |size|;
    SizedLine(name, ty, size, rest);
    assert line[c] == '(';
    SizedWords(line, name, ty, a, c);
    SizedSize(line, size, c, d);
    ColumnDefAt(line, a, c, d + 1);
  }

  /** The name's word run, the one space and the type's word run. */
  lemma SizedWords(line: string, name: string, ty: string, a: nat, c: nat)
    requires name != [] && AllWord(name) && ty != [] && AllWord(ty)
    requires a == |name| && c == a + 1 + |ty| && c <= |line|
    requires line[..a] == name && line[a] == ' ' && line[a + 1..c] == ty
    requires c == |line| || !IsWordChar(line[c])
    ensures RunEnd(line, 0, Word) == a && RunEnd(line, a, Space) == a + 1 && RunEnd(line, a + 1, Word) == c
  {
    WordRun(line, 0, a);
    assert line[a + 1] == line[a + 1..c][0] == ty[0];
    RunOver(line, a, a + 1, Space);
    WordRun(line, a + 1, c);
  }

  /** A parenthesised run of digits after the type word ends the type. */
  lemma SizedSize(line: string, size: string, c: nat, d: nat)
    requires size != [] && AllDigits(size) && d == c + 1 + |size| < |line|
    requires line[c] == '(' && line[c + 1..d] == size && line[d] == ')'
    ensures TypeEnd(line, c) == d + 1
  {
    DigitRun(line, c + 1, d);
  }

  /** Where each piece of a sized column definition sits in its line. */
  lemma SizedLine(name: string, ty: string, size: string, rest: string)
    ensures var line := name + " " + ty + "(" + size + ")" + rest;
      var a := |name|;
      var c := a + 1 + |ty|;
      var d := c + 1 + |size|;
      && d < |line|
      && line[..a] == name && line[a] == ' ' && line[a + 1..c] == ty && line[c] == '('
      && line[c + 1..d] == size && line[d] == ')' && line[a + 1..d + 1] == ty + "(" + size + ")"
  {
  }

  lemma WordRun(line: string, lo: nat, hi: nat)
    requires lo < hi <= |line| && AllWord(line[lo..hi]) && (hi == |line| || !IsWordChar(line[hi]))
    ensures RunEnd(line, lo, Word) == hi
  {
    assert forall j :: lo <= j < hi ==> line[j] == line[lo..hi][j - lo];
    RunOver(line, lo, hi, Word);
  }

  lemma DigitRun(line: string, lo: nat, hi: nat)
    requires lo < hi < |line| && AllDigits(line[lo..hi]) && !IsDigit(line[hi])
    ensures RunEnd(line, lo, Digit) == hi
  {
    assert forall j :: lo <= j < hi ==> line[j] == line[lo..hi][j - lo];
    RunOver(line, lo, hi, Digit);
  }

  /** The column pattern matched through the runs ending at `a`, `a + 1`
      and `c`, with the type's size ending at `e`. */
  lemma ColumnDefAt(line: string, a: nat, c: nat, e: nat)
    requires 0 < a < c <= e <= |line|
    requires RunEnd(line, 0, Word) == a && RunEnd(line, a, Space) == a + 1
    requires RunEnd(line, a + 1, Word) == c > a + 1 && TypeEnd(line, c) == e
    ensures ColumnDef(line) == Some(Column(line[..a], line[a + 1..e]))
  {
  }

  /** The parser's state: the tables so far and the table being filled. */
  datatype Parse = Parse(tables: seq<Table>, current: Option<string>)

  /** A fresh, empty table. */
  function EmptyTable(name: string): Table {
    Table(name, [], [], [])
  }

  /** `tables[t.name] = t`: replaces a table of that name in place, or
      appends a new one. */
  function Put(tables: seq<Table>, t: Table): (r: seq<Table>)
    ensures TableNames(r) == if t.name in TableNames(tables) then TableNames(tables) else TableNames(tables) + [t.name]
    ensures DistinctNames(tables) ==> DistinctNames(r)
    ensures TableIndex(r, t.name) == TableIndex(tables, t.name) < |r| && r[TableIndex(r, t.name)] == t
    ensures forall k :: 0 <= k < |tables| && k != TableIndex(tables, t.name) ==> r[k] == tables[k]
    ensures GetTableColumns(DbSchema(r), t.name) == t.columns
  {
    var k := TableIndex(tables, t.name);
    if k < |tables| then
      IndexReplaced(tables, k, t);
      tables[k := t]
    else
      IndexAppended(tables, t);
      tables + [t]
  }

  /** Replacing the first table of a name keeps it first. */
  lemma IndexReplaced(tables: seq<Table>, k: nat, t: Table)
    requires k == TableIndex(tables, t.name) < |tables|
    ensures TableIndex(tables[k := t], t.name) == k
  {
    var r := tables[k := t];
    assert r[k] == t;
    assert forall j :: 0 <= j < k ==> r[j] == tables[j];
  }

  /** A table of a new name is found at the end. */
  lemma IndexAppended(tables: seq<Table>, t: Table)
    requires TableIndex(tables, t.name) == |tables|
    ensures TableIndex(tables + [t], t.name) == |tables|
  {
    var r := tables + [t];
    assert r[|tables|] == t;
    assert forall j :: 0 <= j < |tables| ==> r[j] == tables[j];
  }

  /** Appends a column to the named table; nothing else changes. */
  function AddColumn(tables: seq<Table>, name: string, col: Column): (r: seq<Table>)
    ensures TableNames(r) == TableNames(tables)
    ensures DistinctNames(tables) ==> DistinctNames(r)
    ensures name !in TableNames(tables) ==> r == tables
    ensures name in TableNames(tables) ==>
      GetTableColumns(DbSchema(r), name) == GetTableColumns(DbSchema(tables), name) + [col]
    ensures forall k :: 0 <= k < |tables| ==>
      r[k].name == tables[k].name && r[k].primaryKeys == tables[k].primaryKeys && r[k].foreignKeys == tables[k].foreignKeys
    ensures forall k :: 0 <= k < |tables| && k != TableIndex(tables, name) ==> r[k] == tables[k]
  {
    var k := TableIndex(tables, name);
    var r := if k < |tables| then tables[k := tables[k].(columns := tables[k].columns + [col])] else tables;
    IndexByNames(r, tables, name);
    r
  }

  /** The position of a name depends on the names alone. */
  lemma IndexByNames(a: seq<Table>, b: seq<Table>, name: string)
    requires TableNames(a) == TableNames(b)
    ensures TableIndex(a, name) == TableIndex(b, name)
  {
    assert |a| == |TableNames(a)| == |b|;
  }

  /** One line: a header starts (or restarts) its table; a column line is
      added to the current table, if there is one. */
  function Step(st: Parse, kind: LineKind): Parse {
    match kind
    case HeaderLine(n) => Parse(Put(st.tables, EmptyTable(n)), Some(n))
    case ColumnLine(col) =>
      if st.current.Some? then Parse(AddColumn(st.tables, st.current.value, col), st.current) else st
    case OtherLine => st
  }

  /** The parser state after the first `m` lines. */
  function Parsed(kinds: seq<LineKind>, m: nat): Parse
    requires m <= |kinds|
  {
    if m == 0 then Parse([], None) else Step(Parsed(kinds, m - 1), kinds[m - 1])
  }

  /** A header makes its table current and empty; a column line keeps the
      current table and the names, and adds the column to the current
      table; any other line changes nothing. */
  lemma StepEffect(st: Parse, kind: LineKind)
    ensures kind.HeaderLine? ==>
      var r := Step(st, kind);
      r.current == Some(kind.table) && kind.table in TableNames(r.tables) &&
      GetTableColumns(DbSchema(r.tables), kind.table) == []
    ensures kind.ColumnLine? ==>
      Step(st, kind).current == st.current && TableNames(Step(st, kind).tables) == TableNames(st.tables)
    ensures kind.ColumnLine? && st.current.Some? && st.current.value in TableNames(st.tables) ==>
      GetTableColumns(DbSchema(Step(st, kind).tables), st.current.value) ==
      GetTableColumns(DbSchema(st.tables), st.current.value) + [kind.col]
    ensures kind.OtherLine? ==> Step(st, kind) == st
  {
  }

  /** There is a current table exactly when a header line has been read,
      and it is a table of the state. */
  lemma {:induction false} ParsedCurrent(kinds: seq<LineKind>, m: nat)
    requires m <= |kinds|
    ensures Parsed(kinds, m).current.Some? ==> Parsed(kinds, m).current.value in TableNames(Parsed(kinds, m).tables)
    ensures Parsed(kinds, m).current.None? <==> forall k :: 0 <= k < m ==> !kinds[k].HeaderLine?
  {
    if m > 0 {
      ParsedCurrent(kinds, m - 1);
      StepEffect(Parsed(kinds, m - 1), kinds[m - 1]);
    }
  }

  /** `extract_schema_from_description`. */
  function ExtractSchemaFromDescription(description: string): (r: DbSchema)
    ensures Valid(r)
    ensures forall k :: 0 <= k < |r.tables| ==> r.tables[k].primaryKeys == [] && r.tables[k].foreignKeys == []
  {
    var kinds := DescriptionKinds(description);
    ParsedInvariant(kinds, |kinds|);
    DbSchema(Parsed(kinds, |kinds|).tables)
  }

  // ---------------------------------------------------------------------------
  // Properties
  // ---------------------------------------------------------------------------

  /** What every parser state satisfies: distinct names, no declared keys, and
      the current table (if any) is one of the tables. */
  predicate Inv(st: Parse) {
    && DistinctNames(st.tables)
    && (forall k :: 0 <= k < |st.tables| ==> st.tables[k].primaryKeys == [] && st.tables[k].foreignKeys == [])
    && (st.current.Some? ==> st.current.value in TableNames(st.tables))
  }

  lemma StepKeepsInvariant(st: Parse, kind: LineKind)
    requires Inv(st)
    ensures Inv(Step(st, kind))
  {
    match kind
    case HeaderLine(n) =>
      var k := TableIndex(st.tables, n);
      var r := Put(st.tables, EmptyTable(n));
      assert TableNames(r)[if k < |st.tables| then k else |st.tables|] == n;
    case ColumnLine(_) =>
      if st.current.Some? {
        var k := TableIndex(st.tables, st.current.value);
      }
    case OtherLine =>
  }

  lemma {:induction false} ParsedInvariant(kinds: seq<LineKind>, m: nat)
    requires m <= |kinds|
    ensures Inv(Parsed(kinds, m))
  {
    if m > 0 {
      ParsedInvariant(kinds, m - 1);
      StepKeepsInvariant(Parsed(kinds, m - 1), kinds[m - 1]);
    }
  }

  /** The tables named by the header lines among the first `m`. */
  function Headers(kinds: seq<LineKind>, m: nat): set<string>
    requires m <= |kinds|
  {
    if m == 0 then {}
    else Headers(kinds, m - 1) + (if kinds[m - 1].HeaderLine? then {kinds[m - 1].table} else {})
  }

  lemma {:induction false} HeadersAre(kinds: seq<LineKind>, m: nat)
    requires m <= |kinds|
    ensures Headers(kinds, m) == set j | 0 <= j < m && kinds[j].HeaderLine? :: kinds[j].table
  {
    if m > 0 {
      HeadersAre(kinds, m - 1);
    }
  }

  lemma {:induction false} ParsedNames(kinds: seq<LineKind>, m: nat)
    requires m <= |kinds|
    ensures (set n | n in TableNames(Parsed(kinds, m).tables)) == Headers(kinds, m)
  {
    if m > 0 {
      ParsedNames(kinds, m - 1);
      var st := Parsed(kinds, m - 1);
      var st' := Parsed(kinds, m);
      if !kinds[m - 1].HeaderLine? {
        assert TableNames(st'.tables) == TableNames(st.tables);
      } else {
        var n := kinds[m - 1].table;
        var a := TableNames(st.tables);
        assert st'.tables == Put(st.tables, EmptyTable(n));
        if n !in a {
          NamesAppend(a, n);
        }
      }
    }
  }

  lemma NamesAppend(a: seq<string>, n: string)
    ensures (set x | x in a + [n]) == (set x | x in a) + {n}
  {
  }

  /** The parsed schema has exactly one table for each distinct name that a
      header line gives, and no other. */
  lemma DescriptionTables(description: string)
    ensures var kinds := DescriptionKinds(description);
      (set n | n in TableNames(ExtractSchemaFromDescription(description).tables)) ==
      (set j | 0 <= j < |kinds| && kinds[j].HeaderLine? :: kinds[j].table)
  {
    var kinds := DescriptionKinds(description);
    ParsedNames(kinds, |kinds|);
    HeadersAre(kinds, |kinds|);
  }

  // ---------------------------------------------------------------------------
  // Which columns each table receives
  // ---------------------------------------------------------------------------

  /** The table named by the last header line among the first `m`. */
  function Owner(kinds: seq<LineKind>, m: nat): (r: Option<string>)
    requires m <= |kinds|
    ensures r.None? ==> forall j :: 0 <= j < m ==> !kinds[j].HeaderLine?
  {
    if m == 0 then None
    else if kinds[m - 1].HeaderLine? then Some(kinds[m - 1].table)
    else Owner(kinds, m - 1)
  }

  /** The last of the first `m` lines that is a header for `n`, or -1 when
      there is none. */
  function LastHeader(kinds: seq<LineKind>, m: nat, n: string): (r: int)
    requires m <= |kinds|
    ensures -1 <= r < m
    ensures r == -1 ==> forall j :: 0 <= j < m ==> kinds[j] != HeaderLine(n)
    ensures r >= 0 ==> kinds[r] == HeaderLine(n)
  {
    if m == 0 then -1
    else if kinds[m - 1] == HeaderLine(n) then m - 1
    else LastHeader(kinds, m - 1, n)
  }

  /** The columns declared by lines `lo` up to `hi` while `n` was the table
      being filled, in order. */
  function OwnedColumns(kinds: seq<LineKind>, lo: nat, hi: nat, n: string): seq<Column>
    requires lo <= hi <= |kinds|
    decreases hi - lo
  {
    if hi == lo then []
    else
      OwnedColumns(kinds, lo, hi - 1, n) +
        (if kinds[hi - 1].ColumnLine? && Owner(kinds, hi - 1) == Some(n) then [kinds[hi - 1].col] else [])
  }

  /** After `m` lines, table `t` holds exactly the columns it owned since its
      last header. */
  predicate PlacedTable(kinds: seq<LineKind>, m: nat, t: Table)
    requires m <= |kinds|
  {
    LastHeader(kinds, m, t.name) >= 0 &&
    t.columns == OwnedColumns(kinds, LastHeader(kinds, m, t.name) + 1, m, t.name)
  }

  /** After `m` lines: the current table is the owner, and every table is
      placed. */
  predicate Placed(kinds: seq<LineKind>, m: nat, st: Parse)
    requires m <= |kinds|
  {
    && st.current == Owner(kinds, m)
    && forall k :: 0 <= k < |st.tables| ==> PlacedTable(kinds, m, st.tables[k])
  }

  /** A line that declares no column for `t` leaves it placed, unless it is a
      header for `t`. */
  lemma KeepPlaced(kinds: seq<LineKind>, m: nat, t: Table)
    requires m < |kinds| && PlacedTable(kinds, m, t)
    requires kinds[m] != HeaderLine(t.name)
    requires !kinds[m].ColumnLine? || Owner(kinds, m) != Some(t.name)
    ensures PlacedTable(kinds, m + 1, t)
  {
    assert LastHeader(kinds, m + 1, t.name) == LastHeader(kinds, m, t.name);
  }

  /** A column line read while `t` is being filled extends `t` by that
      column. */
  lemma GrowPlaced(kinds: seq<LineKind>, m: nat, t: Table)
    requires m < |kinds| && PlacedTable(kinds, m, t)
    requires kinds[m].ColumnLine? && Owner(kinds, m) == Some(t.name)
    ensures PlacedTable(kinds, m + 1, t.(columns := t.columns + [kinds[m].col]))
  {
    assert LastHeader(kinds, m + 1, t.name) == LastHeader(kinds, m, t.name);
  }

  lemma HeaderStepPlaces(kinds: seq<LineKind>, m: nat)
    requires m < |kinds| && kinds[m].HeaderLine?
    requires Inv(Parsed(kinds, m)) && Placed(kinds, m, Parsed(kinds, m))
    ensures Placed(kinds, m + 1, Parsed(kinds, m + 1))
  {
    var st := Parsed(kinds, m);
    var st' := Parsed(kinds, m + 1);
    var h := kinds[m].table;
    var k0 := TableIndex(st.tables, h);
    forall k | 0 <= k < |st'.tables|
      ensures PlacedTable(kinds, m + 1, st'.tables[k])
    {
      if k == k0 || k == |st.tables| {
        assert st'.tables[k] == EmptyTable(h);
        assert LastHeader(kinds, m + 1, h) == m;
      } else {
        assert st'.tables[k] == st.tables[k];
        KeepPlaced(kinds, m, st.tables[k]);
      }
    }
  }

  lemma ColumnStepPlaces(kinds: seq<LineKind>, m: nat)
    requires m < |kinds| && kinds[m].ColumnLine? && Parsed(kinds, m).current.Some?
    requires Inv(Parsed(kinds, m)) && Placed(kinds, m, Parsed(kinds, m))
    ensures Placed(kinds, m + 1, Parsed(kinds, m + 1))
  {
    var st := Parsed(kinds, m);
    var st' := Parsed(kinds, m + 1);
    var c := st.current.value;
    var k0 := TableIndex(st.tables, c);
    assert k0 < |st.tables| by {
      assert c in TableNames(st.tables);
    }
    forall k | 0 <= k < |st'.tables|
      ensures PlacedTable(kinds, m + 1, st'.tables[k])
    {
      if k == k0 {
        GrowPlaced(kinds, m, st.tables[k]);
      } else {
        assert st'.tables[k] == st.tables[k];
        KeepPlaced(kinds, m, st.tables[k]);
      }
    }
  }

  lemma QuietStepPlaces(kinds: seq<LineKind>, m: nat)
    requires m < |kinds| && !kinds[m].HeaderLine?
    requires !kinds[m].ColumnLine? || Parsed(kinds, m).current.None?
    requires Inv(Parsed(kinds, m)) && Placed(kinds, m, Parsed(kinds, m))
    ensures Placed(kinds, m + 1, Parsed(kinds, m + 1))
  {
    var st := Parsed(kinds, m);
    assert Parsed(kinds, m + 1) == st;
    forall k | 0 <= k < |st.tables|
      ensures PlacedTable(kinds, m + 1, st.tables[k])
    {
      KeepPlaced(kinds, m, st.tables[k]);
    }
  }

  lemma {:induction false} ParsedPlaces(kinds: seq<LineKind>, m: nat)
    requires m <= |kinds|
    ensures Inv(Parsed(kinds, m)) && Placed(kinds, m, Parsed(kinds, m))
  {
    if m > 0 {
      var j := m - 1;
      ParsedPlaces(kinds, j);
      if kinds[j].HeaderLine? {
        HeaderStepPlaces(kinds, j);
      } else if kinds[j].ColumnLine? && Parsed(kinds, j).current.Some? {
        ColumnStepPlaces(kinds, j);
      } else {
        QuietStepPlaces(kinds, j);
      }
      ParsedInvariant(kinds, m);
    }
  }

  lemma PlacedNamed(kinds: seq<LineKind>, m: nat, t: Table, name: string)
    requires m <= |kinds| && PlacedTable(kinds, m, t) && t.name == name
    ensures LastHeader(kinds, m, name) >= 0
    ensures t.columns == OwnedColumns(kinds, LastHeader(kinds, m, name) + 1, m, name)
  {
  }

  /** Every parsed table holds exactly the column lines that follow its last
      header line while it is the table being filled: a table declared twice
      keeps only its last block, and column lines before any header are
      ignored. */
  lemma {:induction false} DescriptionColumns(description: string, name: string)
    requires name in TableNames(ExtractSchemaFromDescription(description).tables)
    ensures var kinds := DescriptionKinds(description);
      LastHeader(kinds, |kinds|, name) >= 0 &&
      GetTableColumns(ExtractSchemaFromDescription(description), name) ==
        OwnedColumns(kinds, LastHeader(kinds, |kinds|, name) + 1, |kinds|, name)
  {
    var kinds := DescriptionKinds(description);
    var db := ExtractSchemaFromDescription(description);
    ParsedPlaces(kinds, |kinds|);
    var k := TableIndex(db.tables, name);
    assert k < |db.tables| by {
      var i :| 0 <= i < |TableNames(db.tables)| && TableNames(db.tables)[i] == name;
    }
    var t := db.tables[k];
    assert PlacedTable(kinds, |kinds|, t);
    PlacedNamed(kinds, |kinds|, t, name);
  }
}

=== FILE: similarity.dfy ===
/** The comparison of a predicted statement with a reference one: per-clause
    scores, their averages, and the Jaccard overlap of the referenced tables. */
module Similarity {
  import opened Text
  import opened Clauses
  import opened Items
  import opened Metrics
  import opened TableNames

  /** Scores that each lie in [0, 1]. */
  type UnitScores = s: Scores | ScoresInUnit(s) witness Scores(0.0, 0.0, 0.0)

  /** The scores of one clause kind together with the item sets compared. */
  datatype ComponentResult = ComponentResult(scores: UnitScores, pred: set<string>, gold: set<string>)

  /** `components.get(c, '')`. */
  function TextOf(m: map<Clause, string>, c: Clause): string {
    if c in m then m[c] else ""
  }

  /** The comparison of one clause kind: a side without the clause contributes
      no items, and the scores are those of the two item sets. */
  function CompareOne(pred: map<Clause, string>, gold: map<Clause, string>, c: Clause): (r: ComponentResult)
    ensures r.pred == (if c in pred then NormalizeComponent(pred[c]) else {})
    ensures r.gold == (if c in gold then NormalizeComponent(gold[c]) else {})
    ensures r.scores == ComponentMetrics(r.pred, r.gold)
  {
    var p := NormalizeComponent(TextOf(pred, c));
    var g := NormalizeComponent(TextOf(gold, c));
    ComponentResult(ComponentMetrics(p, g), p, g)
  }

  /** `compare_sql_components`: one result for every clause kind present on
      either side. */
  function CompareComponents(pred: map<Clause, string>, gold: map<Clause, string>): (r: map<Clause, ComponentResult>)
    ensures r.Keys == pred.Keys + gold.Keys
  {
    map c | c in pred.Keys + gold.Keys :: CompareOne(pred, gold, c)
  }

  /** The result of a clause kind present on either side compares the item
      sets of the two sides, an absent side giving no items. */
  lemma CompareEntry(pred: map<Clause, string>, gold: map<Clause, string>, c: Clause)
    requires c in pred || c in gold
    ensures c in CompareComponents(pred, gold)
    ensures var e := CompareComponents(pred, gold)[c];
      e.pred == (if c in pred then NormalizeComponent(pred[c]) else {}) &&
      e.gold == (if c in gold then NormalizeComponent(gold[c]) else {}) &&
      e.scores == ComponentMetrics(e.pred, e.gold)
  {
    assert CompareComponents(pred, gold)[c] == CompareOne(pred, gold, c);
  }

  // ---------------------------------------------------------------------------
  // Averages over the compared clauses
  // ---------------------------------------------------------------------------

  datatype Field = Precision | Recall | F1Score

  function Pick(s: Scores, f: Field): real {
    match f
    case Precision => s.precision
    case Recall => s.recall
    case F1Score => s.f1
  }

  /** The sum of field `f` over the results of the clause kinds in `order`. */
  function SumOver(r: map<Clause, ComponentResult>, order: seq<Clause>, f: Field): real
    decreases |order|
  {
    if order == [] then 0.0
    else (if order[0] in r then Pick(r[order[0]].scores, f) else 0.0) + SumOver(r, order[1..], f)
  }

  /** How many clause kinds of `order` are in `keys`. */
  function CountOver(keys: set<Clause>, order: seq<Clause>): nat
    decreases |order|
  {
    if order == [] then 0
    else (if order[0] in keys then 1 else 0) + CountOver(keys, order[1..])
  }

  /** `sum(scores) / len(scores) if scores else 0.0` over all results. */
  function Mean(r: map<Clause, ComponentResult>, f: Field): real {
    if |r| == 0 then 0.0 else SumOver(r, ClauseOrder, f) / |r| as real
  }

  /** `len(A & B) / len(A | B)`, or 0 when both are empty. */
  function Jaccard(a: set<string>, b: set<string>): (r: real)
    ensures InUnit(r)
    ensures a + b == {} ==> r == 0.0
  {
    if |a + b| > 0 then
      SubsetCard(a * b, a + b);
      DivInUnit(|a * b| as real, |a + b| as real);
      |a * b| as real / |a + b| as real
    else 0.0
  }

  /** The distinct elements of a list. */
  function Elems(s: seq<string>): set<string> {
    set x | x in s
  }

  datatype Overall = Overall(f1: real, precision: real, recall: real, tableSimilarity: real)

  datatype Report = Report(
    componentMetrics: map<Clause, ComponentResult>,
    overall: Overall,
    predTables: seq<string>,
    goldTables: seq<string>)

  /** The report on two statements' clauses and table lists: the clause
      results of comparing them, each overall score the average of that score
      over the results (0 without results), and table similarity the Jaccard
      overlap of the table sets. */
  function Compare(pred: map<Clause, string>, gold: map<Clause, string>, predTables: seq<string>, goldTables: seq<string>): (r: Report)
    ensures r.componentMetrics == CompareComponents(pred, gold)
    ensures r.componentMetrics.Keys == pred.Keys + gold.Keys
    ensures r.predTables == predTables && r.goldTables == goldTables
    ensures r.overall.f1 == Mean(r.componentMetrics, F1Score)
    ensures r.overall.precision == Mean(r.componentMetrics, Precision)
    ensures r.overall.recall == Mean(r.componentMetrics, Recall)
    ensures r.componentMetrics == map[] ==>
      r.overall.f1 == 0.0 && r.overall.precision == 0.0 && r.overall.recall == 0.0
    ensures InUnit(r.overall.f1) && InUnit(r.overall.precision) && InUnit(r.overall.recall)
    ensures r.overall.tableSimilarity == Jaccard(Elems(predTables), Elems(goldTables))
    ensures InUnit(r.overall.tableSimilarity)
  {
    var results := CompareComponents(pred, gold);
    MeanInUnit(results, F1Score);
    MeanInUnit(results, Precision);
    MeanInUnit(results, Recall);
    var overall := Overall(
      Mean(results, F1Score), Mean(results, Precision), Mean(results, Recall),
      Jaccard(Elems(predTables), Elems(goldTables)));
    Report(results, overall, predTables, goldTables)
  }

  /** `calculate_sql_similarity`. */
  function CalculateSqlSimilarity(predSql: string, goldSql: string): (r: Report)
    ensures r.componentMetrics == CompareComponents(ExtractComponents(predSql), ExtractComponents(goldSql))
    ensures r.componentMetrics.Keys == ExtractComponents(predSql).Keys + ExtractComponents(goldSql).Keys
    ensures r.predTables == TableNamesOf(predSql) && r.goldTables == TableNamesOf(goldSql)
    ensures r.overall.f1 == Mean(r.componentMetrics, F1Score)
    ensures r.overall.precision == Mean(r.componentMetrics, Precision)
    ensures r.overall.recall == Mean(r.componentMetrics, Recall)
    ensures r.componentMetrics == map[] ==>
      r.overall.f1 == 0.0 && r.overall.precision == 0.0 && r.overall.recall == 0.0
    ensures InUnit(r.overall.f1) && InUnit(r.overall.precision) && InUnit(r.overall.recall)
    ensures r.overall.tableSimilarity == Jaccard(Elems(r.predTables), Elems(r.goldTables))
    ensures InUnit(r.overall.tableSimilarity)
  {
    Compare(ExtractComponents(predSql), ExtractComponents(goldSql), TableNamesOf(predSql), TableNamesOf(goldSql))
  }

  // ---------------------------------------------------------------------------
  // Properties
  // ---------------------------------------------------------------------------

  /** Comparing against a side that lacks a clause scores that clause zero,
      unless the present side's items normalise to nothing. */
  lemma OneSidedClauseScoresZero(pred: map<Clause, string>, gold: map<Clause, string>, c: Clause)
    requires c in pred && c !in gold
    requires NormalizeComponent(pred[c]) != {}
    ensures c in CompareComponents(pred, gold)
    ensures CompareComponents(pred, gold)[c].scores == Scores(0.0, 0.0, 0.0)
  {
    assert NormalizeComponent(TextOf(gold, c)) == {};
  }

  /** Exchanging the two sides exchanges precision and recall of every clause. */
  lemma CompareSwap(pred: map<Clause, string>, gold: map<Clause, string>)
    ensures CompareComponents(gold, pred).Keys == CompareComponents(pred, gold).Keys
    ensures forall c :: c in CompareComponents(pred, gold) ==>
      CompareComponents(gold, pred)[c].scores == Swapped(CompareComponents(pred, gold)[c].scores)
  {
    forall c | c in CompareComponents(pred, gold)
      ensures CompareComponents(gold, pred)[c].scores == Swapped(CompareComponents(pred, gold)[c].scores)
    {
      MetricsSwap(NormalizeComponent(TextOf(pred, c)), NormalizeComponent(TextOf(gold, c)));
    }
  }

  /** A statement compared with itself scores every clause perfectly. */
  lemma SelfCompareIsPerfect(m: map<Clause, string>)
    ensures CompareComponents(m, m).Keys == m.Keys
    ensures forall c :: c in CompareComponents(m, m) ==> CompareComponents(m, m)[c].scores == Scores(1.0, 1.0, 1.0)
  {
    forall c | c in CompareComponents(m, m)
      ensures CompareComponents(m, m)[c].scores == Scores(1.0, 1.0, 1.0)
    {
      SelfScoreIsPerfect(NormalizeComponent(TextOf(m, c)));
    }
  }

  /** `order` lists distinct clause kinds. */
  predicate Distinct(order: seq<Clause>)
    decreases |order|
  {
    order == [] || (order[0] !in order[1..] && Distinct(order[1..]))
  }

  /** Counting over an order that lists every present kind once counts every
      result once. */
  lemma {:induction false} CountOverIsSize(keys: set<Clause>, order: seq<Clause>)
    requires Distinct(order)
    requires forall c :: c in keys ==> c in order
    ensures CountOver(keys, order) == |keys|
    decreases |order|
  {
    if order != [] {
      var c := order[0];
      var rest := order[1..];
      var keys' := keys - {c};
      assert order == [c] + rest;
      assert forall d :: d in keys' ==> d in rest;
      CountOverIsSize(keys', rest);
      CountOverIgnores(keys, c, rest);
      if c in keys {
        assert keys == keys' + {c};
      } else {
        assert keys' == keys;
      }
    }
  }

  /** Counting over an order without `c` does not see whether `c` is present. */
  lemma {:induction false} CountOverIgnores(keys: set<Clause>, c: Clause, order: seq<Clause>)
    requires c !in order
    ensures CountOver(keys - {c}, order) == CountOver(keys, order)
    decreases |order|
  {
    if order != [] {
      assert c != order[0];
      CountOverIgnores(keys, c, order[1..]);
    }
  }

  lemma ClauseOrderDistinct()
    ensures Distinct(ClauseOrder)
  {
    PairwiseDistinct(ClauseOrder);
  }

  lemma {:induction false} PairwiseDistinct(order: seq<Clause>)
    requires forall i, j :: 0 <= i < j < |order| ==> order[i] != order[j]
    ensures Distinct(order)
    decreases |order|
  {
    if order != [] {
      assert forall k :: 0 <= k < |order| - 1 ==> order[1..][k] == order[k + 1];
      PairwiseDistinct(order[1..]);
    }
  }

  /** Each score is in [0, 1], so the sum is between 0 and the count. */
  lemma {:induction false} SumOverBounds(r: map<Clause, ComponentResult>, order: seq<Clause>, f: Field)
    ensures 0.0 <= SumOver(r, order, f) <= CountOver(r.Keys, order) as real
    decreases |order|
  {
    if order != [] {
      SumOverBounds(r, order[1..], f);
    }
  }

  lemma MeanInUnit(r: map<Clause, ComponentResult>, f: Field)
    ensures InUnit(Mean(r, f))
  {
    if |r| > 0 {
      MeanBetween(r, f, 0.0, 1.0);
    }
  }

  /** The average of a field that is 1 for every compared clause is 1. */
  lemma MeanOfPerfect(r: map<Clause, ComponentResult>, f: Field)
    requires |r| > 0
    requires forall c :: c in r ==> Pick(r[c].scores, f) == 1.0
    ensures Mean(r, f) == 1.0
  {
    MeanOfConstant(r, f, 1.0);
  }

  /** `k` copies of `x` added up. */
  function Times(k: nat, x: real): real
    decreases k
  {
    if k == 0 then 0.0 else x + Times(k - 1, x)
  }

  lemma {:induction false} TimesIsProduct(k: nat, x: real)
    ensures Times(k, x) == k as real * x
    decreases k
  {
    if k > 0 {
      TimesIsProduct(k - 1, x);
      MulStep((k - 1) as real, x);
    }
  }

  lemma MulStep(k: real, x: real)
    ensures (1.0 + k) * x == x + k * x
  {
  }

  lemma {:induction false} TimesLess(k: nat, x: real, y: real)
    requires k > 0 && x < y
    ensures Times(k, x) < Times(k, y)
    decreases k
  {
    if k > 1 {
      TimesLess(k - 1, x, y);
    }
  }

  /** Where every result's field `f` lies in [lo, hi], the sum lies between
      `lo` and `hi` added up once per counted result. */
  lemma {:induction false} SumOverBetween(r: map<Clause, ComponentResult>, order: seq<Clause>, f: Field, lo: real, hi: real)
    requires forall c :: c in r ==> lo <= Pick(r[c].scores, f) <= hi
    ensures Times(CountOver(r.Keys, order), lo) <= SumOver(r, order, f) <= Times(CountOver(r.Keys, order), hi)
    decreases |order|
  {
    if order != [] {
      SumOverBetween(r, order[1..], f, lo, hi);
    }
  }

  /** Where every result's field `f` exceeds `lo` and some result is counted,
      the sum exceeds `lo` added up once per counted result. */
  lemma {:induction false} SumOverAbove(r: map<Clause, ComponentResult>, order: seq<Clause>, f: Field, lo: real)
    requires forall c :: c in r ==> lo < Pick(r[c].scores, f)
    requires CountOver(r.Keys, order) > 0
    ensures SumOver(r, order, f) > Times(CountOver(r.Keys, order), lo)
    decreases |order|
  {
    var rest := order[1..];
    if CountOver(r.Keys, rest) > 0 {
      SumOverAbove(r, rest, f, lo);
    } else {
      SumOverUncounted(r, rest, f);
    }
  }

  /** Where every result's field `f` is below `hi` and some result is counted,
      the sum is below `hi` added up once per counted result. */
  lemma {:induction false} SumOverBelow(r: map<Clause, ComponentResult>, order: seq<Clause>, f: Field, hi: real)
    requires forall c :: c in r ==> Pick(r[c].scores, f) < hi
    requires CountOver(r.Keys, order) > 0
    ensures SumOver(r, order, f) < Times(CountOver(r.Keys, order), hi)
    decreases |order|
  {
    var rest := order[1..];
    if CountOver(r.Keys, rest) > 0 {
      SumOverBelow(r, rest, f, hi);
    } else {
      SumOverUncounted(r, rest, f);
    }
  }

  /** Clause kinds without a result add nothing to the sum. */
  lemma {:induction false} SumOverUncounted(r: map<Clause, ComponentResult>, order: seq<Clause>, f: Field)
    requires CountOver(r.Keys, order) == 0
    ensures SumOver(r, order, f) == 0.0
    decreases |order|
  {
    if order != [] {
      SumOverUncounted(r, order[1..], f);
    }
  }

  /** Summing over the clause order counts every result once. */
  lemma CountAll(r: map<Clause, ComponentResult>)
    ensures CountOver(r.Keys, ClauseOrder) == |r|
  {
    ClauseOrderDistinct();
    forall c | c in r
      ensures c in ClauseOrder
    {
      ClauseOrderComplete(c);
    }
    CountOverIsSize(r.Keys, ClauseOrder);
  }

  /** The average added up once per result is the sum. */
  lemma MeanTimesCount(r: map<Clause, ComponentResult>, f: Field)
    requires |r| > 0
    ensures Times(CountOver(r.Keys, ClauseOrder), Mean(r, f)) == SumOver(r, ClauseOrder, f)
  {
    CountAll(r);
    TimesQuotient(|r|, SumOver(r, ClauseOrder, f));
  }

  /** `m / n` added up `n` times is `m`. */
  lemma TimesQuotient(n: nat, m: real)
    requires n > 0
    ensures Times(n, m / n as real) == m
  {
    TimesIsProduct(n, m / n as real);
    DivTimes(m, n as real);
  }

  lemma DivTimes(m: real, n: real)
    requires n > 0.0
    ensures n * (m / n) == m
  {
  }

  /** The average of a field lies within any bounds every result keeps. */
  lemma MeanBetween(r: map<Clause, ComponentResult>, f: Field, lo: real, hi: real)
    requires |r| > 0
    requires forall c :: c in r ==> lo <= Pick(r[c].scores, f) <= hi
    ensures lo <= Mean(r, f) <= hi
  {
    CountAll(r);
    MeanTimesCount(r, f);
    SumOverBetween(r, ClauseOrder, f, lo, hi);
    var k, a := CountOver(r.Keys, ClauseOrder), Mean(r, f);
    if a < lo {
      TimesLess(k, a, lo);
    }
    if hi < a {
      TimesLess(k, hi, a);
    }
  }

  /** The average of a field lies between its smallest and its largest value:
      some result is at or below it and some result at or above it. */
  lemma MeanWithinScores(r: map<Clause, ComponentResult>, f: Field)
    requires |r| > 0
    ensures exists c :: c in r && Pick(r[c].scores, f) <= Mean(r, f)
    ensures exists c :: c in r && Pick(r[c].scores, f) >= Mean(r, f)
  {
    CountAll(r);
    MeanTimesCount(r, f);
    var a := Mean(r, f);
    if forall c :: c in r ==> a < Pick(r[c].scores, f) {
      SumOverAbove(r, ClauseOrder, f, a);
      assert false;
    }
    if forall c :: c in r ==> Pick(r[c].scores, f) < a {
      SumOverBelow(r, ClauseOrder, f, a);
      assert false;
    }
  }

  /** The average of a field that is `v` for every compared clause is `v`. */
  lemma MeanOfConstant(r: map<Clause, ComponentResult>, f: Field, v: real)
    requires |r| > 0
    requires forall c :: c in r ==> Pick(r[c].scores, f) == v
    ensures Mean(r, f) == v
  {
    MeanBetween(r, f, v, v);
  }

  /** Field sums of two result maps agree when the results agree field for field. */
  lemma {:induction false} SumOverSwapped(r: map<Clause, ComponentResult>, s: map<Clause, ComponentResult>, order: seq<Clause>)
    requires r.Keys == s.Keys
    requires forall c :: c in r ==> s[c].scores == Swapped(r[c].scores)
    ensures SumOver(s, order, F1Score) == SumOver(r, order, F1Score)
    ensures SumOver(s, order, Precision) == SumOver(r, order, Recall)
    ensures SumOver(s, order, Recall) == SumOver(r, order, Precision)
    decreases |order|
  {
    if order != [] {
      SumOverSwapped(r, s, order[1..]);
    }
  }

  /** Jaccard similarity does not depend on the order of its arguments. */
  lemma JaccardSymmetric(a: set<string>, b: set<string>)
    ensures Jaccard(a, b) == Jaccard(b, a)
  {
    assert a * b == b * a && a + b == b + a;
  }

  /** A subset as large as its superset is the superset. */
  lemma SubsetSameSize<T>(a: set<T>, b: set<T>)
    requires a <= b && |a| == |b|
    ensures a == b
  {
    if a != b {
      var x :| x in b && x !in a;
      SubsetCard(a, b - {x});
    }
  }

  /** The tables overlap fully exactly when both sides name the same
      non-empty set of tables. */
  lemma JaccardOneIffEqual(a: set<string>, b: set<string>)
    ensures Jaccard(a, b) == 1.0 <==> a == b && a != {}
  {
    if a == b && a != {} {
      assert a * b == a + b;
    }
    if Jaccard(a, b) == 1.0 {
      var i, u := |a * b| as real, |a + b| as real;
      assert u > 0.0;
      assert i / u == 1.0;
      assert i == u;
      SubsetSameSize(a * b, a + b);
      assert a == b by {
        assert a <= a * b && b <= a * b;
      }
    }
  }

  /** Comparing in the other direction keeps F1 and table similarity and
      exchanges precision and recall. */
  lemma SimilaritySwap(predSql: string, goldSql: string)
    ensures CalculateSqlSimilarity(goldSql, predSql).overall ==
      var o := CalculateSqlSimilarity(predSql, goldSql).overall;
      Overall(o.f1, o.recall, o.precision, o.tableSimilarity)
  {
    var p, g := ExtractComponents(predSql), ExtractComponents(goldSql);
    var r, s := CompareComponents(p, g), CompareComponents(g, p);
    CompareSwap(p, g);
    SumOverSwapped(r, s, ClauseOrder);
    JaccardSymmetric(Elems(TableNamesOf(predSql)), Elems(TableNamesOf(goldSql)));
  }

  /** A statement compared with itself scores 1 on every average when it has
      any clause (0 when it has none), and its table similarity is 1 exactly
      when it names a table. */
  lemma SelfSimilarity(sql: string)
    ensures var o := CalculateSqlSimilarity(sql, sql).overall;
      var v := if ExtractComponents(sql) == map[] then 0.0 else 1.0;
      o.f1 == v && o.precision == v && o.recall == v
    ensures CalculateSqlSimilarity(sql, sql).overall.tableSimilarity == 1.0 <==> TableNamesOf(sql) != []
  {
    SelfMeans(ExtractComponents(sql));
    SelfJaccard(TableNamesOf(sql));
  }

  lemma SelfMeans(m: map<Clause, string>)
    ensures var r := CompareComponents(m, m);
      var v := if m == map[] then 0.0 else 1.0;
      Mean(r, F1Score) == v && Mean(r, Precision) == v && Mean(r, Recall) == v
  {
    var r := CompareComponents(m, m);
    SelfCompareIsPerfect(m);
    if m != map[] {
      assert |r| > 0 by {
        var c :| c in m;
        assert c in r;
      }
      MeanOfPerfect(r, F1Score);
      MeanOfPerfect(r, Precision);
      MeanOfPerfect(r, Recall);
    } else {
      assert r == map[];
    }
  }

  lemma SelfJaccard(t: seq<string>)
    ensures Jaccard(Elems(t), Elems(t)) == 1.0 <==> t != []
  {
    JaccardOneIffEqual(Elems(t), Elems(t));
    if t != [] {
      assert t[0] in Elems(t);
    }
  }
}

=== FILE: statement.dfy ===
/** The text clean-up applied to a whole statement before its clauses are
    matched: strip, newlines to spaces, whitespace runs collapsed to one space
    (`' '.join(s.split())`), then upper-case. */
module Statement {
  import opened Text

  /** `s.split()`: the maximal runs of non-whitespace characters, in order. */
  function Words(s: string): (r: seq<string>)
    ensures forall k :: 0 <= k < |r| ==> r[k] != [] && NoSpace(r[k])
    decreases |s|
  {
    if s == [] then []
    else if IsSpace(s[0]) then Words(s[1..])
    else
      var j := RunEnd(s, 0, NonSpace);
      [s[..j]] + Words(s[j..])
  }

  /** `' '.join(words)`. */
  function JoinWords(ws: seq<string>): string
    decreases |ws|
  {
    if |ws| == 0 then ""
    else if |ws| == 1 then ws[0]
    else ws[0] + " " + JoinWords(ws[1..])
  }

  /** `s.replace('\n', ' ')`. */
  function ReplaceNewlines(s: string): (r: string)
    ensures |r| == |s|
    ensures forall j :: 0 <= j < |s| ==> r[j] == (if s[j] == '\n' then ' ' else s[j])
  {
    seq(|s|, j requires 0 <= j < |s| => if s[j] == '\n' then ' ' else s[j])
  }

  /** The shape the clean-up produces: the only whitespace is a single space
      between two non-space characters. */
  predicate Canonical(t: string) {
    && (forall j :: 0 <= j < |t| && IsSpace(t[j]) ==> t[j] == ' ')
    && (|t| > 0 ==> !IsSpace(t[0]) && !IsSpace(t[|t| - 1]))
    && (forall j :: 0 <= j < |t| - 1 && t[j] == ' ' ==> t[j + 1] != ' ')
  }

  /** `' '.join(sql.strip().replace('\n', ' ').split()).upper()`. */
  function NormalizeStatement(sql: string): (r: string)
    ensures Canonical(r) && IsUpper(r)
  {
    var ws := Words(ReplaceNewlines(Strip(sql)));
    JoinWordsCanonical(ws);
    UpperCanonical(JoinWords(ws));
    Upper(JoinWords(ws))
  }

  /** Joining non-empty words without whitespace gives canonical text. */
  lemma {:induction false} JoinWordsCanonical(ws: seq<string>)
    requires forall k :: 0 <= k < |ws| ==> ws[k] != [] && NoSpace(ws[k])
    ensures Canonical(JoinWords(ws))
    ensures |ws| > 0 ==> JoinWords(ws) != []
    decreases |ws|
  {
    if |ws| > 1 {
      JoinWordsCanonical(ws[1..]);
      var w, rest := ws[0], JoinWords(ws[1..]);
      var t := w + " " + rest;
      assert t == JoinWords(ws);
      forall j | 0 <= j < |t| && IsSpace(t[j])
        ensures t[j] == ' '
      {
        if j > |w| {
          assert t[j] == rest[j - |w| - 1];
        }
      }
      forall j | 0 <= j < |t| - 1 && t[j] == ' '
        ensures t[j + 1] != ' '
      {
        if j == |w| {
          assert t[j + 1] == rest[0];
        } else if j > |w| {
          assert t[j] == rest[j - |w| - 1];
          assert t[j + 1] == rest[j - |w|];
        }
      }
    }
  }

  lemma UpperCanonical(t: string)
    requires Canonical(t)
    ensures Canonical(Upper(t))
  {
  }

  /** Splitting canonical text into words and joining them back gives it back. */
  lemma {:induction false} WordsOfCanonical(t: string)
    requires Canonical(t)
    ensures JoinWords(Words(t)) == t
    decreases |t|
  {
    if t != [] {
      var j := RunEnd(t, 0, NonSpace);
      assert t[..j] + t[j..] == t;
      if j == |t| {
        assert Words(t[j..]) == [];
      } else {
        var rest := t[j + 1..];
        CanonicalRest(t);
        SpaceSplit(t, j);
        WordsOfCanonical(rest);
        WordsOfWordStart(rest);
      }
    }
  }

  /** Past the first word of canonical text come one space and canonical
      text again. */
  lemma CanonicalRest(t: string)
    requires Canonical(t) && t != [] && RunEnd(t, 0, NonSpace) < |t|
    ensures var j := RunEnd(t, 0, NonSpace);
      && t[j] == ' ' && t[j + 1..] != [] && !IsSpace(t[j + 1]) && Canonical(t[j + 1..])
  {
    var j := RunEnd(t, 0, NonSpace);
    var rest := t[j + 1..];
    assert t[j] == ' ';
    assert rest != [] && !IsSpace(rest[0]) by {
      assert t[j + 1] != ' ';
    }
    assert Canonical(rest) by {
      forall k | 0 <= k < |rest| - 1 && rest[k] == ' '
        ensures rest[k + 1] != ' '
      {
        assert rest[k] == t[j + 1 + k];
      }
    }
  }

  /** A space in the text separates what comes before it from what comes
      after, and adds no word. */
  lemma SpaceSplit(t: string, j: nat)
    requires j < |t| && t[j] == ' '
    ensures Words(t[j..]) == Words(t[j + 1..])
    ensures t == t[..j] + " " + t[j + 1..]
  {
    assert t[j..][1..] == t[j + 1..];
  }

  /** Text that starts with a non-space character has a word. */
  lemma WordsOfWordStart(s: string)
    requires s != [] && !IsSpace(s[0])
    ensures Words(s) != []
  {
    var j := RunEnd(s, 0, NonSpace);
    assert Words(s) == [s[..j]] + Words(s[j..]);
  }


  /** The clean-up is idempotent: cleaning cleaned text changes nothing. */
  lemma NormalizeStatementIdempotent(sql: string)
    ensures NormalizeStatement(NormalizeStatement(sql)) == NormalizeStatement(sql)
  {
    var t := NormalizeStatement(sql);
    StripTrimmed(t);
    assert ReplaceNewlines(t) == t;
    WordsOfCanonical(t);
    UpperIsUpper(t);
  }

  /** Text is left as it is exactly when it is already canonical and upper-case. */
  lemma NormalizeStatementFixedPoints(t: string)
    ensures NormalizeStatement(t) == t <==> Canonical(t) && IsUpper(t)
  {
    if Canonical(t) && IsUpper(t) {
      StripTrimmed(t);
      assert ReplaceNewlines(t) == t;
      WordsOfCanonical(t);
      UpperIsUpper(t);
    }
  }

  // ---------------------------------------------------------------------------
  // The clean-up keeps the words of the statement
  // ---------------------------------------------------------------------------

  /** The characters of `s` that are not whitespace, in order. */
  function NonSpaceChars(s: string): string
    decreases |s|
  {
    if s == [] then [] else (if IsSpace(s[0]) then [] else [s[0]]) + NonSpaceChars(s[1..])
  }

  /** All the words, run together. */
  function Concat(ws: seq<string>): string
    decreases |ws|
  {
    if ws == [] then [] else ws[0] + Concat(ws[1..])
  }

  /** Every word upper-cased. */
  function UpperAll(ws: seq<string>): (r: seq<string>)
    ensures |r| == |ws| && forall k :: 0 <= k < |ws| ==> r[k] == Upper(ws[k])
  {
    seq(|ws|, k requires 0 <= k < |ws| => Upper(ws[k]))
  }

  lemma {:induction false} NonSpaceAppend(a: string, b: string)
    ensures NonSpaceChars(a + b) == NonSpaceChars(a) + NonSpaceChars(b)
    decreases |a|
  {
    if a == [] {
      assert a + b == b;
    } else {
      assert (a + b)[0] == a[0] && (a + b)[1..] == a[1..] + b;
      NonSpaceAppend(a[1..], b);
    }
  }

  lemma {:induction false} NonSpaceOfWord(w: string)
    requires NoSpace(w)
    ensures NonSpaceChars(w) == w
    decreases |w|
  {
    if w != [] {
      NonSpaceOfWord(w[1..]);
    }
  }

  /** The words hold exactly the non-whitespace characters of the text, in
      order: `split()` loses nothing but whitespace. */
  lemma {:induction false} WordsKeepText(s: string)
    ensures Concat(Words(s)) == NonSpaceChars(s)
    decreases |s|
  {
    if s != [] {
      if IsSpace(s[0]) {
        WordsKeepText(s[1..]);
      } else {
        var j := RunEnd(s, 0, NonSpace);
        WordsKeepText(s[j..]);
        assert s == s[..j] + s[j..];
        NonSpaceAppend(s[..j], s[j..]);
        NonSpaceOfWord(s[..j]);
      }
    }
  }

  /** `s` and `t` differ at most in which whitespace character stands where. */
  predicate SameUpToSpace(s: string, t: string) {
    && |s| == |t|
    && forall j :: 0 <= j < |s| ==> (IsSpace(s[j]) <==> IsSpace(t[j])) && (!IsSpace(s[j]) ==> s[j] == t[j])
  }

  /** Texts that differ only in their whitespace characters have the same words. */
  lemma {:induction false} WordsUpToSpace(s: string, t: string)
    requires SameUpToSpace(s, t)
    ensures Words(s) == Words(t)
    decreases |s|
  {
    if s != [] {
      if IsSpace(s[0]) {
        WordsUpToSpace(s[1..], t[1..]);
      } else {
        var j := RunEnd(s, 0, NonSpace);
        assert forall x :: 0 <= x < j ==> InClass(t[x], NonSpace);
        RunOver(t, 0, j, NonSpace);
        assert s[..j] == t[..j];
        WordsUpToSpace(s[j..], t[j..]);
      }
    }
  }

  /** A whitespace character at the end adds no word. */
  lemma {:induction false} WordsTrailingSpace(s: string, c: char)
    requires IsSpace(c)
    ensures Words(s + [c]) == Words(s)
    decreases |s|
  {
    var t := s + [c];
    if s == [] {
      assert Words(t) == Words(t[1..]);
    } else if IsSpace(s[0]) {
      assert t[1..] == s[1..] + [c];
      WordsTrailingSpace(s[1..], c);
    } else {
      var j := RunEnd(s, 0, NonSpace);
      assert forall x :: 0 <= x < j ==> t[x] == s[x];
      RunOver(t, 0, j, NonSpace);
      assert t[..j] == s[..j];
      assert t[j..] == s[j..] + [c];
      WordsTrailingSpace(s[j..], c);
    }
  }

  lemma {:induction false} WordsOfStripEnd(s: string)
    ensures Words(StripEnd(s)) == Words(s)
    decreases |s|
  {
    if |s| > 0 && IsSpace(s[|s| - 1]) {
      WordsOfStripEnd(s[..|s| - 1]);
      assert s == s[..|s| - 1] + [s[|s| - 1]];
      WordsTrailingSpace(s[..|s| - 1], s[|s| - 1]);
    }
  }

  lemma {:induction false} WordsOfStripStart(s: string)
    ensures Words(StripStart(s)) == Words(s)
    decreases |s|
  {
    if |s| > 0 && IsSpace(s[0]) {
      WordsOfStripStart(s[1..]);
    }
  }

  /** Stripping the ends changes no word. */
  lemma WordsOfStrip(s: string)
    ensures Words(Strip(s)) == Words(s)
  {
    WordsOfStripEnd(StripStart(s));
    WordsOfStripStart(s);
  }

  /** Joining words with single spaces and splitting again gives the words
      back: `split` undoes `' '.join` on words without whitespace. */
  lemma {:induction false} WordsOfJoin(ws: seq<string>)
    requires forall k :: 0 <= k < |ws| ==> ws[k] != [] && NoSpace(ws[k])
    ensures Words(JoinWords(ws)) == ws
    decreases |ws|
  {
    if ws != [] {
      var w := ws[0];
      var t := JoinWords(ws);
      assert forall x :: 0 <= x < |w| ==> t[x] == w[x];
      if |ws| == 1 {
        assert t == w;
        RunOver(t, 0, |w|, NonSpace);
        assert t[..|w|] == w && t[|w|..] == [];
        assert Words(t) == [w] + Words([]);
      } else {
        var rest := JoinWords(ws[1..]);
        assert t == w + " " + rest;
        RunOver(t, 0, |w|, NonSpace);
        assert t[..|w|] == w;
        assert t[|w|..][1..] == rest;
        WordsOfJoin(ws[1..]);
      }
    }
  }

  /** Upper-casing distributes over concatenation. */
  lemma UpperAppend(a: string, b: string)
    ensures Upper(a + b) == Upper(a) + Upper(b)
  {
  }

  lemma {:induction false} UpperJoin(ws: seq<string>)
    ensures Upper(JoinWords(ws)) == JoinWords(UpperAll(ws))
    decreases |ws|
  {
    if |ws| > 1 {
      UpperJoin(ws[1..]);
      assert UpperAll(ws)[1..] == UpperAll(ws[1..]);
      UpperAppend(ws[0] + " ", JoinWords(ws[1..]));
      UpperAppend(ws[0], " ");
    }
  }

  /** The cleaned statement consists of the words of the statement, in order,
      each upper-cased; with `WordsOfCanonical` this fixes the cleaned text. */
  lemma NormalizeStatementWords(sql: string)
    ensures Words(NormalizeStatement(sql)) == UpperAll(Words(sql))
  {
    var a := Strip(sql);
    var ws := Words(ReplaceNewlines(a));
    assert ws == Words(sql) by {
      assert SameUpToSpace(ReplaceNewlines(a), a);
      WordsUpToSpace(ReplaceNewlines(a), a);
      WordsOfStrip(sql);
    }
    assert NormalizeStatement(sql) == JoinWords(UpperAll(ws)) by {
      UpperJoin(ws);
    }
    UpperWords(ws);
    WordsOfJoin(UpperAll(ws));
  }

  lemma UpperWords(ws: seq<string>)
    requires forall k :: 0 <= k < |ws| ==> ws[k] != [] && NoSpace(ws[k])
    ensures forall k :: 0 <= k < |ws| ==> UpperAll(ws)[k] != [] && NoSpace(UpperAll(ws)[k])
  {
  }
}

=== FILE: table_example.dfy ===
/** A worked table-name extraction:
    `SELECT * FROM customers c LEFT JOIN orders o ON c.id = o.customer_id`
    names `customers` (from the FROM list, with the join clause removed and
    the alias dropped) and then `orders` (the word after `JOIN`). */
module TableExample {
  import opened Text
  import opened Scan
  import opened Clauses
  import opened TableNames
  import opened ScanFacts

  /** The statement, written in pieces short enough to index. */
  function Query(): string {
    "SELECT * FROM " + "customers c " + "LEFT JOIN orders o " + "ON c.id = o.customer_id"
  }

  function Head(): string { "SELECT * FROM " }
  function Lead(): string { "customers c " }
  function Clause(): string { "LEFT JOIN orders o " }
  function OnPart(): string { "ON c.id = o.customer_id" }

  /** The stop words of the FROM pattern. */
  const FromKws: seq<string> := ["WHERE", "GROUP BY", "ORDER BY", "LIMIT", "HAVING"]

  // ---------------------------------------------------------------------------
  // The characters of the query
  // ---------------------------------------------------------------------------

  /** The positions of the query's spaces. */
  predicate QuerySpace(j: int) {
    j == 6 || j == 8 || j == 13 || j == 23 || j == 25 || j == 30 || j == 35 || j == 42
    || j == 44 || j == 47 || j == 52 || j == 54
  }

  /** One-line, comma-free, whitespace only at the listed spaces, and `J`
      and `F` (in either case) only where `JOIN`, `FROM` and `LEFT` hold them. */
  predicate CharAt(t: string, j: nat)
    requires j < |t|
  {
    && t[j] != '\n' && t[j] != ',' && (IsSpace(t[j]) ==> QuerySpace(j))
    && (SameIgnoringCase(t[j], 'J') ==> j == 31) && (SameIgnoringCase(t[j], 'F') ==> j == 9 || j == 28)
  }

  lemma Position0(j: int)
    requires 0 <= j < 17
    ensures j == 0 || j == 1 || j == 2 || j == 3 || j == 4 || j == 5 || j == 6 || j == 7 || j == 8
         || j == 9 || j == 10 || j == 11 || j == 12 || j == 13 || j == 14 || j == 15 || j == 16
  {
  }

  lemma Position17(j: int)
    requires 17 <= j < 34
    ensures j == 17 || j == 18 || j == 19 || j == 20 || j == 21 || j == 22 || j == 23 || j == 24 || j == 25
         || j == 26 || j == 27 || j == 28 || j == 29 || j == 30 || j == 31 || j == 32 || j == 33
  {
  }

  lemma Position34(j: int)
    requires 34 <= j < 51
    ensures j == 34 || j == 35 || j == 36 || j == 37 || j == 38 || j == 39 || j == 40 || j == 41 || j == 42
         || j == 43 || j == 44 || j == 45 || j == 46 || j == 47 || j == 48 || j == 49 || j == 50
  {
  }

  lemma Position51(j: int)
    requires 51 <= j < 68
    ensures j == 51 || j == 52 || j == 53 || j == 54 || j == 55 || j == 56 || j == 57 || j == 58 || j == 59
         || j == 60 || j == 61 || j == 62 || j == 63 || j == 64 || j == 65 || j == 66 || j == 67
  {
  }

  lemma Chars0(t: string)
    requires t == Query()
    ensures forall j :: 0 <= j < 17 ==> CharAt(t, j)
  {
    forall j | 0 <= j < 17
      ensures CharAt(t, j)
    {
      Position0(j);
    }
  }

  lemma Chars17(t: string)
    requires t == Query()
    ensures forall j :: 17 <= j < 34 ==> CharAt(t, j)
  {
    forall j | 17 <= j < 34
      ensures CharAt(t, j)
    {
      Position17(j);
    }
  }

  lemma Chars34(t: string)
    requires t == Query()
    ensures forall j :: 34 <= j < 51 ==> CharAt(t, j)
  {
    forall j | 34 <= j < 51
      ensures CharAt(t, j)
    {
      Position34(j);
    }
  }

  lemma Chars51(t: string)
    requires t == Query()
    ensures forall j :: 51 <= j < 68 ==> CharAt(t, j)
  {
    forall j | 51 <= j < 68
      ensures CharAt(t, j)
    {
      Position51(j);
    }
  }

  lemma QueryChars(t: string)
    requires t == Query()
    ensures |t| == 68
    ensures forall j :: 0 <= j < 68 ==> CharAt(t, j)
  {
    Chars0(t);
    Chars17(t);
    Chars34(t);
    Chars51(t);
  }

  // ---------------------------------------------------------------------------
  // The pieces of the query
  // ---------------------------------------------------------------------------

  predicate Pieces(t: string) {
    && |t| == 68 && Spells(t, 0, Head()) && Spells(t, 14, Lead())
    && Spells(t, 26, Clause()) && Spells(t, 45, OnPart())
  }

  lemma QueryPieces(t: string)
    requires t == Query()
    ensures Pieces(t)
  {
    var a, b, c, d := Head(), Lead(), Clause(), OnPart();
    assert t == a + b + c + d;
    assert t[..14] == a;
    assert t[14..26] == b;
    assert t[26..45] == c;
    assert t[45..] == d;
  }

  /** What the proofs below know of the query: its pieces and its characters. */
  predicate Known(t: string) {
    Pieces(t) && forall j :: 0 <= j < |t| ==> CharAt(t, j)
  }

  lemma QueryKnown(t: string)
    requires t == Query()
    ensures Known(t)
  {
    QueryPieces(t);
    QueryChars(t);
  }

  // ---------------------------------------------------------------------------
  // The FROM group
  // ---------------------------------------------------------------------------

  lemma FromKwsAll(s: string, i: nat)
    requires !MatchesAt(s, i, "WHERE") && !MatchesAt(s, i, "GROUP BY") && !MatchesAt(s, i, "ORDER BY")
    requires !MatchesAt(s, i, "LIMIT") && !MatchesAt(s, i, "HAVING")
    ensures forall k :: 0 <= k < |FromKws| ==> !MatchesAt(s, i, FromKws[k])
  {
  }

  lemma FromKwsAfterLead(t: string, x: nat)
    requires |t| == 68 && (x == 23 || x == 25 || x == 30)
    requires t[24] == 'c' && t[26] == 'L' && t[27] == 'E' && t[31] == 'J'
    ensures forall k :: 0 <= k < |FromKws| ==> !MatchesAt(t, x + 1, FromKws[k])
  {
    if x == 23 {
      MissAt(t, 24, "WHERE", 0);
      MissAt(t, 24, "GROUP BY", 0);
      MissAt(t, 24, "ORDER BY", 0);
      MissAt(t, 24, "LIMIT", 0);
      MissAt(t, 24, "HAVING", 0);
    } else if x == 25 {
      MissAt(t, 26, "WHERE", 0);
      MissAt(t, 26, "GROUP BY", 0);
      MissAt(t, 26, "ORDER BY", 0);
      MissAt(t, 26, "LIMIT", 1);
      MissAt(t, 26, "HAVING", 0);
    } else if x == 30 {
      MissAt(t, 31, "WHERE", 0);
      MissAt(t, 31, "GROUP BY", 0);
      MissAt(t, 31, "ORDER BY", 0);
      MissAt(t, 31, "LIMIT", 0);
      MissAt(t, 31, "HAVING", 0);
    }
    FromKwsAll(t, x + 1);
  }

  lemma FromKwsAfterClause(t: string, x: nat)
    requires |t| == 68 && (x == 35 || x == 42 || x == 44)
    requires t[36] == 'o' && t[41] == 's' && t[43] == 'o' && t[44] == ' ' && t[45] == 'O' && t[46] == 'N'
    ensures forall k :: 0 <= k < |FromKws| ==> !MatchesAt(t, x + 1, FromKws[k])
  {
    if x == 35 {
      MissAt(t, 36, "WHERE", 0);
      MissAt(t, 36, "GROUP BY", 0);
      MissAt(t, 36, "ORDER BY", 5);
      MissAt(t, 36, "LIMIT", 0);
      MissAt(t, 36, "HAVING", 0);
    } else if x == 42 {
      MissAt(t, 43, "WHERE", 0);
      MissAt(t, 43, "GROUP BY", 0);
      MissAt(t, 43, "ORDER BY", 1);
      MissAt(t, 43, "LIMIT", 0);
      MissAt(t, 43, "HAVING", 0);
    } else if x == 44 {
      MissAt(t, 45, "WHERE", 0);
      MissAt(t, 45, "GROUP BY", 0);
      MissAt(t, 45, "ORDER BY", 1);
      MissAt(t, 45, "LIMIT", 0);
      MissAt(t, 45, "HAVING", 0);
    }
    FromKwsAll(t, x + 1);
  }

  lemma FromKwsAfterOn(t: string, x: nat)
    requires |t| == 68 && (x == 47 || x == 52 || x == 54)
    requires t[48] == 'c' && t[53] == '=' && t[55] == 'o' && t[56] == '.'
    ensures forall k :: 0 <= k < |FromKws| ==> !MatchesAt(t, x + 1, FromKws[k])
  {
    if x == 47 {
      MissAt(t, 48, "WHERE", 0);
      MissAt(t, 48, "GROUP BY", 0);
      MissAt(t, 48, "ORDER BY", 0);
      MissAt(t, 48, "LIMIT", 0);
      MissAt(t, 48, "HAVING", 0);
    } else if x == 52 {
      MissAt(t, 53, "WHERE", 0);
      MissAt(t, 53, "GROUP BY", 0);
      MissAt(t, 53, "ORDER BY", 0);
      MissAt(t, 53, "LIMIT", 0);
      MissAt(t, 53, "HAVING", 0);
    } else if x == 54 {
      MissAt(t, 55, "WHERE", 0);
      MissAt(t, 55, "GROUP BY", 0);
      MissAt(t, 55, "ORDER BY", 1);
      MissAt(t, 55, "LIMIT", 0);
      MissAt(t, 55, "HAVING", 0);
    }
    FromKwsAll(t, x + 1);
  }

  /** After each space of the FROM list the next word is no stop word. */
  lemma FromKwsAfter(t: string, x: nat)
    requires Pieces(t) && 15 <= x < 68 && QuerySpace(x)
    ensures forall k :: 0 <= k < |FromKws| ==> !MatchesAt(t, x + 1, FromKws[k])
  {
    if x <= 30 {
      SpelledAt(t, 14, Lead(), 10);
      SpelledAt(t, 26, Clause(), 0);
      SpelledAt(t, 26, Clause(), 1);
      SpelledAt(t, 26, Clause(), 5);
      FromKwsAfterLead(t, x);
    } else if x <= 44 {
      SpelledAt(t, 26, Clause(), 10);
      SpelledAt(t, 26, Clause(), 15);
      SpelledAt(t, 26, Clause(), 17);
      SpelledAt(t, 26, Clause(), 18);
      SpelledAt(t, 45, OnPart(), 0);
      SpelledAt(t, 45, OnPart(), 1);
      FromKwsAfterClause(t, x);
    } else {
      SpelledAt(t, 45, OnPart(), 3);
      SpelledAt(t, 45, OnPart(), 8);
      SpelledAt(t, 45, OnPart(), 10);
      SpelledAt(t, 45, OnPart(), 11);
      FromKwsAfterOn(t, x);
    }
  }

  lemma FromNoStopAt(t: string, x: nat)
    requires Known(t) && 15 <= x < 68
    ensures !LookAt(t, x, Stops(FromKws))
  {
    if IsSpace(t[x]) {
      assert CharAt(t, x);
      assert CharAt(t, x + 1);
      FromKwsAfter(t, x);
      NoStopAfterSpace(t, x, FromKws);
    } else {
      NoStopInWord(t, x, FromKws);
    }
  }

  /** No stop of the FROM pattern holds before the end of the statement. */
  lemma FromStopsNowhere(t: string)
    requires Known(t)
    ensures forall x :: 15 <= x < |t| ==> !LookAt(t, x, Stops(FromKws))
  {
    forall x | 15 <= x < |t|
      ensures !LookAt(t, x, Stops(FromKws))
    {
      FromNoStopAt(t, x);
    }
  }

  /** `FROM` at 9 captures everything after `FROM `, to the end. */
  lemma FromAt(t: string)
    requires Known(t)
    ensures MatchAt(t, 9, PatternOf(From)) == Some(Span(14, 68))
  {
    var look := Stops(FromKws);
    assert PatternOf(From) == Headed("FROM", look, false);
    PieceWords();
    SpellsPart(t, 0, Head(), 9, "FROM");
    SpelledAt(t, 0, Head(), 13);
    SpelledAt(t, 14, Lead(), 0);
    RunOver(t, 13, 14, Space);
    FromStopsNowhere(t);
    forall j | 14 <= j < |t|
      ensures t[j] != '\n'
    {
      assert CharAt(t, j);
    }
    assert LookOneAt(t, 68, look[5]);
    LazyToEnd(t, 14, 15, look);
  }

  /** `re.search` finds the FROM pattern first at 9. */
  lemma FromSearch(t: string)
    requires Known(t)
    ensures Search(t, PatternOf(From), 0) == Some(Found(9, Span(14, 68)))
  {
    FromAt(t);
    forall j | 0 <= j < 9
      ensures MatchAt(t, j, PatternOf(From)).None?
    {
      assert CharAt(t, j);
      MissAt(t, j, "FROM", 0);
    }
  }

  // ---------------------------------------------------------------------------
  // Removing the join clause from the FROM group
  // ---------------------------------------------------------------------------

  predicate GroupPieces(g: string) {
    |g| == 54 && Spells(g, 0, Lead()) && Spells(g, 12, Clause()) && Spells(g, 31, OnPart())
  }

  /** The group's pieces, and its characters as those of the query 14 places on. */
  predicate GroupKnown(g: string) {
    && GroupPieces(g)
    && forall j :: 0 <= j < |g| ==> g[j] != '\n' && g[j] != ',' && (IsSpace(g[j]) ==> QuerySpace(j + 14))
  }

  lemma GroupOf(t: string, g: string)
    requires Known(t) && g == t[14..68]
    ensures GroupKnown(g)
  {
    SpellsIn(t, 14, 68, 14, Lead());
    SpellsIn(t, 14, 68, 26, Clause());
    SpellsIn(t, 14, 68, 45, OnPart());
    forall j | 0 <= j < 54
      ensures g[j] != '\n' && g[j] != ',' && (IsSpace(g[j]) ==> QuerySpace(j + 14))
    {
      assert g[j] == t[j + 14] && CharAt(t, j + 14);
    }
  }

  lemma LeadKindsFront(g: string, j: nat)
    requires |g| == 54 && (j == 0 || j == 1 || j == 2 || j == 3)
    requires g[0] == 'c' && g[1] == 'u' && g[2] == 's' && g[3] == 't'
    ensures forall k :: 0 <= k < |JoinKinds| ==> !MatchesAt(g, j, JoinKinds[k])
  {
    if j == 0 {
      MissAt(g, 0, "LEFT", 0);
      MissAt(g, 0, "RIGHT", 0);
      MissAt(g, 0, "INNER", 0);
      MissAt(g, 0, "OUTER", 0);
      MissAt(g, 0, "CROSS", 1);
      MissAt(g, 0, "FULL", 0);
    } else if j == 1 {
      MissAt(g, 1, "LEFT", 0);
      MissAt(g, 1, "RIGHT", 0);
      MissAt(g, 1, "INNER", 0);
      MissAt(g, 1, "OUTER", 0);
      MissAt(g, 1, "CROSS", 0);
      MissAt(g, 1, "FULL", 0);
    } else if j == 2 {
      MissAt(g, 2, "LEFT", 0);
      MissAt(g, 2, "RIGHT", 0);
      MissAt(g, 2, "INNER", 0);
      MissAt(g, 2, "OUTER", 0);
      MissAt(g, 2, "CROSS", 0);
      MissAt(g, 2, "FULL", 0);
    } else if j == 3 {
      MissAt(g, 3, "LEFT", 0);
      MissAt(g, 3, "RIGHT", 0);
      MissAt(g, 3, "INNER", 0);
      MissAt(g, 3, "OUTER", 0);
      MissAt(g, 3, "CROSS", 0);
      MissAt(g, 3, "FULL", 0);
    }
    KindsAll(g, j);
  }

  lemma LeadKindsMiddle(g: string, j: nat)
    requires |g| == 54 && (j == 4 || j == 5 || j == 6 || j == 7)
    requires g[4] == 'o' && g[5] == 'm' && g[6] == 'e' && g[7] == 'r' && g[8] == 's'
    ensures forall k :: 0 <= k < |JoinKinds| ==> !MatchesAt(g, j, JoinKinds[k])
  {
    if j == 4 {
      MissAt(g, 4, "LEFT", 0);
      MissAt(g, 4, "RIGHT", 0);
      MissAt(g, 4, "INNER", 0);
      MissAt(g, 4, "OUTER", 1);
      MissAt(g, 4, "CROSS", 0);
      MissAt(g, 4, "FULL", 0);
    } else if j == 5 {
      MissAt(g, 5, "LEFT", 0);
      MissAt(g, 5, "RIGHT", 0);
      MissAt(g, 5, "INNER", 0);
      MissAt(g, 5, "OUTER", 0);
      MissAt(g, 5, "CROSS", 0);
      MissAt(g, 5, "FULL", 0);
    } else if j == 6 {
      MissAt(g, 6, "LEFT", 0);
      MissAt(g, 6, "RIGHT", 0);
      MissAt(g, 6, "INNER", 0);
      MissAt(g, 6, "OUTER", 0);
      MissAt(g, 6, "CROSS", 0);
      MissAt(g, 6, "FULL", 0);
    } else if j == 7 {
      MissAt(g, 7, "LEFT", 0);
      MissAt(g, 7, "RIGHT", 1);
      MissAt(g, 7, "INNER", 0);
      MissAt(g, 7, "OUTER", 0);
      MissAt(g, 7, "CROSS", 0);
      MissAt(g, 7, "FULL", 0);
    }
    KindsAll(g, j);
  }

  lemma LeadKindsBack(g: string, j: nat)
    requires |g| == 54 && (j == 8 || j == 9 || j == 10 || j == 11)
    requires g[8] == 's' && g[9] == ' ' && g[10] == 'c' && g[11] == ' '
    ensures forall k :: 0 <= k < |JoinKinds| ==> !MatchesAt(g, j, JoinKinds[k])
  {
    if j == 8 {
      MissAt(g, 8, "LEFT", 0);
      MissAt(g, 8, "RIGHT", 0);
      MissAt(g, 8, "INNER", 0);
      MissAt(g, 8, "OUTER", 0);
      MissAt(g, 8, "CROSS", 0);
      MissAt(g, 8, "FULL", 0);
    } else if j == 9 {
      MissAt(g, 9, "LEFT", 0);
      MissAt(g, 9, "RIGHT", 0);
      MissAt(g, 9, "INNER", 0);
      MissAt(g, 9, "OUTER", 0);
      MissAt(g, 9, "CROSS", 0);
      MissAt(g, 9, "FULL", 0);
    } else if j == 10 {
      MissAt(g, 10, "LEFT", 0);
      MissAt(g, 10, "RIGHT", 0);
      MissAt(g, 10, "INNER", 0);
      MissAt(g, 10, "OUTER", 0);
      MissAt(g, 10, "CROSS", 1);
      MissAt(g, 10, "FULL", 0);
    } else if j == 11 {
      MissAt(g, 11, "LEFT", 0);
      MissAt(g, 11, "RIGHT", 0);
      MissAt(g, 11, "INNER", 0);
      MissAt(g, 11, "OUTER", 0);
      MissAt(g, 11, "CROSS", 0);
      MissAt(g, 11, "FULL", 0);
    }
    KindsAll(g, j);
  }

  /** No join kind starts in `customers c `, so nothing there is rewritten. */
  lemma LeadUnchanged(g: string)
    requires GroupPieces(g)
    ensures forall j :: 0 <= j < 12 ==> RewriteAt(g, j, DropJoinClause).None?
  {
    SpelledAt(g, 0, Lead(), 0);
    SpelledAt(g, 0, Lead(), 1);
    SpelledAt(g, 0, Lead(), 2);
    SpelledAt(g, 0, Lead(), 3);
    SpelledAt(g, 0, Lead(), 4);
    SpelledAt(g, 0, Lead(), 5);
    SpelledAt(g, 0, Lead(), 6);
    SpelledAt(g, 0, Lead(), 7);
    SpelledAt(g, 0, Lead(), 8);
    SpelledAt(g, 0, Lead(), 8);
    SpelledAt(g, 0, Lead(), 9);
    SpelledAt(g, 0, Lead(), 10);
    SpelledAt(g, 0, Lead(), 11);
    forall j | 0 <= j < 12
      ensures RewriteAt(g, j, DropJoinClause).None?
    {
      if j < 4 {
        LeadKindsFront(g, j);
      } else if j < 8 {
        LeadKindsMiddle(g, j);
      } else {
        LeadKindsBack(g, j);
      }
      NoKindAt(g, j, JoinKinds);
      NoRewriteWithoutJoinClause(g, j);
    }
  }

  lemma NoOnAt(g: string, j: nat)
    requires |g| == 54 && (j == 21 || j == 22 || j == 23 || j == 24 || j == 25 || j == 26 || j == 27 || j == 28 || j == 29 || j == 30)
    requires g[21] == ' ' && g[23] == 'r' && g[24] == 'd' && g[25] == 'e' && g[26] == 'r' && g[27] == 's' && g[28] == ' ' && g[30] == ' '
    ensures !MatchesAt(g, j, "ON")
  {
    if j == 21 {
      MissAt(g, 21, "ON", 0);
    } else if j == 22 {
      MissAt(g, 22, "ON", 1);
    } else if j == 23 {
      MissAt(g, 23, "ON", 0);
    } else if j == 24 {
      MissAt(g, 24, "ON", 0);
    } else if j == 25 {
      MissAt(g, 25, "ON", 0);
    } else if j == 26 {
      MissAt(g, 26, "ON", 0);
    } else if j == 27 {
      MissAt(g, 27, "ON", 0);
    } else if j == 28 {
      MissAt(g, 28, "ON", 0);
    } else if j == 29 {
      MissAt(g, 29, "ON", 1);
    } else if j == 30 {
      MissAt(g, 30, "ON", 0);
    }

  }

  /** Between `JOIN` and `ON` no `ON` stands. */
  lemma NoOnBefore(g: string)
    requires GroupPieces(g)
    ensures forall j :: 21 <= j < 31 ==> !MatchesAt(g, j, "ON")
  {
    SpelledAt(g, 12, Clause(), 9);
    SpelledAt(g, 12, Clause(), 11);
    SpelledAt(g, 12, Clause(), 12);
    SpelledAt(g, 12, Clause(), 13);
    SpelledAt(g, 12, Clause(), 14);
    SpelledAt(g, 12, Clause(), 15);
    SpelledAt(g, 12, Clause(), 16);
    SpelledAt(g, 12, Clause(), 18);
    forall j | 21 <= j < 31
      ensures !MatchesAt(g, j, "ON")
    {
      NoOnAt(g, j);
    }
  }

  /** After each space past `ON` the next word is no join kind. */
  lemma KindsAfterSpace(g: string, x: nat)
    requires |g| == 54 && (x == 33 || x == 38 || x == 40)
    requires g[34] == 'c' && g[35] == '.' && g[39] == '=' && g[41] == 'o' && g[42] == '.'
    ensures forall k :: 0 <= k < |JoinKinds| ==> !MatchesAt(g, x + 1, JoinKinds[k])
  {
    if x == 33 {
      MissAt(g, 34, "LEFT", 0);
      MissAt(g, 34, "RIGHT", 0);
      MissAt(g, 34, "INNER", 0);
      MissAt(g, 34, "OUTER", 0);
      MissAt(g, 34, "CROSS", 1);
      MissAt(g, 34, "FULL", 0);
    } else if x == 38 {
      MissAt(g, 39, "LEFT", 0);
      MissAt(g, 39, "RIGHT", 0);
      MissAt(g, 39, "INNER", 0);
      MissAt(g, 39, "OUTER", 0);
      MissAt(g, 39, "CROSS", 0);
      MissAt(g, 39, "FULL", 0);
    } else if x == 40 {
      MissAt(g, 41, "LEFT", 0);
      MissAt(g, 41, "RIGHT", 0);
      MissAt(g, 41, "INNER", 0);
      MissAt(g, 41, "OUTER", 1);
      MissAt(g, 41, "CROSS", 0);
      MissAt(g, 41, "FULL", 0);
    }
    KindsAll(g, x + 1);
  }

  /** The part after `ON` runs to the end of the group. */
  lemma OnToEnd(g: string)
    requires GroupKnown(g)
    ensures LazyEnd(g, 33, 33, JoinClauseEnd, false) == Some(54)
  {
    SpelledAt(g, 31, OnPart(), 3);
    SpelledAt(g, 31, OnPart(), 4);
    SpelledAt(g, 31, OnPart(), 8);
    SpelledAt(g, 31, OnPart(), 10);
    SpelledAt(g, 31, OnPart(), 11);
    forall x | 33 <= x < 54
      ensures !LookAt(g, x, JoinClauseEnd)
    {
      if IsSpace(g[x]) {
        assert !IsSpace(g[x + 1]);
        KindsAfterSpace(g, x);
        NoJoinEndAfterSpace(g, x);
      } else {
        NoJoinEndInWord(g, x);
      }
    }
    assert LookOneAt(g, 54, JoinClauseEnd[7]);
    LazyToEnd(g, 33, 33, JoinClauseEnd);
  }

  /** `LEFT JOIN orders o ON c.id = o.customer_id` is one join clause. */
  lemma ClauseAt(g: string)
    requires GroupKnown(g)
    ensures JoinClauseAt(g, 12, JoinKinds) == Some(54)
  {
    PieceWords();
    SpellsPart(g, 12, Clause(), 0, "LEFT");
    SpellsPart(g, 12, Clause(), 5, "JOIN");
    SpellsPart(g, 31, OnPart(), 0, "ON");
    SpelledAt(g, 12, Clause(), 4);
    SpelledAt(g, 12, Clause(), 5);
    RunOver(g, 16, 17, Space);
    NoOnBefore(g);
    OnSkip(g, 21, 21, 31);
    OnToEnd(g);
    assert OnThenEnd(g, 21, 31) == Some(54);
  }

  /** Removing the join clause leaves `customers c `. */
  lemma GroupRewritten(g: string)
    requires GroupKnown(g)
    ensures SubFrom(g, 0, DropJoinClause) == g[0..12]
  {
    LeadUnchanged(g);
    SubFromUntil(g, 0, 12, DropJoinClause);
    ClauseAt(g);
    assert SubFrom(g, 12, DropJoinClause) == "";
  }

  /** The words the proofs pick out of the pieces. */
  lemma PieceWords()
    ensures Head()[9..13] == "FROM" && Clause()[..4] == "LEFT" && Clause()[5..9] == "JOIN"
    ensures Clause()[10..16] == "orders" && OnPart()[..2] == "ON"
  {
    var h, c, o := Head(), Clause(), OnPart();
    assert h[9..13] == "FROM" by {
      assert h[9] == 'F' && h[10] == 'R' && h[11] == 'O' && h[12] == 'M';
    }
    assert c[..4] == "LEFT" by {
      assert c[0] == 'L' && c[1] == 'E' && c[2] == 'F' && c[3] == 'T';
    }
    assert c[5..9] == "JOIN" by {
      assert c[5] == 'J' && c[6] == 'O' && c[7] == 'I' && c[8] == 'N';
    }
    assert c[10..16] == "orders" by {
      assert c[10] == 'o' && c[11] == 'r' && c[12] == 'd' && c[13] == 'e' && c[14] == 'r' && c[15] == 's';
    }
    assert o[..2] == "ON" by {
      assert o[0] == 'O' && o[1] == 'N';
    }
  }

  /** `customers c ` names `customers`; the alias `c` is dropped. */
  lemma LeadTable()
    ensures Names(SplitCommas(Lead())) == ["customers"]
  {
    var lead := Lead();
    LeadChars();
    NoCommaSplit(lead);
    var head := lead[..9];
    StripTrimmed(head);
    assert TableOfPiece(lead) == "customers";
  }

  lemma LeadChars()
    ensures forall j :: 0 <= j < |Lead()| ==> Lead()[j] != ','
    ensures IndexOf(Lead(), ' ', 0) == 9 && Lead()[..9] == "customers"
  {
    var lead := Lead();
    assert |lead| == 12 && lead[9] == ' ' && lead[10] == 'c' && lead[11] == ' ';
    assert lead[..9] == "customers";
    assert forall j :: 0 <= j < 9 ==> lead[j] == "customers"[j];
  }

  /** The FROM list names `customers`. */
  lemma GroupTables(g: string)
    requires GroupKnown(g)
    ensures FromTables(g) == ["customers"]
  {
    GroupRewritten(g);
    assert g[0..12] == Lead();
    LeadTable();
  }

  // ---------------------------------------------------------------------------
  // The word after JOIN
  // ---------------------------------------------------------------------------

  /** `re.finditer(r'JOIN\s+(\w+)')` finds `orders` alone. */
  lemma QueryJoinNames(t: string)
    requires Known(t)
    ensures JoinNames(t, 0) == ["orders"]
  {
    forall j | 0 <= j < |t| && j != 31
      ensures !MatchesAt(t, j, "JOIN")
    {
      assert CharAt(t, j);
      MissAt(t, j, "JOIN", 0);
    }
    PieceWords();
    SpellsPart(t, 26, Clause(), 5, "JOIN");
    SpellsSlice(t, 26, Clause(), 10, 16);
    assert t[36..42] == "orders";
    SpelledAt(t, 26, Clause(), 9);
    SpelledAt(t, 26, Clause(), 16);
    RunOver(t, 35, 36, Space);
    RunOver(t, 36, 42, Word);
    assert JoinNameAt(t, 31) == Some(Span(36, 42));
    JoinNamesFirst(t, 0, 31, Span(36, 42));
    NoJoinNames(t, 42);
  }

  // ---------------------------------------------------------------------------
  // The whole extraction
  // ---------------------------------------------------------------------------

  /** `extract_table_names` of the statement gives the FROM table, then the
      joined table. */
  lemma TablesOfQuery()
    ensures TableNamesOf(Query()) == ["customers", "orders"]
  {
    TablesOf(Query());
  }

  lemma TablesOf(t: string)
    requires t == Query()
    ensures TableNamesOf(t) == ["customers", "orders"]
  {
    QueryKnown(t);
    FromSearch(t);
    var g := t[14..68];
    GroupOf(t, g);
    GroupTables(g);
    QueryJoinNames(t);
    FromBeforeJoins(t);
    var r := TableNamesOf(t);
    assert r == r[..|r| - 1] + r[|r| - 1..];
  }

  // ---------------------------------------------------------------------------
  // A FROM list broken across lines
  // ---------------------------------------------------------------------------

  /** `SELECT *\nFROM a,\nb` names no table: its only FROM gives no match,
      as the list runs on past the line break, and there is no JOIN. */
  lemma BrokenFromLost()
    ensures TableNamesOf("SELECT *\nFROM a,\nb") == []
  {
    BrokenTables("SELECT *\nFROM a,\nb");
  }

  lemma BrokenTables(t: string)
    requires t == "SELECT *\nFROM a,\nb"
    ensures TableNamesOf(t) == []
  {
    BrokenKeywords(t);
    assert "SELECT *\n" + "FROM a,\nb" == t;
    ContinuedFromFails("SELECT *\n");
    BrokenNoFrom(t);
    NoJoinNames(t, 0);
    FromBeforeJoins(t);
  }

  lemma BrokenPosition(j: int)
    requires 0 <= j < 18
    ensures j == 0 || j == 1 || j == 2 || j == 3 || j == 4 || j == 5 || j == 6 || j == 7 || j == 8
         || j == 9 || j == 10 || j == 11 || j == 12 || j == 13 || j == 14 || j == 15 || j == 16 || j == 17
  {
  }

  /** `FROM` starts only at 9, and `JOIN` nowhere. */
  lemma BrokenKeywords(t: string)
    requires t == "SELECT *\nFROM a,\nb"
    ensures forall j :: 0 <= j <= |t| && j != 9 ==> !MatchesAt(t, j, "FROM")
    ensures forall j :: 0 <= j <= |t| ==> !MatchesAt(t, j, "JOIN")
  {
    forall j | 0 <= j <= |t|
      ensures (j != 9 ==> !MatchesAt(t, j, "FROM")) && !MatchesAt(t, j, "JOIN")
    {
      if j < |t| {
        BrokenPosition(j);
        assert !SameIgnoringCase(t[j], 'J') && (j != 9 ==> !SameIgnoringCase(t[j], 'F'));
        MissAt(t, j, "JOIN", 0);
        if j != 9 {
          MissAt(t, j, "FROM", 0);
        }
      }
    }
  }

  lemma BrokenNoFrom(t: string)
    requires |t| == 18
    requires forall j :: 0 <= j <= |t| && j != 9 ==> !MatchesAt(t, j, "FROM")
    requires MatchAt(t, 9, PatternOf(From)).None?
    ensures Search(t, PatternOf(From), 0).None?
  {
    forall j | 0 <= j <= |t|
      ensures MatchAt(t, j, PatternOf(From)).None?
    {
    }
  }
}

=== FILE: tables.dfy ===
/** Table-name extraction: the names in the FROM list of a raw statement,
    with join clauses removed and aliases dropped, followed by every word that
    follows `JOIN`. */
module TableNames {
  import opened Text
  import opened Scan
  import opened Clauses

  /** `part.split(' ')[0].strip()`: the text before the first space, stripped;
      an alias after the name is dropped. */
  function TableOfPiece(part: string): (r: string)
    ensures ' ' !in r && Strip(r) == r
    ensures ',' !in part ==> ',' !in r
  {
    var head := part[..IndexOf(part, ' ', 0)];
    StripIdempotent(head);
    assert ' ' !in Strip(head) by {
      if ' ' in Strip(head) {
        StripChars(head, ' ');
      }
    }
    assert ',' !in part ==> ',' !in Strip(head) by {
      if ',' in Strip(head) {
        StripChars(head, ',');
      }
    }
    Strip(head)
  }

  /** What every extracted table name looks like: non-empty, without spaces
      or commas, with no whitespace at either end. */
  predicate PlainName(t: string) {
    t != [] && ' ' !in t && ',' !in t && Strip(t) == t
  }

  /** The non-empty table names of the comma-separated pieces, in order. */
  function Names(pieces: seq<string>): (r: seq<string>)
    requires forall k :: 0 <= k < |pieces| ==> ',' !in pieces[k]
    ensures |r| <= |pieces|
    ensures forall k :: 0 <= k < |r| ==> PlainName(r[k])
    decreases |pieces|
  {
    if pieces == [] then []
    else
      var t := PieceName(pieces[0]);
      TailCommaFree(pieces);
      var rest := Names(pieces[1..]);
      if t != [] then PlainPrepend(t, rest); [t] + rest else rest
  }

  /** The table name of one comma-free piece, which is empty or plain. */
  function PieceName(piece: string): (r: string)
    requires ',' !in piece
    ensures r == TableOfPiece(piece)
    ensures r != [] ==> PlainName(r)
  {
    TableOfPiece(piece)
  }

  lemma TailCommaFree(pieces: seq<string>)
    requires pieces != [] && forall k :: 0 <= k < |pieces| ==> ',' !in pieces[k]
    ensures forall k :: 0 <= k < |pieces[1..]| ==> ',' !in pieces[1..][k]
  {
  }

  lemma PlainPrepend(t: string, rest: seq<string>)
    requires PlainName(t) && forall k :: 0 <= k < |rest| ==> PlainName(rest[k])
    ensures forall k :: 0 <= k < |rest| + 1 ==> PlainName(([t] + rest)[k])
  {
    forall k | 0 <= k < |rest| + 1
      ensures PlainName(([t] + rest)[k])
    {
      if k > 0 {
        assert ([t] + rest)[k] == rest[k - 1];
      }
    }
  }

  /** The names listed in the text the FROM group captured: join clauses
      removed, then split at commas, each piece cut before its alias. */
  function FromTables(text: string): (r: seq<string>)
    ensures forall k :: 0 <= k < |r| ==> PlainName(r[k])
  {
    Names(SplitCommas(SubFrom(text, 0, DropJoinClause)))
  }

  /** `JOIN\s+(\w+)` at `i`, matched ignoring case: the span of the word. */
  function JoinNameAt(s: string, i: nat): (r: Option<Span>)
    requires i <= |s|
    ensures r.Some? ==> i + 4 < r.value.start < r.value.end <= |s|
  {
    if MatchesAt(s, i, "JOIN") then
      var g := RunEnd(s, i + 4, Space);
      var w := RunEnd(s, g, Word);
      if g > i + 4 && w > g then Some(Span(g, w)) else None
    else None
  }

  /** A match is the keyword, at least one whitespace character, and the
      whole word that follows. */
  lemma JoinNameAtShape(s: string, i: nat)
    requires i <= |s| && JoinNameAt(s, i).Some?
    ensures var sp := JoinNameAt(s, i).value;
      MatchesAt(s, i, "JOIN") && (forall j :: i + 4 <= j < sp.start ==> IsSpace(s[j]))
      && AllWord(s[sp.start..sp.end]) && (sp.end == |s| || !IsWordChar(s[sp.end]))
  {
  }

  /** The outcome of `JOIN\s+(\w+)` at every position of `s`, the end included. */
  function JoinMatches(s: string): (r: seq<Option<Span>>)
    ensures |r| == |s| + 1 && forall j :: 0 <= j <= |s| ==> r[j] == JoinNameAt(s, j)
    ensures Forward(r)
  {
    seq(|s| + 1, j requires 0 <= j <= |s| => JoinNameAt(s, j))
  }

  /** The texts of the spans, in order. */
  function Texts(s: string, spans: seq<Span>): (r: seq<string>)
    requires forall k :: 0 <= k < |spans| ==> spans[k].start <= spans[k].end <= |s|
    ensures |r| == |spans| && forall k :: 0 <= k < |r| ==> r[k] == s[spans[k].start..spans[k].end]
  {
    seq(|spans|, k requires 0 <= k < |spans| => s[spans[k].start..spans[k].end])
  }

  /** `re.finditer(r'JOIN\s+(\w+)', s[i..], re.IGNORECASE)`: the captured
      words of the successive non-overlapping matches. */
  function JoinNames(s: string, i: nat): seq<string>
    requires i <= |s|
  {
    Texts(s, FindAll(JoinMatches(s), i))
  }

  /** Every join name is a non-empty word. */
  lemma JoinNamesWords(s: string, i: nat)
    requires i <= |s|
    ensures forall k :: 0 <= k < |JoinNames(s, i)| ==> JoinNames(s, i)[k] != [] && AllWord(JoinNames(s, i)[k])
  {
    forall k | 0 <= k < |JoinNames(s, i)|
      ensures JoinNames(s, i)[k] != [] && AllWord(JoinNames(s, i)[k])
    {
      var p, sp := JoinNameSource(s, i, k);
      JoinNameAtShape(s, p);
    }
  }

  /** `extract_table_names`: the FROM-list names, then the join names. */
  function TableNamesOf(sql: string): (r: seq<string>)
    ensures sql == [] ==> r == []
    ensures forall k :: 0 <= k < |r| ==> PlainName(r[k])
  {
    if sql == [] then []
    else
      var fromPart :=
        match Search(sql, PatternOf(From), 0)
        case Some(f) => FromTables(sql[f.group.start..f.group.end])
        case None => [];
      var joins := JoinNames(sql, 0);
      JoinNamesPlain(sql);
      fromPart + joins
  }

  lemma JoinNamesPlain(s: string)
    ensures forall k :: 0 <= k < |JoinNames(s, 0)| ==> PlainName(JoinNames(s, 0)[k])
  {
    var joins := JoinNames(s, 0);
    JoinNamesWords(s, 0);
    forall k | 0 <= k < |joins|
      ensures PlainName(joins[k])
    {
      StripTrimmed(joins[k]);
    }
  }

  // ---------------------------------------------------------------------------
  // Properties
  // ---------------------------------------------------------------------------

  /** A name followed by an alias gives the name alone. */
  lemma AliasIgnored(name: string, alias: string)
    requires name != [] && NoSpace(name)
    ensures TableOfPiece(name) == name
    ensures TableOfPiece(name + " " + alias) == name
  {
    var withAlias := name + " " + alias;
    assert IndexOf(name, ' ', 0) == |name|;
    assert IndexOf(withAlias, ' ', 0) == |name| by {
      assert withAlias[|name|] == ' ';
      forall j | 0 <= j < |name|
        ensures withAlias[j] != ' '
      {
        assert withAlias[j] == name[j];
      }
    }
    assert withAlias[..|name|] == name;
    StripTrimmed(name);
  }

  /** Every word is non-empty and ends in an upper-case letter. */
  predicate EndInLetters(words: seq<string>) {
    forall k :: 0 <= k < |words| ==> words[k] != [] && 'A' <= words[k][|words[k]| - 1] <= 'Z'
  }

  /** Where every whitespace character follows a comma, no join clause starts:
      each join kind ends in a letter and must be followed by whitespace. */
  lemma {:induction false} NoJoinClause(s: string, i: nat, kinds: seq<string>)
    requires i <= |s|
    requires SpacesFollowCommas(s)
    requires EndInLetters(kinds)
    ensures JoinClauseAt(s, i, kinds).None?
    decreases |kinds|
  {
    if |kinds| > 0 {
      var kw := kinds[0];
      if MatchesAt(s, i, kw) {
        var lo := i + |kw|;
        var m := RunEnd(s, lo, Space);
        assert m > lo ==> SpaceAt(s, lo);
        assert m == lo;
      }
      NoJoinClause(s, i, kinds[1..]);
    }
  }

  /** Where every whitespace character follows a comma, removing join
      clauses changes nothing. */
  lemma {:induction false} NoJoinClauseFrom(s: string, i: nat)
    requires i <= |s| && SpacesFollowCommas(s)
    ensures SubFrom(s, i, DropJoinClause) == s[i..]
    decreases |s| - i
  {
    if i < |s| {
      assert RewriteAt(s, i, DropJoinClause).None? by {
        JoinKindsEndInLetters();
        NoJoinClause(s, i, JoinKinds);
        NoRewriteWithoutJoinClause(s, i);
      }
      NoJoinClauseFrom(s, i + 1);
      assert s[i..] == [s[i]] + s[i + 1..];
    }
  }

  lemma NoRewriteWithoutJoinClause(s: string, j: nat)
    requires j <= |s| && JoinClauseAt(s, j, JoinKinds).None?
    ensures RewriteAt(s, j, DropJoinClause).None?
  {
  }

  lemma JoinKindsEndInLetters()
    ensures EndInLetters(JoinKinds)
  {
  }

  lemma {:induction false} NamesOfNames(names: seq<string>)
    requires forall k :: 0 <= k < |names| ==> names[k] != [] && NoSpace(names[k]) && ',' !in names[k]
    ensures Names(names) == names
    decreases |names|
  {
    if names != [] {
      var rest := names[1..];
      assert forall k :: 0 <= k < |rest| ==> rest[k] == names[k + 1];
      NamesOfNames(rest);
      NamesHead(names);
      HeadThenRest(names);
    } else {
      assert Names(names) == [];
    }
  }

  lemma HeadThenRest(s: seq<string>)
    requires s != []
    ensures [s[0]] + s[1..] == s
  {
  }

  /** A plain first piece is its own name. */
  lemma NamesHead(pieces: seq<string>)
    requires pieces != [] && pieces[0] != [] && NoSpace(pieces[0])
    requires forall k :: 0 <= k < |pieces| ==> ',' !in pieces[k]
    ensures Names(pieces) == [pieces[0]] + Names(pieces[1..])
  {
    AliasIgnored(pieces[0], "");
  }

  /** A FROM list without join clauses or aliases (every whitespace
      character is the one after a comma) yields exactly its comma-separated
      names, in order. */
  lemma FromTablesOfPlainList(s: string)
    requires SpacesFollowCommas(s)
    requires forall k :: 0 <= k < |SplitCommas(s)| ==> Bare(SplitCommas(s)[k])
    ensures FromTables(s) == SplitCommas(s)
  {
    var names := SplitCommas(s);
    NoJoinClauseFrom(s, 0);
    assert s[0..] == s;
    assert forall k :: 0 <= k < |names| ==> names[k] != [] && NoSpace(names[k]) && ',' !in names[k];
    NamesOfNames(names);
  }

  /** `JOIN name` is found with exactly the word after it. */
  lemma JoinNameOf(pre: string, name: string, post: string)
    requires name != [] && AllWord(name)
    requires post == [] || !IsWordChar(post[0])
    ensures JoinNameAt(pre + "JOIN " + name + post, |pre|) == Some(Span(|pre| + 5, |pre| + 5 + |name|))
  {
    var s := pre + "JOIN " + name + post;
    var i := |pre|;
    assert MatchesAt(s, i, "JOIN") by {
      forall k | 0 <= k < 4
        ensures SameIgnoringCase(s[i + k], "JOIN"[k])
      {
        assert s[i + k] == "JOIN"[k];
      }
    }
    assert s[i + 4] == ' ';
    assert s[i + 5] == name[0];
    var g := RunEnd(s, i + 4, Space);
    assert g == i + 5;
    var w := RunEnd(s, g, Word);
    forall j | g <= j < g + |name|
      ensures s[j] == name[j - g]
    {
    }
    if g + |name| < |s| {
      assert s[g + |name|] == post[0];
    }
    assert w == g + |name|;
  }

  /** Text in which `JOIN` never occurs contributes no join names. */
  lemma NoJoinNames(s: string, i: nat)
    requires i <= |s|
    requires forall j :: i <= j < |s| ==> !MatchesAt(s, j, "JOIN")
    ensures JoinNames(s, i) == []
  {
    JoinNamesEmpty(s, i);
  }

  /** `re.finditer` semantics: the first name is the word of the leftmost
      match at or after `i`, and the scan resumes where that match ends. */
  lemma JoinNamesFirst(s: string, i: nat, p: nat, sp: Span)
    requires i <= p <= |s| && JoinNameAt(s, p) == Some(sp)
    requires forall j :: i <= j < p ==> JoinNameAt(s, j).None?
    ensures JoinNames(s, i) == [s[sp.start..sp.end]] + JoinNames(s, sp.end)
  {
    var ms := JoinMatches(s);
    assert ms[p] == Some(sp) && forall j :: i <= j < p ==> ms[j].None?;
    var rest := FindAll(ms, sp.end);
    assert FindAll(ms, i) == [sp] + rest by {
      FindAllFirst(ms, i, p);
    }
    TextsCons(s, sp, rest);
  }

  lemma TextsCons(s: string, sp: Span, rest: seq<Span>)
    requires sp.start <= sp.end <= |s|
    requires forall k :: 0 <= k < |rest| ==> rest[k].start <= rest[k].end <= |s|
    ensures Texts(s, [sp] + rest) == [s[sp.start..sp.end]] + Texts(s, rest)
  {
    var spans := [sp] + rest;
    assert forall k :: 0 < k < |spans| ==> spans[k] == rest[k - 1];
  }

  /** There are no join names after `i` exactly when the pattern matches at
      no position from `i` on. */
  lemma JoinNamesEmpty(s: string, i: nat)
    requires i <= |s|
    ensures JoinNames(s, i) == [] <==> forall p :: i <= p <= |s| ==> JoinNameAt(s, p).None?
  {
    FindAllEmpty(JoinMatches(s), i);
  }

  /** Every join name is the word of a match at or after `i`: the `k`-th
      is the word `sp` of the match at `p`. */
  lemma JoinNameSource(s: string, i: nat, k: nat) returns (p: nat, sp: Span)
    requires i <= |s| && k < |JoinNames(s, i)|
    ensures i <= p <= |s| && JoinNameAt(s, p) == Some(sp) && JoinNames(s, i)[k] == s[sp.start..sp.end]
  {
    var ms := JoinMatches(s);
    p := FindAllSource(ms, i, k);
    sp := FindAll(ms, i)[k];
  }

  /** The FROM-list names come first, then the join names in the order their
      matches occur in the statement. */
  lemma FromBeforeJoins(sql: string)
    requires sql != []
    ensures var r, joins := TableNamesOf(sql), JoinNames(sql, 0);
      |joins| <= |r| && r[|r| - |joins|..] == joins
    ensures var r, joins := TableNamesOf(sql), JoinNames(sql, 0);
      match Search(sql, PatternOf(From), 0)
      case Some(f) => r[..|r| - |joins|] == FromTables(sql[f.group.start..f.group.end])
      case None => |r| == |joins|
  {
  }

  /** The FROM text is read from the raw statement by a group that `.`
      cannot carry past a newline: it never holds a line break. */
  lemma FromGroupOneLine(sql: string)
    ensures match Search(sql, PatternOf(From), 0)
      case Some(f) => '\n' !in sql[f.group.start..f.group.end]
      case None => true
  {
    match Search(sql, PatternOf(From), 0)
    case Some(f) =>
      var g := sql[f.group.start..f.group.end];
      assert Dotted(sql, f.group.start, f.group.end, false);
      forall j | 0 <= j < |g|
        ensures g[j] != '\n'
      {
        assert g[j] == sql[f.group.start + j];
      }
    case None =>
  }

  /** A FROM list continued on the next line gives no match at that FROM:
      the group cannot reach the line break, and no stop holds before it
      (`\s*$` fails there, as text follows the line break). */
  lemma ContinuedFromFails(pre: string)
    ensures MatchAt(pre + "FROM a,\nb", |pre|, PatternOf(From)).None?
  {
    var t, i := pre + "FROM a,\nb", |pre|;
    ContinuedText(pre);
    ContinuedHead(t, i);
    ContinuedNoEnd(t, i);
  }

  /** `t[i..]` is `FROM a,\nb`. */
  predicate ContinuedAt(t: string, i: nat) {
    i + 9 == |t| && t[i..i + 4] == "FROM" && t[i + 4] == ' ' && t[i + 5] == 'a'
    && t[i + 6] == ',' && t[i + 7] == '\n' && t[i + 8] == 'b'
  }

  lemma ContinuedText(pre: string)
    ensures ContinuedAt(pre + "FROM a,\nb", |pre|)
  {
    var t, i := pre + "FROM a,\nb", |pre|;
    assert t[i..] == "FROM a,\nb";
    assert t[i..i + 4] == t[i..][..4];
  }

  lemma ContinuedHead(t: string, i: nat)
    requires ContinuedAt(t, i)
    ensures MatchesAt(t, i, "FROM") && RunEnd(t, i + 4, Space) == i + 5
  {
    MatchesSlice(t, i, "FROM");
    RunOver(t, i + 4, i + 5, Space);
  }

  lemma ContinuedNoEnd(t: string, i: nat)
    requires ContinuedAt(t, i)
    ensures LazyEnd(t, i + 5, i + 6, Stops(["WHERE", "GROUP BY", "ORDER BY", "LIMIT", "HAVING"]), false).None?
  {
    var kws := ["WHERE", "GROUP BY", "ORDER BY", "LIMIT", "HAVING"];
    RunOver(t, i + 6, i + 6, Space);
    NoStopNear(t, i + 6, kws);
    RunOver(t, i + 7, i + 8, Space);
    NoStopNear(t, i + 7, kws);
  }
}

=== FILE: text.dfy ===
/** Character classes, ASCII case mapping and the small string operations of
    Python's `str` that the rest of the model is built from. */
module Text {

  datatype Option<T> = None | Some(value: T)

  /** Whitespace as `str.split()`, `str.strip()` and the regex class `\s` see it
      (the ASCII members of that class, which include the four separators
      U+001C to U+001F). */
  predicate IsSpace(c: char) {
    c == ' ' || c == '\t' || c == '\n' || c == '\r' || c == '\U{B}' || c == '\U{C}'
    || c == '\U{1C}' || c == '\U{1D}' || c == '\U{1E}' || c == '\U{1F}'
  }

  predicate IsDigit(c: char) {
    '0' <= c <= '9'
  }

  /** The regex class `\w` (ASCII letters, digits and underscore). */
  predicate IsWordChar(c: char) {
    IsDigit(c) || 'a' <= c <= 'z' || 'A' <= c <= 'Z' || c == '_'
  }

  datatype CharClass = Space | NonSpace | Word | Digit | NotNewline

  predicate InClass(c: char, k: CharClass) {
    match k
    case Space => IsSpace(c)
    case NonSpace => !IsSpace(c)
    case Word => IsWordChar(c)
    case Digit => IsDigit(c)
    case NotNewline => c != '\n'
  }

  /** End of the longest run of `k` characters starting at `i`: the point a
      greedy `\s*`, `\w*`, `\d*` or `.*` reaches. */
  function RunEnd(s: string, i: nat, k: CharClass): (r: nat)
    requires i <= |s|
    ensures i <= r <= |s|
    ensures forall j :: i <= j < r ==> InClass(s[j], k)
    ensures r == |s| || !InClass(s[r], k)
    decreases |s| - i
  {
    if i < |s| && InClass(s[i], k) then RunEnd(s, i + 1, k) else i
  }

  /** A run of class `k` over `s[lo..hi]` that stops at `hi` ends there. */
  lemma {:induction false} RunOver(s: string, lo: nat, hi: nat, k: CharClass)
    requires lo <= hi <= |s|
    requires forall j :: lo <= j < hi ==> InClass(s[j], k)
    requires hi == |s| || !InClass(s[hi], k)
    ensures RunEnd(s, lo, k) == hi
    decreases hi - lo
  {
    if lo < hi {
      RunOver(s, lo + 1, hi, k);
    }
  }

  predicate AllWord(s: string) {
    forall j :: 0 <= j < |s| ==> IsWordChar(s[j])
  }

  predicate NoSpace(s: string) {
    forall j :: 0 <= j < |s| ==> !IsSpace(s[j])
  }

  // ---------------------------------------------------------------------------
  // ASCII case mapping (`str.upper`, `str.lower`, `re.IGNORECASE`)
  // ---------------------------------------------------------------------------

  function UpperChar(c: char): (r: char)
    ensures !('a' <= r <= 'z')
    ensures 'a' <= c <= 'z' ==> LowerChar(r) == c
    ensures !('a' <= c <= 'z') ==> r == c
  {
    if 'a' <= c <= 'z' then (c as int - 32) as char else c
  }

  function LowerChar(c: char): (r: char)
    ensures !('A' <= r <= 'Z')
    ensures !('A' <= c <= 'Z') ==> r == c
  {
    if 'A' <= c <= 'Z' then (c as int + 32) as char else c
  }

  function Upper(s: string): (r: string)
    ensures |r| == |s|
    ensures forall j :: 0 <= j < |s| ==> r[j] == UpperChar(s[j])
  {
    seq(|s|, j requires 0 <= j < |s| => UpperChar(s[j]))
  }

  function Lower(s: string): (r: string)
    ensures |r| == |s|
    ensures forall j :: 0 <= j < |s| ==> r[j] == LowerChar(s[j])
  {
    seq(|s|, j requires 0 <= j < |s| => LowerChar(s[j]))
  }

  /** No lower-case ASCII letter: what `str.upper` leaves behind. */
  predicate IsUpper(s: string) {
    forall j :: 0 <= j < |s| ==> !('a' <= s[j] <= 'z')
  }

  lemma UpperIsUpper(s: string)
    ensures IsUpper(Upper(s))
    ensures IsUpper(s) ==> Upper(s) == s
  {
  }

  /** Case-insensitive equality of two characters, as `re.IGNORECASE` compares them. */
  predicate SameIgnoringCase(a: char, b: char) {
    LowerChar(a) == LowerChar(b)
  }

  /** The literal `w` matches `s` at position `i` under `re.IGNORECASE`. */
  predicate MatchesAt(s: string, i: nat, w: string) {
    i + |w| <= |s| && forall k :: 0 <= k < |w| ==> SameIgnoringCase(s[i + k], w[k])
  }

  /** On text without lower-case letters, matching an upper-case literal
      ignoring case is matching it exactly. */
  lemma MatchesAtUpper(s: string, i: nat, w: string)
    requires IsUpper(s) && IsUpper(w)
    requires MatchesAt(s, i, w)
    ensures s[i..i + |w|] == w
  {
    forall k | 0 <= k < |w|
      ensures s[i + k] == w[k]
    {
      assert SameIgnoringCase(s[i + k], w[k]);
    }
  }

  // ---------------------------------------------------------------------------
  // Substrings, prefixes, stripping and splitting
  // ---------------------------------------------------------------------------

  /** `needle in hay` for strings. */
  predicate Contains(hay: string, needle: string)
    decreases |hay|
  {
    needle <= hay || (|hay| > 0 && Contains(hay[1..], needle))
  }

  lemma {:induction false} ContainsAt(hay: string, needle: string, i: nat)
    requires i + |needle| <= |hay| && hay[i..i + |needle|] == needle
    ensures Contains(hay, needle)
    decreases i
  {
    if i == 0 {
      assert needle <= hay;
    } else {
      assert hay[1..][i - 1..i - 1 + |needle|] == needle;
      ContainsAt(hay[1..], needle, i - 1);
    }
  }

  predicate EndsWith(s: string, suffix: string) {
    |suffix| <= |s| && s[|s| - |suffix|..] == suffix
  }

  /** `str.lstrip()`: drops the leading whitespace. */
  function StripStart(s: string): (r: string)
    ensures |r| <= |s| && r == s[|s| - |r|..]
    ensures forall j :: 0 <= j < |s| - |r| ==> IsSpace(s[j])
    ensures r == [] || !IsSpace(r[0])
    decreases |s|
  {
    if |s| > 0 && IsSpace(s[0]) then StripStart(s[1..]) else s
  }

  /** `str.rstrip()`: drops the trailing whitespace. */
  function StripEnd(s: string): (r: string)
    ensures |r| <= |s| && r == s[..|r|]
    ensures forall j :: |r| <= j < |s| ==> IsSpace(s[j])
    ensures r == [] || !IsSpace(r[|r| - 1])
    decreases |s|
  {
    if |s| > 0 && IsSpace(s[|s| - 1]) then StripEnd(s[..|s| - 1]) else s
  }

  /** `str.strip()`. */
  function Strip(s: string): (r: string)
    ensures |r| <= |s|
    ensures r == [] || (!IsSpace(r[0]) && !IsSpace(r[|r| - 1]))
  {
    StripEnd(StripStart(s))
  }

  /** `str.strip()` keeps the text between the leading and the trailing
      whitespace: its result is a slice of the input with only whitespace
      outside it. */
  lemma StripSlice(s: string)
    ensures exists i :: StrippedAt(s, i, Strip(s))
  {
    var a := StripStart(s);
    var r := StripEnd(a);
    var i := |s| - |a|;
    assert a == s[i..];
    assert r == a[..|r|];
    assert r == s[i..i + |r|];
    assert forall j :: i + |r| <= j < |s| ==> s[j] == a[j - i];
    assert r == Strip(s) && StrippedAt(s, i, Strip(s));
  }

  /** `r` is the slice of `s` at `i`, and only whitespace lies outside it. */
  predicate StrippedAt(s: string, i: nat, r: string) {
    && i + |r| <= |s| && s[i..i + |r|] == r
    && (forall j :: 0 <= j < i ==> IsSpace(s[j]))
    && (forall j :: i + |r| <= j < |s| ==> IsSpace(s[j]))
  }

  /** Text with no whitespace at either end is its own strip. */
  lemma StripTrimmed(s: string)
    requires s == [] || (!IsSpace(s[0]) && !IsSpace(s[|s| - 1]))
    ensures Strip(s) == s
  {
  }

  lemma StripIdempotent(s: string)
    ensures Strip(Strip(s)) == Strip(s)
  {
    StripTrimmed(Strip(s));
  }

  /** Every character of `Strip(s)` is a character of `s`. */
  lemma StripChars(s: string, c: char)
    requires c in Strip(s)
    ensures c in s
  {
    var a := StripStart(s);
    assert c in StripEnd(a);
    assert StripEnd(a) == a[..|StripEnd(a)|];
    assert c in a;
    assert a == s[|s| - |a|..];
  }

  /** Index of the first `c` at or after `from`, or `|s|` when there is none. */
  function IndexOf(s: string, c: char, from: nat): (r: nat)
    requires from <= |s|
    ensures from <= r <= |s|
    ensures r < |s| ==> s[r] == c
    ensures forall j :: from <= j < r ==> s[j] != c
    decreases |s| - from
  {
    if from == |s| || s[from] == c then from else IndexOf(s, c, from + 1)
  }

  /** `s.split(sep)` for a one-character separator. */
  function SplitOn(s: string, sep: char): (r: seq<string>)
    ensures |r| >= 1
    ensures forall k :: 0 <= k < |r| ==> sep !in r[k]
    decreases |s|
  {
    var i := IndexOf(s, sep, 0);
    if i == |s| then [s] else [s[..i]] + SplitOn(s[i + 1..], sep)
  }

  /** `sep.join(parts)` for a one-character separator. */
  function JoinOn(parts: seq<string>, sep: char): string
    requires |parts| >= 1
    decreases |parts|
  {
    if |parts| == 1 then parts[0] else parts[0] + [sep] + JoinOn(parts[1..], sep)
  }

  /** Splitting on a character and joining back on it gives the text back. */
  lemma {:induction false} SplitOnJoinOn(s: string, sep: char)
    ensures JoinOn(SplitOn(s, sep), sep) == s
    decreases |s|
  {
    var i := IndexOf(s, sep, 0);
    if i < |s| {
      SplitOnJoinOn(s[i + 1..], sep);
      assert s == s[..i] + [sep] + s[i + 1..];
    }
  }
  /** A run measured inside a suffix ends where it ends in the whole text. */
  lemma RunEndShift(s: string, a: nat, k: CharClass)
    requires a <= |s|
    ensures RunEnd(s[a..], 0, k) == RunEnd(s, a, k) - a
  {
    var e := RunEnd(s, a, k);
    assert forall j :: 0 <= j < e - a ==> s[a..][j] == s[a + j];
    RunOver(s[a..], 0, e - a, k);
  }

  /** `lstrip` drops exactly the leading whitespace run. */
  lemma StripStartRun(s: string)
    ensures StripStart(s) == s[RunEnd(s, 0, Space)..]
  {
    var r := StripStart(s);
    var n := |s| - |r|;
    assert r == s[n..];
    assert n < |s| ==> r[0] == s[n];
    RunOver(s, 0, n, Space);
  }

  /** Searching a suffix that skips no `c` finds the same `c`. */
  lemma IndexOfShift(u: string, c: char, n: nat)
    requires n <= |u| && forall j :: 0 <= j < n ==> u[j] != c
    ensures IndexOf(u[n..], c, 0) == IndexOf(u, c, 0) - n
  {
    var i := IndexOf(u, c, 0);
    var i' := IndexOf(u[n..], c, 0);
    assert i >= n;
    assert forall j :: 0 <= j < i - n ==> u[n..][j] == u[n + j];
    if i < |u| {
      assert u[n..][i - n] == c;
    }
  }

  /** Splitting at `sep` after the leading whitespace gives the same pieces,
      save that the first one loses its leading whitespace. */
  lemma SplitOnSkipSpaces(u: string, sep: char, n: nat)
    requires !IsSpace(sep) && n == RunEnd(u, 0, Space)
    ensures |SplitOn(u[n..], sep)| == |SplitOn(u, sep)|
    ensures SplitOn(u[n..], sep)[0] == StripStart(SplitOn(u, sep)[0])
    ensures SplitOn(u[n..], sep)[1..] == SplitOn(u, sep)[1..]
  {
    var i := IndexOf(u, sep, 0);
    assert n <= i && IndexOf(u[n..], sep, 0) == i - n by {
      assert forall j :: 0 <= j < n ==> u[j] != sep;
      IndexOfShift(u, sep, n);
    }
    assert StripStart(u[..i]) == u[n..][..i - n] by {
      LeadingRun(u, i, n);
      StripStartRun(u[..i]);
    }
    if i < |u| {
      SkipSplitAt(u, sep, n, i);
    } else {
      SkipSplitNone(u, sep, n, i);
    }
  }

  lemma SkipSplitAt(u: string, sep: char, n: nat, i: nat)
    requires n <= i < |u| && i == IndexOf(u, sep, 0) && IndexOf(u[n..], sep, 0) == i - n
    requires StripStart(u[..i]) == u[n..][..i - n]
    ensures |SplitOn(u[n..], sep)| == |SplitOn(u, sep)|
    ensures SplitOn(u[n..], sep)[0] == StripStart(SplitOn(u, sep)[0])
    ensures SplitOn(u[n..], sep)[1..] == SplitOn(u, sep)[1..]
  {
    assert SplitOn(u, sep) == [u[..i]] + SplitOn(u[i + 1..], sep) by {
      SplitFirst(u, sep, i);
    }
    assert SplitOn(u[n..], sep) == [u[n..][..i - n]] + SplitOn(u[n..][i - n + 1..], sep) by {
      SplitFirst(u[n..], sep, i - n);
    }
    DropDrop(u, n, i - n + 1);
    SkipSplitCut(u, sep, n, i);
  }

  lemma SkipSplitNone(u: string, sep: char, n: nat, i: nat)
    requires n <= i == |u| && i == IndexOf(u, sep, 0) && IndexOf(u[n..], sep, 0) == i - n
    requires StripStart(u[..i]) == u[n..][..i - n]
    ensures |SplitOn(u[n..], sep)| == |SplitOn(u, sep)|
    ensures SplitOn(u[n..], sep)[0] == StripStart(SplitOn(u, sep)[0])
    ensures SplitOn(u[n..], sep)[1..] == SplitOn(u, sep)[1..]
  {
    SplitFirst(u, sep, i);
    SplitFirst(u[n..], sep, i - n);
    assert u[..i] == u && u[n..][..i - n] == u[n..];
  }

  lemma SkipSplitCut(u: string, sep: char, n: nat, i: nat)
    requires n <= i < |u|
    requires StripStart(u[..i]) == u[n..][..i - n]
    requires SplitOn(u, sep) == [u[..i]] + SplitOn(u[i + 1..], sep)
    requires SplitOn(u[n..], sep) == [u[n..][..i - n]] + SplitOn(u[n..][i - n + 1..], sep)
    requires u[n..][i - n + 1..] == u[i + 1..]
    ensures |SplitOn(u[n..], sep)| == |SplitOn(u, sep)|
    ensures SplitOn(u[n..], sep)[0] == StripStart(SplitOn(u, sep)[0])
    ensures SplitOn(u[n..], sep)[1..] == SplitOn(u, sep)[1..]
  {
  }

  /** `SplitOn` by its first separator at `i`. */
  lemma SplitFirst(u: string, sep: char, i: nat)
    requires i == IndexOf(u, sep, 0)
    ensures i == |u| ==> SplitOn(u, sep) == [u]
    ensures i < |u| ==> SplitOn(u, sep) == [u[..i]] + SplitOn(u[i + 1..], sep)
  {
  }

  /** The leading whitespace run of a prefix that reaches past it. */
  lemma LeadingRun(u: string, i: nat, n: nat)
    requires n == RunEnd(u, 0, Space) && n <= i <= |u|
    ensures RunEnd(u[..i], 0, Space) == n && u[..i][n..] == u[n..][..i - n]
  {
    var head := u[..i];
    assert forall j :: 0 <= j < n ==> head[j] == u[j];
    if n < i {
      assert head[n] == u[n];
    }
    RunOver(head, 0, n, Space);
  }

  lemma DropDrop(u: string, n: nat, m: nat)
    requires n + m <= |u|
    ensures u[n..][m..] == u[n + m..]
  {
  }

  // ---------------------------------------------------------------------------
  // Literals at fixed positions
  // ---------------------------------------------------------------------------

  /** No position before `n` holds `a` followed by `b`, ignoring case. */
  predicate NoPairBefore(s: string, a: char, b: char, n: nat) {
    forall j :: 0 <= j < n && j + 1 < |s| ==> !(SameIgnoringCase(s[j], a) && SameIgnoringCase(s[j + 1], b))
  }

  /** A literal whose first two characters occur together nowhere before `n`
      matches nowhere before `n`. */
  lemma NoMatchBefore(s: string, w: string, n: nat)
    requires |w| >= 2 && NoPairBefore(s, w[0], w[1], n)
    ensures forall j :: 0 <= j < n ==> !MatchesAt(s, j, w)
  {
  }

  /** A slice equal to the literal, ignoring case, is a match of it. */
  lemma MatchesSlice(s: string, i: nat, w: string)
    requires i + |w| <= |s| && Lower(s[i..i + |w|]) == Lower(w)
    ensures MatchesAt(s, i, w)
  {
    forall k | 0 <= k < |w|
      ensures SameIgnoringCase(s[i + k], w[k])
    {
      assert Lower(s[i..i + |w|])[k] == LowerChar(s[i + k]);
    }
  }

  /** On text without lower-case letters, a pair of upper-case letters is
      absent ignoring case once it is absent exactly. */
  lemma NoPairUpper(s: string, a: char, b: char, n: nat)
    requires IsUpper(s) && 'A' <= a <= 'Z' && 'A' <= b <= 'Z'
    requires forall j :: 0 <= j < n && j + 1 < |s| ==> !(s[j] == a && s[j + 1] == b)
    ensures NoPairBefore(s, a, b, n)
  {
  }

  /** One differing character rules a match out. */
  lemma MissAt(s: string, i: nat, w: string, k: nat)
    requires k < |w| && i + k < |s| && !SameIgnoringCase(s[i + k], w[k])
    ensures !MatchesAt(s, i, w)
  {
  }
}
